=== FILE: README.md ===
# sinner core, modelled in Dafny

This project models the processing core of *sinner*, a command-line
face-swapping tool. A run takes a target (an image, a video or a
directory of frames) and passes it through a chain of frame processors.
Each processor keeps its intermediate frames in a per-processor temp
state, and a terminal `ResultProcessor` writes the final output. The
model covers these parts:

- **the per-processor state** (`sinner/State.py`): its directory layout
  `<temp>/<processor>/<target base>/<source base>/{IN,OUT}`; the
  zero-padded frame file names, whose width is fixed on first use; and
  the frame counters and progress predicates that let an interrupted run
  resume;
- **the runner** (`sinner/Core.py`): the stage list with `ResultProcessor`
  appended; the sequential `run` loop with its stop flag, handler
  selection, skipping of finished stages, temp-resource bookkeeping and
  final clean-up; the output-path suggestion; and the preview chain of
  `get_frame`;
- **the terminal stage** (`sinner/processors/frame/ResultProcessor.py`):
  the output-name suggestion and what `process` hands to the result
  writer;
- **command-line parsing** (`sinner/Parameters.py`): grouping `--key`
  tokens with their values and turning each group into a flag, a text
  value or a list, plus `parse_argument`;
- **the roop utilities** (`roop/utilities.py`): temp directory and output
  paths, output normalisation, creating, moving and cleaning temp files,
  image-extension recognition and the memory-limit computation;
- **the frame-processor base** (`roop/processors/frame/BaseFrameProcessor.py`):
  the processor factory, the shared memory statistics, per-frame
  processing and the thread-pool dispatcher with its memory back-pressure.

Python's path functions (`os.path.basename/dirname/join/splitext`, POSIX
flavour), `str(int)`/`zfill`, and the file system are given their own
small models: modules `PosixPath`, `Decimal` and `FileSystem`. A file
system is a set of directories and a map from file paths to contents.
The state's operations that can raise after a side effect (creating a
directory, then failing) return an `Outcome` that carries the updated
state and file system on both arms. Facts the code learns from outside —
file types, a processor's `is_finished`, the state path of a later
stage, whether a processor's calls raise, memory samples, whether a
frame write succeeds — are parameters.

## Model

| member | source | states |
|---|---|---|
| RunState.NewState | sinner/State.py:33-46 | a fresh state has no padding width and no IN or OUT directory until first asked for |
| RunState.StatePathLayout | sinner/State.py:78-85 | the state path is temp dir / processor / target base name / source base name / directory type, and an empty source name leaves its component out |
| RunState.StatePathShape | sinner/State.py:78-85 | a state path is non-empty, does not end in '/', and ends in its directory type |
| RunState.InOutDistinct | sinner/State.py:10-11 | the IN and OUT directories end in their own names and never coincide |
| RunState.MakePath | sinner/State.py:72-76 | an existing path is left untouched; otherwise the directory and its parents exist afterwards; it fails exactly when the path is missing and a file sits on one of its ancestors; files never change |
| RunState.OutDir | sinner/State.py:48-53 | the first access creates and remembers the OUT path, and fails exactly when that path is missing and a file sits on one of its ancestors; later accesses return it unchanged; a failed creation changes nothing |
| RunState.InDir | sinner/State.py:60-65 | the same contract for the IN directory, with the same failure condition |
| RunState.InDirCountable | sinner/State.py:107-109 | on first access with no file on the IN path's ancestors, counting extracted frames succeeds, remembers the path and changes no file |
| RunState.OutDirCountable | sinner/State.py:102-104 | the same for the OUT directory and the processed-frame count |
| RunState.OutDirStable | sinner/State.py:48-58 | asking twice gives the same directory without touching the file system, and a value set through the setter wins |
| RunState.ZfillLength | sinner/State.py:121-125 | the padding width is the digit count of the frame count on first use and the remembered value afterwards |
| RunState.WidthFixedOnce | sinner/State.py:121-125 | once fixed, the width survives a later change of the frame count |
| RunState.FrameProcessedName | sinner/State.py:116-119 | a processed frame is named `out_dir` / zero-padded index + ".png", with the remembered width; `out_dir` is the one already set, or else the OUT state path, created on the way, and the name fails exactly when a file blocks that path; no file changes |
| RunState.FrameFileNameInjective | sinner/State.py:117-119 | two frame indices never share a file name at one width |
| RunState.FrameProcessedNameInjective | sinner/State.py:116-119 | two frame indices never share a processed-frame path |
| RunState.FrameNamesSortNumerically | sinner/State.py:117-119 | for indices 1..frames_count the frame paths sort as strings exactly as the indices sort as numbers |
| RunState.NamingExamples | sinner/State.py:117-119 | frame 7 of 125 is "007.png", of 9999 it is "0007.png"; frames 1 and 62 of 62 are "01.png" and "62.png" |
| RunState.SaveTempFrame | sinner/State.py:87-89 | saving writes the frame under its processed name and fails exactly when the write fails, with no other change |
| RunState.PngNames | sinner/State.py:104 | exactly the listed names ending in ".png" are counted |
| RunState.OnlyPngCounts | sinner/State.py:102-104 | a new non-PNG file leaves the count unchanged; a new PNG file raises it by one |
| RunState.CountFrames | sinner/State.py:102-109 | a count succeeds exactly when the directory exists and is the number of PNG names in it |
| RunState.UnprocessedFramesCount | sinner/State.py:112-114 | the unprocessed count is the frame count minus the processed count and fails with it |
| RunState.ProgressPredicates | sinner/State.py:92-99 | started means some but not all frames are processed, finished means at least all; never both; frames remain exactly when not finished |
| RunState.CountStable | sinner/State.py:102-104 | counting again after a count changes nothing |
| RunState.AllFramesWrittenMeansFinished | sinner/State.py:97-104 | once every frame 1..frames_count has its file in the OUT directory, the state is finished and not merely started |
| RunState.FramesListed | sinner/State.py:102-104 | when frames 1..k have their files in a directory, its listing holds at least k PNG names |
| Decimal.NatStr | sinner/State.py:124 | the decimal form of a count is all digits with no leading zero |
| Decimal.ValueOfNatStr | sinner/State.py:124 | reading the decimal form back gives the number |
| Decimal.ZFillLength | sinner/State.py:118 | zero-filling reaches the requested width and never truncates |
| Decimal.PaddedNatValue | sinner/State.py:118 | a zero-filled index is all digits and still reads as the index |
| Decimal.PaddedNegative | sinner/State.py:118 | a negative index is zero-filled after its sign, and the digits read as its magnitude |
| Decimal.PaddedInjective | sinner/State.py:118 | distinct indices give distinct zero-filled strings |
| Decimal.LexLessIsNumeric | sinner/State.py:118 | between equal-length digit strings, string order is numeric order |
| FileSystem.MakeDirs | sinner/State.py:75 | creating with parents succeeds exactly when no ancestor is a file and adds exactly the ancestors |
| FileSystem.MakeDirsIdempotent | sinner/State.py:75 | creating the same path twice is the same as once |
| FileSystem.ListingAfterWrite | sinner/State.py:87-89 | writing a file into a directory adds exactly its name to the listing |
| FileSystem.RemoveTree | roop/utilities.py:100 | removing a tree drops the directory and everything below it and nothing else |
| Pipeline.WithResultProcessor | sinner/Core.py:80-85 | a non-empty stage list ends up holding 'ResultProcessor', appended once at the end and only when missing; an empty list stays empty |
| Pipeline.FirstStop | sinner/Core.py:152-153 | the stop boundary is the first loop boundary at which a stop call has been seen |
| Pipeline.FirstFailure | sinner/Core.py:94-103 | the first reached stage whose target has no handler or whose processor cannot be built |
| Pipeline.Run | sinner/Core.py:87-109 | a run processes the stages before the first failure or stop, in order; an aborting stage reports its error, including an exception escaping `process` or `release_resources`, after the calls it made, and skips clean-up; otherwise the collected state paths are deleted unless frames are kept |
| Pipeline.FactoryError | sinner/Core.py:101 | a stage's processor cannot be built exactly when the two-argument factory `Dispatcher.CreateFromParameters` fails, and then with its error: an invalid processor, an argument mismatch or a failed validation |
| Pipeline.RunStage | sinner/Core.py:94-105 | one stage either aborts with the handler error or the factory's own error (unknown name, type error, failed validation), or calls its processor (unless finished) and aborts when `process` or `release_resources` raises, or hands its state path on as the next target |
| Pipeline.AbortCalls | sinner/Core.py:101-103 | a stage that raises has made exactly the creation and processing call, plus the release when it is the release that raised; any other stage made none of them |
| Pipeline.StageCalls | sinner/Core.py:96-103 | a stage whose state is finished makes no processor calls; otherwise it creates, processes and releases |
| Pipeline.StageEventsSkipFinished | sinner/Core.py:96-97 | no processor call of any kind is made for a finished stage |
| Pipeline.StageEventsOnce | sinner/Core.py:101-103 | an unfinished stage creates, processes and releases its processor exactly once each |
| Pipeline.StageEventsDistinct | sinner/Core.py:91-105 | no processor call is repeated during a run |
| Pipeline.StageEventsOrder | sinner/Core.py:101-103 | every creation is followed immediately by processing the stage's own target and then by the release |
| Pipeline.RunStopsAtBoundary | sinner/Core.py:91-93 | after a stop call at boundary k, no stage from k on is processed or collected as a temp resource |
| Pipeline.Resources | sinner/Core.py:104-105 | the temp resources are the state paths of the stages that ran, in order, each being the next stage's target |
| Pipeline.SuggestOutputPath | sinner/Core.py:155-161 | the runner's suggestion is the terminal stage's suggestion without a source |
| Pipeline.RemoveFirst | sinner/Core.py:139-140 | removing 'ResultProcessor' cuts out its first occurrence and keeps everything before and after it in order; a list without it is unchanged |
| Pipeline.FirstIndex | sinner/Core.py:139-140 | the position `list.remove` cuts at holds the value and no earlier position does |
| Pipeline.PreviewChain | sinner/Core.py:141-149 | each preview frame is its stage applied to the frame before it, named after that stage; the chain ends at the last stage or at the first failing one |
| Pipeline.ChainDeterminedBySteps | sinner/Core.py:141-149 | any list of frames built stage by stage that stops at the end or at the first failure is exactly the preview chain |
| Pipeline.GetFrame | sinner/Core.py:127-150 | the preview starts with the original frame; with processing each later frame is the next stage (of the list without 'ResultProcessor') applied to the frame before it, up to the end or the first failure; nothing when no frame could be extracted |
| Pipeline.OriginalThenChain | sinner/Core.py:141-150 | the original followed by the chain satisfies the stage-by-stage description |
| Handlers.SuggestHandler | sinner/Core.py:111-121 | a directory target gets the directory handler, else an image the image handler, else a video the video handler; anything else, or no target, is an error |
| ResultStage.OutputPrefix | sinner/processors/frame/ResultProcessor.py:31 | the prefix is the source's stem and '-', or 'result-' without a source, and never holds a slash |
| ResultStage.SuggestedOutputNaming | sinner/processors/frame/ResultProcessor.py:29-36 | the output goes next to the target, into the output directory, or to the output file as given; in the first two cases it is named prefix + target base name |
| ResultStage.SuggestedOutputKeepsExtension | sinner/processors/frame/ResultProcessor.py:29-36 | a suggested name keeps the target's extension |
| ResultStage.SuggestionValidity | sinner/processors/frame/ResultProcessor.py:20-36 | the default output passes the absolute-path rule exactly when the target path (no output given) or the given output is absolute |
| ResultStage.Process | sinner/processors/frame/ResultProcessor.py:38-43 | the result is written from the state's target to the output exactly when a handler fits the target |
| ResultStage.ProcessFrame | sinner/processors/frame/ResultProcessor.py:45-46 | the terminal stage leaves a preview frame unchanged |
| CommandLine.GroupTokens | sinner/Parameters.py:21-32 | the groups concatenate back to the tokens, every group after the first opens with a '--' token, and no other token of a group does |
| CommandLine.GroupingUnique | sinner/Parameters.py:21-32 | only one grouping of a token list has that shape |
| CommandLine.GroupEntry | sinner/Parameters.py:34-41 | more than two tokens make a list of the values, a lone token without '=' a flag, otherwise text; the key is the first token without dashes, or its part before '=' when two or fewer tokens hold '='; `--key value` sets that value; a key=value token with more than one '=' fails to unpack |
| CommandLine.Assign | sinner/Parameters.py:34-41 | assignment fails exactly when some group fails |
| CommandLine.AssignKeys | sinner/Parameters.py:34-41 | the namespace holds exactly the keys of the groups |
| CommandLine.AssignLastWins | sinner/Parameters.py:34-41 | a key takes the value of its last group |
| CommandLine.CommandLineToNamespace | sinner/Parameters.py:15-42 | the namespace is the assignment of the only valid grouping of the tokens; no tokens give an empty namespace |
| CommandLine.Split | sinner/Parameters.py:40 | splitting gives one more part than there are separators, none of them holding the separator |
| CommandLine.SplitRoundTrip | sinner/Parameters.py:40 | joining the parts with the separator gives back the string |
| CommandLine.SplitPair | sinner/Parameters.py:40 | a key and value without '=' joined by one '=' split back into the two |
| CommandLine.KeyValueForm | sinner/Parameters.py:39-41 | "--key=value" becomes the key without leading dashes with text value |
| CommandLine.KeyValueLine | sinner/Parameters.py:39-41 | a single "--key=value" token gives a namespace with just that entry |
| CommandLine.KeySpaceValueForm | sinner/Parameters.py:39-41 | "--key value" becomes the key without leading dashes with that text value |
| CommandLine.KeySpaceValueLine | sinner/Parameters.py:21-41 | "--key value" as the whole line gives a namespace with just that entry |
| CommandLine.EntryAgreesWithParse | sinner/Parameters.py:39-50 | an argument that `parse_argument` splits into key and value gives the same key (without dashes) and value as a namespace entry |
| CommandLine.ListLine | sinner/Parameters.py:35-36 | "--key" followed by two or more plain values gives a namespace holding the values as a list |
| CommandLine.FlagsLine | sinner/Parameters.py:37-38 | two bare "--key" tokens give two flags |
| CommandLine.SampleDoubleEquals | sinner/Parameters.py:40 | "--a=b=c" alone fails to unpack |
| CommandLine.ParseArgument | sinner/Parameters.py:44-55 | a non-option gives nothing; an option with exactly one '=' after the dashes gives its key and value, which rebuild the argument; other options fail to unpack |
| CommandLine.ParseArgumentPair | sinner/Parameters.py:48-50 | "--key=value" parses back into key and value |
| CommandLine.ListBranchNeverUnpacks | sinner/Parameters.py:53-55 | the last branch splits into one part, so its two-name unpacking always fails |
| Utilities.TempDirectoryLayout | roop/utilities.py:62-65 | the temp directory is named after the target's stem and sits in a 'temp' directory beside the target |
| Utilities.TempOutputLayout | roop/utilities.py:68-70 | the temp output is 'temp.mp4' inside the temp directory |
| Utilities.NormalizeOutputPath | roop/utilities.py:73-79 | the output path is kept unless source and target are set and the output is a directory |
| Utilities.NormalizeAgreesWithSuggestion | roop/utilities.py:73-79 | normalisation into a directory names the output as the result stage would |
| Utilities.NormalizedNaming | roop/utilities.py:73-79 | the normalised name is source stem + '-' + target base name |
| Utilities.CreateTemp | roop/utilities.py:82-85 | creating the temp directory succeeds exactly when no ancestor is a file, and touches no file |
| Utilities.CreateTempIdempotent | roop/utilities.py:82-85 | creating it twice is the same as once |
| Utilities.Move | roop/utilities.py:93 | moving fails exactly when the source is not a file, the destination is a directory that already holds that name, or the parent of the landing path is missing; otherwise it lands at the destination, or inside it when that is a directory, and nothing else changes |
| Utilities.ReplaceBy | roop/utilities.py:91-93 | replacing fails exactly when the file is moved onto itself or the move is refused |
| Utilities.RemovingOutputKeepsRefusals | roop/utilities.py:91-93 | deleting the existing output first makes the move refused only when the file being moved is that output |
| Utilities.ReplaceByEffect | roop/utilities.py:91-93 | replacing the output moves the temp file's contents to the destination and leaves every other path as it was |
| Utilities.MoveTemp | roop/utilities.py:88-93 | without a temp output nothing happens; with one, it fails exactly when the temp output is the output path or the move is refused |
| Utilities.MoveTempSucceeds | roop/utilities.py:88-93 | a temp output moved to a distinct, non-directory output whose parent exists always succeeds |
| Utilities.MoveTempEffect | roop/utilities.py:88-93 | after a successful move of a temp output its contents end at the output path, or at output/temp.mp4 for a directory, and the temp file is gone |
| Utilities.MoveTempOnce | roop/utilities.py:88-93 | moving again after a move changes nothing |
| Utilities.SweepTemp | roop/utilities.py:99-100 | unless frames are kept the temp directory and everything below it are gone; nothing outside it changes |
| Utilities.RemoveIfEmpty | roop/utilities.py:101-102 | the parent is removed exactly when it is empty, and listing a file path fails |
| Utilities.CleanTemp | roop/utilities.py:96-102 | cleaning fails exactly when the temp parent is a file; keeping frames touches nothing but the empty parent |
| Utilities.CleanTempPreserves | roop/utilities.py:96-102 | nothing outside the temp directory and its parent is lost, and the parent goes exactly when empty |
| Utilities.CleanTempRemovesTemp | roop/utilities.py:99-100 | without keep-frames nothing of the temp directory remains |
| Utilities.CleanTempKeepsNonEmptyParent | roop/utilities.py:101-102 | a parent that still holds something stays |
| Utilities.ImageExtensionAppended | roop/utilities.py:105-106 | a path ending in png, jpg or jpeg in any case is an image |
| Utilities.ImageExtensionCaseInsensitive | roop/utilities.py:105-106 | lower-casing a path does not change the verdict |
| Utilities.NotImageWithoutExtension | roop/utilities.py:105-106 | a path ending in none of the three is not an image |
| Utilities.LimitResources | roop/utilities.py:27-43 | no limit for zero; a working-set limit, wrapped to the C size type, exactly on Windows; a data-segment (`RLIMIT_DATA`) limit elsewhere |
| Utilities.LimitInGiB | roop/utilities.py:33-34 | off macOS the limit is the given number of GiB |
| Utilities.DarwinScale | roop/utilities.py:34-36 | on macOS the limit is scaled by another factor of 1024^3 |
| Dispatcher.Create | roop/processors/frame/BaseFrameProcessor.py:24-45 | an unknown name is an invalid processor; a constructor whose required parameters the namespace lacks raises a type error; a failing validation ends creation; otherwise the constructor gets the state and exactly the parameters it names |
| Dispatcher.CreateIgnoresOtherParameters | roop/processors/frame/BaseFrameProcessor.py:28-35 | parameters the constructor does not name make no difference |
| Dispatcher.CreateFromParameters | sinner/Core.py:101 | the two-argument factory: an unknown name is an invalid processor; a constructor whose required parameters (the state among them) the namespace lacks raises a type error; a failing validation ends creation; otherwise the constructor gets exactly the parameters it names and no state |
| Dispatcher.CreateFromParametersDropsState | roop/processors/frame/BaseFrameProcessor.py:24-45 | where the state-adding factory succeeds on a namespace without `state`, the two-argument one succeeds exactly when the constructor does not require the state, with the same arguments less the state |
| Dispatcher.RecordUsage | roop/processors/frame/BaseFrameProcessor.py:53-59 | the recorded maxima never decrease and reach the new sample |
| Dispatcher.RecordAllIsMax | roop/processors/frame/BaseFrameProcessor.py:53-59 | after many samples each recorded maximum is the larger of the old value and the largest sample |
| Dispatcher.RecordAllSplits | roop/processors/frame/BaseFrameProcessor.py:22 | recording two batches in turn leaves the same maxima as recording them as one batch, so the class-level record reads as one history |
| Dispatcher.ProcessFrames | roop/processors/frame/BaseFrameProcessor.py:82-87 | a processed frame is saved under its processed name; a failing processor or write leaves the files as they were |
| Dispatcher.ProcessAllWrites | roop/processors/frame/BaseFrameProcessor.py:82-87 | processing frames writes each successful frame's file and never removes a file; the state gains at most the width, and gains it once a transform succeeds |
| Dispatcher.ProcessAllState | roop/processors/frame/BaseFrameProcessor.py:82-87 | after processing frames the state is unchanged or has its width fixed, and fixed once any transform succeeded |
| Dispatcher.ProcessAllFiles | roop/processors/frame/BaseFrameProcessor.py:82-87 | processing frames keeps the directories and every file, and adds the file of each frame whose transform and save succeed |
| Dispatcher.ProcessFrameSettled | roop/processors/frame/BaseFrameProcessor.py:82-87 | one frame fixes the width exactly when its transform succeeds, removes nothing and writes its file when the save succeeds |
| Dispatcher.MultiProcessFrame | roop/processors/frame/BaseFrameProcessor.py:89-111 | every frame is submitted once and completed once, in order, with the result of processing them in sequence; over the memory ceiling at most one is outstanding, under it all may be |
| Dispatcher.SubmitNext | roop/processors/frame/BaseFrameProcessor.py:100-109 | a submission adds one outstanding frame and, over the ceiling, waits for the oldest |
| Dispatcher.CompleteOldest | roop/processors/frame/BaseFrameProcessor.py:108-109 | waiting for the oldest completes exactly that frame |
| Dispatcher.WaitAll | roop/processors/frame/BaseFrameProcessor.py:110-111 | the final drain completes every outstanding frame without raising the peak |
| Dispatcher.ProcessSetup | roop/processors/frame/BaseFrameProcessor.py:63-76 | processing starts one past the extracted count, with progress one past the processed count, under the processor's own name; afterwards the OUT directory is known and exists, no file has changed and the width and frame count are untouched |
| Dispatcher.DispatchFinishesStage | roop/processors/frame/BaseFrameProcessor.py:89-111 | when every frame 1..frames_count is processed and written, the state is finished afterwards |
| Dispatcher.EveryFrameWritten | roop/processors/frame/BaseFrameProcessor.py:82-111 | a dispatch over frames 1..frames_count that all succeed fixes the width and writes each frame's file |
| Dispatcher.NothingToProcessIsFinished | sinner/State.py:97-99 | a state with no frames is finished once its OUT directory exists |
| Dispatcher.SetUpSucceeds | roop/processors/frame/BaseFrameProcessor.py:63-76 | the set-up of a state with no IN or OUT directory yet succeeds whenever no file sits on the ancestors of either path |
| Dispatcher.NewStateSetUpSucceeds | roop/processors/frame/BaseFrameProcessor.py:63-76 | on a file system without files the set-up of a new state always succeeds |
| Dispatcher.SetUpStageFinishes | roop/processors/frame/BaseFrameProcessor.py:63-111 | `process` end to end: set-up followed by a fully successful dispatch leaves the stage finished |

## Left out

- The face-swapping and face-enhancing processors, the frame handlers' video decoding and encoding, and the GUI: they are model inference and media I/O. Their results are parameters.
- The thread pool's real completion order: finished futures that were not waited for are completed in submission order by the final drain. The as-completed order is nondeterministic.
- Progress bars, status messages and the text that `get_mem_usage` formats: they have no effect on the result. Only the maxima it records are modelled.
- Reading the process memory (psutil) and the memory samples: these are inputs.
- Command-line tokenisation (`sys.argv`, shell quoting): the tokens are an input.
- File-type detection (`is_image`, `is_video`, `os.path.isdir`) and the handlers' frame counts: these are inputs.
- The state path of a later stage and its `is_finished`, inside `run`: these are inputs, because they depend on the processor's own state.
- `load_class` and `inspect.signature`: they are a map from processor name to constructor parameter names and the names that have no default.
- `quit()` in the processor constructor: it becomes the error `ValidationFailed`.
- The `roop.state` module the roop processors import is not part of this model; the dispatcher uses the state model of `sinner/State.py`.
- The helpers of `sinner/utilities.py` (`is_image`, `is_video`, `get_mem_usage` and others) are not part of this model.
- `Lower` folds ASCII letters only: `str.lower` handles all of Unicode, and the image extensions are ASCII.
- Utilities.LimitResources: models the 64-bit wrap of the Windows `SIZE_T` argument but not the range check of `resource.setrlimit` on other systems, whose failure mode depends on the platform.
- Utilities.LimitInGiB: requires the Windows limit to fit the C size type, because beyond it the value wraps.
- ResultStage.SuggestedOutputKeepsExtension: requires a non-empty target extension, because a name without one can gain one from the prefix: target "v" with source "x.y.z" is suggested as "x.y-v", whose extension is ".y-v".
- Utilities.TempOutputLayout: requires a non-empty target stem, because for an empty stem `os.path.join` absorbs the missing component.
- Utilities.MoveTempEffect: requires a non-empty target stem for the same reason.
- Utilities.MoveTempOnce: requires a non-empty target stem, and requires that the temp output is neither the output path nor output/temp.mp4, because otherwise the move is onto itself.
- CommandLine.ParseArgument: its last branch always fails to unpack, as the source does. The model returns that error rather than a value, and ListBranchNeverUnpacks states why.
- Utilities.MoveTemp: a failing move returns only the error, not the file system, so the deletion of an existing output just before a failing `shutil.move` is not modelled.
- Pipeline.FactoryError: the two-argument factory in `sinner/processors/frame/BaseFrameProcessor.py` is not part of this model; `Dispatcher.CreateFromParameters` takes it to be roop's factory without the `state` keyword.
- Pipeline.Run: `keepFrames` is a boolean, but `sinner/Core.py:107` deletes only when the attribute `is False`. A value read from the command line is text or a flag, so any explicit `--keep-frames` value keeps the frames: `keepFrames` is true unless the value is the literal `False`.
- Pipeline.Run: whether `process` or `release_resources` raises is an input per stage and target; where inside `process` the exception arose is not modelled, only which of the two calls raised.

=== FILE: command_line.dfy ===
/** The command-line reader of sinner/Parameters.py. An already tokenised
    argument list is cut into groups, each opened by a '--' token, and
    every group becomes one attribute of the namespace: a list of values,
    a single value, or the flag `True`. */
module CommandLine {
  import opened Results
  import opened PosixPath

  /** A token that opens a new group. */
  predicate IsHead(t: string) {
    StartsWith(t, "--")
  }

  function Concat(gs: seq<seq<string>>): seq<string> {
    if gs == [] then [] else gs[0] + Concat(gs[1..])
  }

  /** The shape of a grouping: no group is empty, every group after the
      first opens with a head, and no head occurs inside a group. */
  predicate WellGrouped(gs: seq<seq<string>>) {
    && (forall i :: 0 <= i < |gs| ==> gs[i] != [])
    && (forall i :: 0 < i < |gs| ==> IsHead(gs[i][0]))
    && (forall i, j :: 0 <= i < |gs| && 0 < j < |gs[i]| ==> !IsHead(gs[i][j]))
  }

  /** The grouping loop of `command_line_to_namespace`: a head closes the
      group being built (when it holds anything) and opens a new one; any
      other token joins the current group. */
  method GroupTokens(tokens: seq<string>) returns (groups: seq<seq<string>>)
    ensures Concat(groups) == tokens
    ensures WellGrouped(groups)
  {
    groups := [];
    var current: seq<string> := [];
    var i := 0;
    while i < |tokens|
      invariant 0 <= i <= |tokens|
      invariant Concat(groups) + current == tokens[..i]
      invariant WellGrouped(groups)
      invariant forall j :: 0 < j < |current| ==> !IsHead(current[j])
      invariant i > 0 ==> current != []
      invariant groups != [] ==> current != [] && IsHead(current[0])
    {
      var item := tokens[i];
      groups, current := Feed(groups, current, item);
      assert tokens[..i + 1] == tokens[..i] + [item];
      i := i + 1;
    }
    if current != [] {
      Close(groups, current);
      groups := groups + [current];
    }
    assert tokens[..i] == tokens;
  }

  /** One step of the grouping loop: a head closes the current group and
      opens a new one; any other token joins the current group. */
  method Feed(groups: seq<seq<string>>, current: seq<string>, item: string)
    returns (groups': seq<seq<string>>, current': seq<string>)
    requires WellGrouped(groups)
    requires forall j :: 0 < j < |current| ==> !IsHead(current[j])
    requires groups != [] ==> current != [] && IsHead(current[0])
    ensures Concat(groups') + current' == Concat(groups) + current + [item]
    ensures WellGrouped(groups')
    ensures forall j :: 0 < j < |current'| ==> !IsHead(current'[j])
    ensures current' != []
    ensures groups' != [] ==> IsHead(current'[0])
    ensures IsHead(item) ==> current' == [item]
    ensures !IsHead(item) ==> current' == current + [item]
  {
    if IsHead(item) {
      if current != [] {
        Close(groups, current);
        groups' := groups + [current];
      } else {
        groups' := groups;
      }
      current' := [item];
    } else {
      groups', current' := groups, current + [item];
    }
  }

  /** Appending a finished group keeps the concatenation and the shape. */
  lemma Close(groups: seq<seq<string>>, current: seq<string>)
    requires WellGrouped(groups)
    requires current != []
    requires forall j :: 0 < j < |current| ==> !IsHead(current[j])
    requires groups != [] ==> IsHead(current[0])
    ensures Concat(groups + [current]) == Concat(groups) + current
    ensures WellGrouped(groups + [current])
  {
    ConcatAppend(groups, current);
    var gs := groups + [current];
    assert forall i :: 0 <= i < |groups| ==> gs[i] == groups[i];
  }

  lemma {:induction false} ConcatAppend(gs: seq<seq<string>>, g: seq<string>)
    ensures Concat(gs + [g]) == Concat(gs) + g
  {
    if gs != [] {
      assert (gs + [g])[1..] == gs[1..] + [g];
      ConcatAppend(gs[1..], g);
    } else {
      assert [g][1..] == [];
    }
  }

  /** The number of leading tokens that are not heads. */
  function NonHeadRun(s: seq<string>): (r: nat)
    ensures r <= |s|
  {
    if s == [] || IsHead(s[0]) then 0 else 1 + NonHeadRun(s[1..])
  }

  lemma {:induction false} RunOfPrefix(x: seq<string>, y: seq<string>)
    requires forall k :: 0 <= k < |x| ==> !IsHead(x[k])
    requires y == [] || IsHead(y[0])
    ensures NonHeadRun(x + y) == |x|
  {
    if x != [] {
      assert (x + y)[1..] == x[1..] + y;
      RunOfPrefix(x[1..], y);
    } else {
      assert x + y == y;
    }
  }

  lemma {:induction false} ConcatEmpty(gs: seq<seq<string>>)
    requires forall i :: 0 <= i < |gs| ==> gs[i] != []
    ensures Concat(gs) == [] <==> gs == []
  {
    if gs != [] {
      assert |Concat(gs)| >= |gs[0]|;
    }
  }

  /** The first group is its head and the run of non-heads after it. */
  lemma FirstGroupLength(gs: seq<seq<string>>)
    requires WellGrouped(gs) && gs != []
    ensures |Concat(gs)| >= 1
    ensures |gs[0]| == 1 + NonHeadRun(Concat(gs)[1..])
  {
    ConcatTail(gs);
    TailOfHeadGroup(gs);
    RestOpensWithHead(gs);
    RunOfPrefix(gs[0][1..], Concat(gs[1..]));
  }

  lemma ConcatTail(gs: seq<seq<string>>)
    requires gs != [] && gs[0] != []
    ensures |Concat(gs)| >= 1
    ensures Concat(gs)[1..] == gs[0][1..] + Concat(gs[1..])
  {
    assert Concat(gs) == gs[0] + Concat(gs[1..]);
  }

  /** After its head, the first group holds no head. */
  lemma TailOfHeadGroup(gs: seq<seq<string>>)
    requires WellGrouped(gs) && gs != []
    ensures forall k :: 0 <= k < |gs[0][1..]| ==> !IsHead(gs[0][1..][k])
  {
    forall k | 0 <= k < |gs[0][1..]|
      ensures !IsHead(gs[0][1..][k])
    {
      assert gs[0][1..][k] == gs[0][k + 1];
    }
  }

  /** What follows the first group opens with a head, if anything does. */
  lemma RestOpensWithHead(gs: seq<seq<string>>)
    requires WellGrouped(gs) && gs != []
    ensures Concat(gs[1..]) == [] || IsHead(Concat(gs[1..])[0])
  {
    if |gs| > 1 {
      assert gs[1..][0] == gs[1];
      assert Concat(gs[1..]) == gs[1] + Concat(gs[1..][1..]);
    }
  }

  /** The grouping is the only one of its shape: two well-grouped lists
      with the same tokens are equal. */
  lemma {:induction false} GroupingUnique(a: seq<seq<string>>, b: seq<seq<string>>)
    requires WellGrouped(a) && WellGrouped(b)
    requires Concat(a) == Concat(b)
    ensures a == b
    decreases |a|
  {
    ConcatEmpty(a);
    ConcatEmpty(b);
    if a != [] {
      FirstGroupLength(a);
      FirstGroupLength(b);
      var n := |a[0]|;
      assert a[0] == Concat(a)[..n];
      assert b[0] == Concat(b)[..n];
      assert Concat(a[1..]) == Concat(a)[n..];
      assert Concat(b[1..]) == Concat(b)[n..];
      assert WellGrouped(a[1..]) && WellGrouped(b[1..]);
      GroupingUnique(a[1..], b[1..]);
      assert a == [a[0]] + a[1..];
      assert b == [b[0]] + b[1..];
    }
  }

  // ---------------------------------------------------------------------
  // `str.split` on a single character

  /** The number of occurrences of `c` in `s`. */
  function Occurrences(s: string, c: char): (r: nat)
    ensures r == 0 <==> c !in s
  {
    if s == [] then 0 else (if s[0] == c then 1 else 0) + Occurrences(s[1..], c)
  }

  /** `s.split(c)`: the pieces between the occurrences of `c`. */
  function Split(s: string, c: char): (r: seq<string>)
    ensures |r| == Occurrences(s, c) + 1
    ensures forall p :: p in r ==> c !in p
  {
    if s == [] then [[]]
    else
      var rest := Split(s[1..], c);
      assert s == [s[0]] + s[1..];
      if s[0] == c then [[]] + rest
      else
        assert forall p :: p in rest[1..] ==> p in rest;
        [[s[0]] + rest[0]] + rest[1..]
  }

  /** `c.join(parts)`. */
  function JoinWith(parts: seq<string>, c: char): string
    requires |parts| >= 1
  {
    if |parts| == 1 then parts[0] else parts[0] + [c] + JoinWith(parts[1..], c)
  }

  /** Joining the pieces again gives back the string. */
  lemma {:induction false} SplitRoundTrip(s: string, c: char)
    ensures JoinWith(Split(s, c), c) == s
  {
    if s != [] {
      var rest := Split(s[1..], c);
      SplitRoundTrip(s[1..], c);
      assert s == [s[0]] + s[1..];
      if s[0] == c {
        JoinWithEmptyHead(rest, c);
      } else {
        JoinWithConsHead(s[0], rest, c);
      }
    }
  }

  /** An empty first piece contributes only its separator. */
  lemma JoinWithEmptyHead(rest: seq<string>, c: char)
    requires |rest| >= 1
    ensures JoinWith([[]] + rest, c) == [c] + JoinWith(rest, c)
  {
    assert ([[]] + rest)[1..] == rest;
  }

  /** A character glued to the front of the first piece comes first. */
  lemma JoinWithConsHead(x: char, rest: seq<string>, c: char)
    requires |rest| >= 1
    ensures JoinWith([[x] + rest[0]] + rest[1..], c) == [x] + JoinWith(rest, c)
  {
    var r := [[x] + rest[0]] + rest[1..];
    if |rest| > 1 {
      var tail := JoinWith(rest[1..], c);
      assert r[1..] == rest[1..];
      assert JoinWith(r, c) == [x] + rest[0] + [c] + tail;
    }
  }

  lemma {:induction false} SplitAbsent(s: string, c: char)
    requires c !in s
    ensures Split(s, c) == [s]
  {
    if s != [] {
      SplitAbsent(s[1..], c);
      assert s == [s[0]] + s[1..];
    }
  }

  /** Splitting `k=v` at its only separator gives `k` and `v`. */
  lemma {:induction false} SplitPair(k: string, v: string, c: char)
    requires c !in k && c !in v
    ensures Split(k + [c] + v, c) == [k, v]
  {
    var s := k + [c] + v;
    if k == [] {
      assert s[0] == c && s[1..] == v;
      SplitAbsent(v, c);
    } else {
      assert s[0] == k[0] && s[1..] == k[1..] + [c] + v;
      SplitPair(k[1..], v, c);
      var rest := Split(s[1..], c);
      assert rest == [k[1..], v];
      assert Split(s, c) == [[k[0]] + rest[0]] + rest[1..];
      assert [k[0]] + k[1..] == k;
    }
  }

  // ---------------------------------------------------------------------
  // From groups to attributes

  /** The value of an attribute: a list of tokens, one token, or `True`. */
  datatype Value = Items(items: seq<string>) | Text(text: string) | Flag

  /** One group's attribute. More than two tokens: the head, stripped of
      leading '-', names the list of the others. A lone token without '='
      is a flag. Otherwise a head holding '=' is split into key and value
      (the second token, if any, is ignored) and must hold exactly one '=';
      a head without it names the second token. */
  function GroupEntry(g: seq<string>): (r: Result<(string, Value)>)
    requires g != []
    ensures r.Err? <==> |g| <= 2 && Occurrences(g[0], '=') >= 2
    ensures r.Err? ==> r.error == UnpackError
    ensures r.Ok? ==> r.value.0 == [] || r.value.0[0] != '-'
    ensures r.Ok? ==> (r.value.1.Items? <==> |g| > 2)
    ensures r.Ok? ==> (r.value.1.Flag? <==> |g| == 1 && '=' !in g[0])
    ensures r.Ok? && r.value.1.Items? ==> r.value.1.items == g[1..]
    ensures r.Ok? && r.value.1.Text? ==> '=' !in r.value.1.text || |g| == 2
    ensures r.Ok? && (|g| > 2 || '=' !in g[0]) ==> r.value.0 == LStripDashes(g[0])
    ensures |g| == 2 && '=' !in g[0] ==> r == Ok((LStripDashes(g[0]), Text(g[1])))
    ensures r.Ok? && |g| <= 2 && '=' in g[0] ==>
      var parts := Split(g[0], '=');
      |parts| == 2 && r.value == (LStripDashes(parts[0]), Text(parts[1]))
  {
    if |g| > 2 then Ok((LStripDashes(g[0]), Items(g[1..])))
    else if |g| == 1 && '=' !in g[0] then Ok((LStripDashes(g[0]), Flag))
    else if '=' in g[0] then
      var parts := Split(g[0], '=');
      if |parts| != 2 then Err(UnpackError)
      else
        assert parts[1] in parts;
        Ok((LStripDashes(parts[0]), Text(parts[1])))
    else Ok((LStripDashes(g[0]), Text(g[1])))
  }

  /** The attributes of a grouping, later groups overwriting earlier ones;
      the first group that cannot be unpacked aborts. */
  function Assign(gs: seq<seq<string>>): (r: Result<map<string, Value>>)
    requires forall i :: 0 <= i < |gs| ==> gs[i] != []
    ensures r.Err? <==> exists i :: 0 <= i < |gs| && GroupEntry(gs[i]).Err?
    ensures gs == [] ==> r == Ok(map[])
  {
    if gs == [] then Ok(map[])
    else
      var init := gs[..|gs| - 1];
      assert forall i :: 0 <= i < |init| ==> init[i] == gs[i];
      var ns :- Assign(init);
      var e :- GroupEntry(gs[|gs| - 1]);
      Ok(ns[e.0 := e.1])
  }

  /** `command_line_to_namespace` on a token list: the grouping and the
      namespace built from it. */
  method CommandLineToNamespace(tokens: seq<string>) returns (groups: seq<seq<string>>, r: Result<map<string, Value>>)
    ensures Concat(groups) == tokens && WellGrouped(groups)
    ensures r == Assign(groups)
    ensures tokens == [] ==> r == Ok(map[])
  {
    groups := GroupTokens(tokens);
    ConcatEmpty(groups);
    r := Assign(groups);
  }

  /** Every group's key is an attribute, and nothing else is. */
  lemma {:induction false} AssignKeys(gs: seq<seq<string>>, k: string)
    requires forall i :: 0 <= i < |gs| ==> gs[i] != []
    requires Assign(gs).Ok?
    ensures k in Assign(gs).value <==>
      exists i :: 0 <= i < |gs| && GroupEntry(gs[i]).Ok? && GroupEntry(gs[i]).value.0 == k
  {
    if gs != [] {
      var init := gs[..|gs| - 1];
      assert forall i :: 0 <= i < |init| ==> init[i] == gs[i];
      AssignKeys(init, k);
      if k in Assign(init).value {
        var i :| 0 <= i < |init| && GroupEntry(init[i]).Ok? && GroupEntry(init[i]).value.0 == k;
        assert GroupEntry(gs[i]).value.0 == k;
      }
    }
  }

  /** Later keys win: the attribute holds the value of the last group
      with that key. */
  lemma {:induction false} AssignLastWins(gs: seq<seq<string>>, i: nat)
    requires forall j :: 0 <= j < |gs| ==> gs[j] != []
    requires Assign(gs).Ok?
    requires i < |gs|
    requires forall j :: i < j < |gs| ==> GroupEntry(gs[j]).Ok? && GroupEntry(gs[j]).value.0 != GroupEntry(gs[i]).value.0
    ensures GroupEntry(gs[i]).Ok?
    ensures var e := GroupEntry(gs[i]).value;
      e.0 in Assign(gs).value && Assign(gs).value[e.0] == e.1
  {
    var init := gs[..|gs| - 1];
    assert forall j :: 0 <= j < |init| ==> init[j] == gs[j];
    if i < |gs| - 1 {
      AssignLastWins(init, i);
    }
  }

  // ---------------------------------------------------------------------
  // The documented forms

  /** `--k=v` (optionally followed by one more token, which is ignored)
      sets k to v. */
  lemma KeyValueForm(k: string, v: string, rest: seq<string>)
    requires '=' !in k && '=' !in v
    requires |rest| <= 1
    ensures GroupEntry(["--" + k + "=" + v] + rest) == Ok((LStripDashes(k), Text(v)))
  {
    var g := ["--" + k + "=" + v] + rest;
    assert g[0] == ("--" + k) + ['='] + v;
    NoEqualsAfterDashes(k);
    SplitPair("--" + k, v, '=');
    DashesStripped(k);
  }

  lemma DashesStripped(k: string)
    ensures LStripDashes("--" + k) == LStripDashes(k)
  {
    assert ("--" + k)[1..] == "-" + k;
    assert ("-" + k)[1..] == k;
  }

  lemma NotHead(t: string)
    requires t != [] && t[0] != '-'
    ensures !IsHead(t)
  {
    if |t| >= 2 {
      assert t[..2][0] == t[0];
    }
  }

  /** A head followed by two or more values, as in
      `--list_attribute Ipsum lorem`, sets a list attribute. */
  lemma ListLine(k: string, values: seq<string>)
    requires |values| >= 2
    requires forall j :: 0 <= j < |values| ==> !IsHead(values[j])
    ensures var g := ["--" + k] + values;
      && WellGrouped([g]) && Concat([g]) == g
      && Assign([g]) == Ok(map[LStripDashes(k) := Items(values)])
  {
    var g := ["--" + k] + values;
    assert forall j :: 0 < j < |g| ==> g[j] == values[j - 1];
    assert Concat([g][1..]) == [];
    ListForm(k, values);
    AssignSnoc([], g);
    assert [] + [g] == [g];
  }

  lemma ListForm(k: string, values: seq<string>)
    requires |values| >= 2
    ensures GroupEntry(["--" + k] + values) == Ok((LStripDashes(k), Items(values)))
  {
    var g := ["--" + k] + values;
    assert g[0] == "--" + k && g[1..] == values;
    DashesStripped(k);
  }

  /** `--k v` sets k to v. */
  lemma KeySpaceValueForm(k: string, v: string)
    requires '=' !in k
    ensures GroupEntry(["--" + k, v]) == Ok((LStripDashes(k), Text(v)))
  {
    NoEqualsAfterDashes(k);
    DashesStripped(k);
  }

  /** A line holding `--k v`, as in `--target-path /some/file`, sets the
      single value. */
  lemma KeySpaceValueLine(k: string, v: string)
    requires '=' !in k && !IsHead(v)
    ensures var g := ["--" + k, v];
      && WellGrouped([g]) && Concat([g]) == g
      && Assign([g]) == Ok(map[LStripDashes(k) := Text(v)])
  {
    var g := ["--" + k, v];
    assert Concat([g][1..]) == [];
    KeySpaceValueForm(k, v);
    AssignSnoc([], g);
    assert [] + [g] == [g];
  }

  /** The two parsers agree: an argument that `parse_argument` splits into
      a key and a value gives, as a group of its own or followed by one
      token, the dash-stripped key with that value. */
  lemma EntryAgreesWithParse(argument: string, rest: seq<string>)
    requires |rest| <= 1
    requires ParseArgument(argument).Ok? && ParseArgument(argument).value.Some?
    ensures var (k, v) := ParseArgument(argument).value.value;
      GroupEntry([argument] + rest) == Ok((LStripDashes(k), Text(v)))
  {
    var (k, v) := ParseArgument(argument).value.value;
    KeyValueForm(k, v, rest);
  }

  /** A line holding only `--k=v`, as in `--required-parameter=test`,
      sets the single value. */
  lemma KeyValueLine(k: string, v: string)
    requires '=' !in k && '=' !in v
    ensures var gs := [["--" + k + "=" + v]];
      && WellGrouped(gs)
      && Assign(gs) == Ok(map[LStripDashes(k) := Text(v)])
  {
    var g := ["--" + k + "=" + v];
    assert g == g + [];
    KeyValueForm(k, v, []);
    AssignSnoc([], g);
    assert [] + [g] == [g];
  }

  /** Two heads in a row, as in `--list_attribute --other-attribute`,
      form two groups ... */
  lemma FlagsLineGrouping(k1: string, k2: string)
    ensures var gs := [["--" + k1], ["--" + k2]];
      WellGrouped(gs) && Concat(gs) == ["--" + k1, "--" + k2]
  {
    var g1, g2 := ["--" + k1], ["--" + k2];
    assert IsHead(g2[0]) by { assert g2[0][..2] == "--"; }
    assert Concat([g1, g2][1..]) == g2 + Concat([]);
  }

  /** ... and set two flags. */
  lemma FlagsLine(k1: string, k2: string)
    requires '=' !in k1 && '=' !in k2
    ensures Assign([["--" + k1], ["--" + k2]]) == Ok(map[LStripDashes(k1) := Flag, LStripDashes(k2) := Flag])
  {
    var g1, g2 := ["--" + k1], ["--" + k2];
    FlagForm(k1);
    FlagForm(k2);
    AssignSnoc([], g1);
    assert [] + [g1] == [g1];
    AssignSnoc([g1], g2);
    assert [g1] + [g2] == [g1, g2];
  }

  /** A lone `--k` is a flag. */
  lemma FlagForm(k: string)
    requires '=' !in k
    ensures GroupEntry(["--" + k]) == Ok((LStripDashes(k), Flag))
  {
    NoEqualsAfterDashes(k);
    DashesStripped(k);
  }

  lemma NoEqualsAfterDashes(k: string)
    requires '=' !in k
    ensures '=' !in "--" + k
  {
    assert forall i :: 2 <= i < |"--" + k| ==> ("--" + k)[i] == k[i - 2];
  }

  /** One more group adds (or overwrites) its attribute. */
  lemma AssignSnoc(gs: seq<seq<string>>, g: seq<string>)
    requires forall i :: 0 <= i < |gs| ==> gs[i] != []
    requires g != []
    requires Assign(gs).Ok? && GroupEntry(g).Ok?
    ensures var e := GroupEntry(g).value;
      Assign(gs + [g]) == Ok(Assign(gs).value[e.0 := e.1])
  {
    assert (gs + [g])[..|gs|] == gs;
  }

  /** A head with two '=' cannot be unpacked. */
  lemma SampleDoubleEquals()
    ensures Assign([["--a=b=c"]]).Err?
  {
    assert Occurrences("--a=b=c", '=') == 2;
  }

  // ---------------------------------------------------------------------
  // `parse_argument`

  /** `parse_argument`: not an option gives nothing; `--k=v` gives the
      pair and needs exactly one '='; `--k` gives nothing; the
      `--key value…` branch splits on '=' as well and so can never unpack
      (see `ListBranchNeverUnpacks`). */
  function ParseArgument(argument: string): (r: Result<Option<(string, string)>>)
    ensures !IsHead(argument) ==> r == Ok(None)
    ensures IsHead(argument) && '=' !in argument ==> (r.Ok? <==> ' ' !in argument)
    ensures IsHead(argument) && '=' in argument ==> (r.Ok? <==> Occurrences(argument[2..], '=') == 1)
    ensures r.Err? ==> r.error == UnpackError
    ensures r.Ok? && r.value.Some? ==>
      && argument == "--" + r.value.value.0 + "=" + r.value.value.1
      && '=' !in r.value.value.0 && '=' !in r.value.value.1
  {
    if !IsHead(argument) then Ok(None)
    else if '=' in argument then
      var parts := Split(argument[2..], '=');
      if |parts| != 2 then Err(UnpackError)
      else
        PairShape(argument);
        Ok(Some((parts[0], parts[1])))
    else if ' ' !in argument then Ok(None)
    else Err(UnpackError)
  }

  lemma PairShape(argument: string)
    requires IsHead(argument) && |Split(argument[2..], '=')| == 2
    ensures var parts := Split(argument[2..], '=');
      && argument == "--" + parts[0] + "=" + parts[1]
      && '=' !in parts[0] && '=' !in parts[1]
  {
    var parts := Split(argument[2..], '=');
    SplitRoundTrip(argument[2..], '=');
    JoinTwo(parts, '=');
    Rejoin(argument, parts[0], parts[1]);
    assert parts[0] in parts && parts[1] in parts;
  }

  lemma JoinTwo(parts: seq<string>, c: char)
    requires |parts| == 2
    ensures JoinWith(parts, c) == parts[0] + [c] + parts[1]
  {
    assert parts[1..] == [parts[1]];
  }

  lemma Rejoin(argument: string, k: string, v: string)
    requires IsHead(argument) && argument[2..] == k + "=" + v
    ensures argument == "--" + k + "=" + v
  {
    assert argument == argument[..2] + argument[2..];
  }

  /** Why the last branch always fails: without '=' the split yields a
      single piece, which cannot be unpacked into key and value. */
  lemma ListBranchNeverUnpacks(argument: string)
    requires IsHead(argument) && '=' !in argument
    ensures |Split(argument[2..], '=')| == 1
  {
    assert forall k :: 2 <= k < |argument| ==> argument[2..][k - 2] == argument[k];
    assert '=' !in argument[2..];
  }

  /** `--k=v` parses back to (k, v). */
  lemma ParseArgumentPair(k: string, v: string)
    requires '=' !in k && '=' !in v
    ensures ParseArgument("--" + k + "=" + v) == Ok(Some((k, v)))
  {
    var a := "--" + k + "=" + v;
    assert a[2..] == k + ['='] + v;
    SplitPair(k, v, '=');
    assert a[2] == if k == [] then '=' else k[0];
    assert '=' in a by { assert a[2 + |k|] == '='; }
  }
}

=== FILE: decimal.dfy ===
/** Python's `str(int)` and `str.zfill`, together with the numeric value of
    a digit string. Frame file names are built from these, so their
    injectivity and their ordering are proved here. */
module Decimal {

  predicate IsDigit(c: char) {
    '0' <= c <= '9'
  }

  predicate AllDigits(s: string) {
    forall k :: 0 <= k < |s| ==> IsDigit(s[k])
  }

  function DigitChar(d: nat): (c: char)
    requires d < 10
    ensures IsDigit(c)
  {
    ('0' as int + d) as char
  }

  function DigitValue(c: char): (d: nat)
    requires IsDigit(c)
    ensures d < 10
  {
    c as int - '0' as int
  }

  /** `str(n)` for a non-negative `n`: no leading zero except for 0 itself. */
  function NatStr(n: nat): (s: string)
    ensures |s| >= 1 && AllDigits(s)
    ensures s[0] != '0' || n == 0
  {
    if n < 10 then [DigitChar(n)] else NatStr(n / 10) + [DigitChar(n % 10)]
  }

  /** `str(i)` for any integer. */
  function IntStr(i: int): string {
    if i < 0 then "-" + NatStr(-i) else NatStr(i)
  }

  function Zeros(n: nat): (z: string)
    ensures |z| == n
    ensures forall k :: 0 <= k < n ==> z[k] == '0'
  {
    if n == 0 then [] else Zeros(n - 1) + "0"
  }

  /** `str.zfill(width)`: left-pad with '0' to `width`, keeping a leading
      sign in front; never truncates. */
  function ZFill(s: string, width: int): string {
    if |s| >= width then s
    else if |s| > 0 && (s[0] == '+' || s[0] == '-') then [s[0]] + Zeros(width - |s|) + s[1..]
    else Zeros(width - |s|) + s
  }

  /** The number a digit string denotes (leading zeros allowed). */
  function Value(s: string): nat
    requires AllDigits(s)
  {
    if s == [] then 0 else Value(s[..|s| - 1]) * 10 + DigitValue(s[|s| - 1])
  }

  function Pow10(n: nat): (p: nat)
    ensures p >= 1
  {
    if n == 0 then 1 else 10 * Pow10(n - 1)
  }

  /** Python's `<` on strings: lexicographic by code point, a proper prefix
      being smaller. */
  predicate LexLess(a: string, b: string) {
    if a == [] then b != []
    else if b == [] then false
    else if a[0] != b[0] then a[0] < b[0]
    else LexLess(a[1..], b[1..])
  }

  // ---------------------------------------------------------------------
  // str and zfill
  // ---------------------------------------------------------------------

  /** `str` and `Value` are inverse on naturals. */
  lemma {:induction false} ValueOfNatStr(n: nat)
    ensures Value(NatStr(n)) == n
  {
    if n >= 10 {
      var s := NatStr(n);
      assert s[..|s| - 1] == NatStr(n / 10);
      ValueOfNatStr(n / 10);
    }
  }

  lemma {:induction false} ValueOfZeros(n: nat, s: string)
    requires AllDigits(s)
    ensures AllDigits(Zeros(n) + s)
    ensures Value(Zeros(n) + s) == Value(s)
  {
    if s == [] {
      assert Zeros(n) + s == Zeros(n);
      if n > 0 {
        assert Zeros(n)[..n - 1] == Zeros(n - 1) + [];
        ValueOfZeros(n - 1, []);
      }
    } else {
      var t := Zeros(n) + s;
      assert t[..|t| - 1] == Zeros(n) + s[..|s| - 1];
      ValueOfZeros(n, s[..|s| - 1]);
    }
  }

  lemma ZFillLength(s: string, width: int)
    ensures |ZFill(s, width)| == if |s| >= width then |s| else width
  {
  }

  /** The zero-padded decimal string of `i`, as the frame names use it. */
  function Padded(i: int, width: int): string {
    ZFill(IntStr(i), width)
  }

  /** A padded natural is a digit string of the same value. */
  lemma PaddedNatValue(i: nat, width: int)
    ensures AllDigits(Padded(i, width))
    ensures Value(Padded(i, width)) == i
  {
    var s := NatStr(i);
    ValueOfNatStr(i);
    if |s| < width {
      ValueOfZeros(width - |s|, s);
    }
  }

  /** The padded string of a negative number: the sign, then zeros, then
      the digits of its magnitude. */
  function NegativeTail(i: int, width: int): string
    requires i < 0
  {
    var n := |IntStr(i)|;
    if n < width then Zeros(width - n) + NatStr(-i) else NatStr(-i)
  }

  lemma PaddedNegativeShape(i: int, width: int)
    requires i < 0
    ensures Padded(i, width) == ['-'] + NegativeTail(i, width)
  {
    var s := IntStr(i);
    assert s == ['-'] + NatStr(-i);
    assert s[1..] == NatStr(-i);
  }

  /** A padded negative number starts with '-' and carries its magnitude
      as a digit string behind the sign. */
  lemma PaddedNegative(i: int, width: int)
    requires i < 0
    ensures var p := Padded(i, width);
      |p| >= 2 && p[0] == '-' && AllDigits(p[1..]) && Value(p[1..]) == -i
  {
    NegativeTailValue(i, width);
    PaddedNegativeShape(i, width);
    var p := Padded(i, width);
    assert p[1..] == NegativeTail(i, width);
  }

  lemma NegativeTailValue(i: int, width: int)
    requires i < 0
    ensures var t := NegativeTail(i, width);
      |t| >= 1 && AllDigits(t) && Value(t) == -i
  {
    var s := NatStr(-i);
    ValueOfNatStr(-i);
    var n := |IntStr(i)|;
    if n < width {
      ValueOfZeros(width - n, s);
      assert NegativeTail(i, width) == Zeros(width - n) + s;
    } else {
      assert NegativeTail(i, width) == s;
    }
  }

  /** Distinct integers get distinct padded strings, whatever the width. */
  lemma {:induction false} PaddedInjective(i: int, j: int, width: int)
    requires Padded(i, width) == Padded(j, width)
    ensures i == j
  {
    if i >= 0 && j >= 0 {
      PaddedNatValue(i, width);
      PaddedNatValue(j, width);
    } else if i < 0 && j < 0 {
      PaddedNegative(i, width);
      PaddedNegative(j, width);
    } else if i < 0 {
      PaddedNegative(i, width);
      PaddedNatValue(j, width);
    } else {
      PaddedNegative(j, width);
      PaddedNatValue(i, width);
    }
  }

  /** Longer numbers never have shorter decimal strings. */
  lemma {:induction false} NatStrLengthMonotone(i: nat, n: nat)
    requires i <= n
    ensures |NatStr(i)| <= |NatStr(n)|
  {
    if i >= 10 {
      NatStrLengthMonotone(i / 10, n / 10);
    }
  }

  // ---------------------------------------------------------------------
  // Ordering of equal-length digit strings
  // ---------------------------------------------------------------------

  lemma {:induction false} ValueBound(s: string)
    requires AllDigits(s)
    ensures Value(s) < Pow10(|s|)
  {
    if s != [] {
      ValueBound(s[..|s| - 1]);
    }
  }

  /** `Value` read from the front: the leading digit weighs a power of ten. */
  lemma {:induction false} ValueFront(s: string)
    requires AllDigits(s) && |s| >= 1
    ensures Value(s) == DigitValue(s[0]) * Pow10(|s| - 1) + Value(s[1..])
  {
    if |s| > 1 {
      var init, t := s[..|s| - 1], s[1..];
      ValueFront(init);
      assert init[1..] == t[..|t| - 1];
      var d0, dl, p := DigitValue(s[0]), DigitValue(s[|s| - 1]), Pow10(|s| - 2);
      assert Value(s) == Value(init) * 10 + dl;
      assert Value(t) == Value(init[1..]) * 10 + dl;
      assert Value(init) == d0 * p + Value(init[1..]);
      assert Pow10(|s| - 1) == 10 * p;
      ShiftDigit(d0, p, Value(init[1..]), dl);
    }
  }

  lemma ShiftDigit(d: nat, p: nat, r: nat, last: nat)
    ensures (d * p + r) * 10 + last == d * (10 * p) + (r * 10 + last)
  {
  }

  /** A smaller leading digit outweighs whatever follows it. */
  lemma LeadingDigitDecides(da: nat, db: nat, p: nat, ra: nat, rb: nat)
    requires da < db && ra < p
    ensures da * p + ra < db * p + rb
  {
    calc {
      da * p + ra;
    <
      da * p + p;
    ==
      (da + 1) * p;
    <=  { MulMonotone(da + 1, db, p); }
      db * p;
    }
  }

  lemma MulMonotone(x: nat, y: nat, p: nat)
    requires x <= y
    ensures x * p <= y * p
  {
  }

  /** On digit strings of one length, string order is numeric order. */
  lemma {:induction false} LexLessIsNumeric(a: string, b: string)
    requires AllDigits(a) && AllDigits(b) && |a| == |b|
    ensures LexLess(a, b) <==> Value(a) < Value(b)
  {
    if a != [] {
      ValueFront(a);
      ValueFront(b);
      ValueBound(a[1..]);
      ValueBound(b[1..]);
      var p := Pow10(|a| - 1);
      var da, db := DigitValue(a[0]), DigitValue(b[0]);
      if a[0] == b[0] {
        LexLessIsNumeric(a[1..], b[1..]);
      } else if da < db {
        LeadingDigitDecides(da, db, p, Value(a[1..]), Value(b[1..]));
      } else {
        LeadingDigitDecides(db, da, p, Value(b[1..]), Value(a[1..]));
      }
    }
  }

  /** Comparing two strings that share a prefix compares what follows it. */
  lemma {:induction false} LexLessCommonPrefix(p: string, a: string, b: string)
    ensures LexLess(p + a, p + b) <==> LexLess(a, b)
  {
    if p != [] {
      assert (p + a)[1..] == p[1..] + a;
      assert (p + b)[1..] == p[1..] + b;
      LexLessCommonPrefix(p[1..], a, b);
    } else {
      assert p + a == a && p + b == b;
    }
  }

  /** Equal-length heads decide the order of two strings before their tails. */
  lemma {:induction false} LexLessEqualHeads(a: string, b: string, t: string)
    requires |a| == |b| && a != b
    ensures LexLess(a + t, b + t) <==> LexLess(a, b)
  {
    if a[0] == b[0] {
      assert (a + t)[1..] == a[1..] + t;
      assert (b + t)[1..] == b[1..] + t;
      LexLessEqualHeads(a[1..], b[1..], t);
    }
  }
}

=== FILE: dispatcher.dfy ===
/** The frame dispatcher of roop/processors/frame/BaseFrameProcessor.py,
    as a sequential abstraction: the thread pool is a FIFO of outstanding
    frames, memory readings are an input, and a frame is processed when
    it completes. Also the processor factory, the shared memory
    statistics and the set-up of `process`. */
module Dispatcher {
  import opened Results
  import opened FileSystem
  import opened PosixPath
  import opened RunState

  // ---------------------------------------------------------------------
  // The factory

  /** A constructor argument: a value from the namespace, or the state. */
  datatype Arg<V> = Param(value: V) | StateArg

  const StateParameter: string := "state"

  /** A constructor's signature as `inspect.signature` reports it (without
      `self`): its parameter names, and those without a default value. */
  datatype Ctor = Ctor(names: seq<string>, required: set<string>)

  /** Calling the constructor with the collected keyword arguments binds:
      it accepts `state`, and every required parameter other than `state`
      is in the namespace. Otherwise Python raises `TypeError`. */
  predicate Binds<V>(c: Ctor, parameters: map<string, V>) {
    && StateParameter in c.names
    && forall n :: n in c.required && n in c.names && n != StateParameter ==> n in parameters
  }

  /** `create`: `classes` maps each loadable processor name to its
      constructor's signature, `validates` is the class's `validate()`.
      The arguments are the constructor parameters that the namespace
      holds, plus the state. An unknown name is rejected, a call that does
      not bind raises `TypeError`, and a failed validation ends the
      program before any processing. */
  function Create<V>(name: string, classes: map<string, Ctor>, parameters: map<string, V>,
                     validates: string -> bool): (r: Result<map<string, Arg<V>>>)
    ensures r == Err(InvalidProcessor(name)) <==> name !in classes
    ensures r == Err(ArgumentMismatch(name)) <==> name in classes && !Binds(classes[name], parameters)
    ensures r == Err(ValidationFailed) <==> name in classes && Binds(classes[name], parameters) && !validates(name)
    ensures r.Ok? <==> name in classes && Binds(classes[name], parameters) && validates(name)
    ensures r.Ok? ==> r.value.Keys == (set n | n in classes[name].names && n in parameters) + {StateParameter}
    ensures r.Ok? ==> r.value[StateParameter] == StateArg
    ensures r.Ok? ==> forall n :: n in r.value && n != StateParameter ==> r.value[n] == Param(parameters[n])
  {
    if name !in classes then Err(InvalidProcessor(name))
    else if !Binds(classes[name], parameters) then Err(ArgumentMismatch(name))
    else
      var params := map n | n in classes[name].names && n in parameters :: Param(parameters[n]);
      if validates(name) then Ok(params[StateParameter := StateArg]) else Err(ValidationFailed)
  }

  /** Only the constructor's parameters matter: narrowing the namespace to
      them builds the same processor, or fails in the same way. */
  lemma CreateIgnoresOtherParameters<V>(name: string, classes: map<string, Ctor>,
                                        parameters: map<string, V>, validates: string -> bool)
    requires name in classes
    ensures var narrowed := map n | n in parameters && n in classes[name].names :: parameters[n];
      Create(name, classes, narrowed, validates) == Create(name, classes, parameters, validates)
  {
    var c := classes[name];
    var narrowed := map n | n in parameters && n in c.names :: parameters[n];
    assert Binds(c, narrowed) <==> Binds(c, parameters);
    var a := map n | n in c.names && n in narrowed :: Param(narrowed[n]);
    var b := map n | n in c.names && n in parameters :: Param(parameters[n]);
    assert a == b;
  }

  /** Calling the constructor with the namespace's keyword arguments alone
      binds: every required parameter is in the namespace, `state`
      included when the constructor requires it. */
  predicate BindsParameters<V>(c: Ctor, parameters: map<string, V>) {
    forall n :: n in c.required && n in c.names ==> n in parameters
  }

  /** The two-argument `create(processor_name, parameters)` the runner
      calls: as `Create`, but the constructor gets no state, so it need
      not accept one. */
  function CreateFromParameters<V>(name: string, classes: map<string, Ctor>, parameters: map<string, V>,
                                   validates: string -> bool): (r: Result<map<string, Arg<V>>>)
    ensures r == Err(InvalidProcessor(name)) <==> name !in classes
    ensures r == Err(ArgumentMismatch(name)) <==> name in classes && !BindsParameters(classes[name], parameters)
    ensures r == Err(ValidationFailed) <==>
      name in classes && BindsParameters(classes[name], parameters) && !validates(name)
    ensures r.Ok? <==> name in classes && BindsParameters(classes[name], parameters) && validates(name)
    ensures r.Ok? ==> r.value.Keys == set n | n in classes[name].names && n in parameters
    ensures r.Ok? ==> forall n :: n in r.value ==> r.value[n] == Param(parameters[n])
  {
    if name !in classes then Err(InvalidProcessor(name))
    else if !BindsParameters(classes[name], parameters) then Err(ArgumentMismatch(name))
    else
      var params := map n | n in classes[name].names && n in parameters :: Param(parameters[n]);
      if validates(name) then Ok(params) else Err(ValidationFailed)
  }

  /** Whenever the state-adding factory builds a processor from a
      namespace without a `state` entry, the two-argument factory builds
      it too, from the same arguments less the state, exactly when the
      constructor does not require the state. */
  lemma CreateFromParametersDropsState<V>(name: string, classes: map<string, Ctor>,
                                          parameters: map<string, V>, validates: string -> bool)
    requires StateParameter !in parameters
    requires Create(name, classes, parameters, validates).Ok?
    ensures var r := CreateFromParameters(name, classes, parameters, validates);
      && (r.Ok? <==> StateParameter !in classes[name].required)
      && (r.Ok? ==> Create(name, classes, parameters, validates).value == r.value[StateParameter := StateArg])
  {
    var c := classes[name];
    assert BindsParameters(c, parameters) <==> StateParameter !in c.required by {
      if StateParameter !in c.required {
        forall n | n in c.required && n in c.names ensures n in parameters {
          assert n != StateParameter;
        }
      }
    }
  }

  // ---------------------------------------------------------------------
  // Memory statistics

  /** The class-level maxima; every instance reads and writes the same
      record, so the model threads one value through all of them. */
  datatype Stats = Stats(rssMax: int, vmsMax: int)

  const InitialStats: Stats := Stats(0, 0)

  /** The update in `get_mem_usage`: each maximum is raised to the sample
      when the sample exceeds it. */
  function RecordUsage(s: Stats, rss: int, vms: int): (r: Stats)
    ensures r.rssMax >= s.rssMax && r.rssMax >= rss && (r.rssMax == s.rssMax || r.rssMax == rss)
    ensures r.vmsMax >= s.vmsMax && r.vmsMax >= vms && (r.vmsMax == s.vmsMax || r.vmsMax == vms)
  {
    var s1 := if s.rssMax < rss then s.(rssMax := rss) else s;
    if s1.vmsMax < vms then s1.(vmsMax := vms) else s1
  }

  /** The statistics after a sequence of (rss, vms) samples. */
  function RecordAll(s: Stats, samples: seq<(int, int)>): Stats {
    if samples == [] then s
    else RecordUsage(RecordAll(s, samples[..|samples| - 1]), samples[|samples| - 1].0, samples[|samples| - 1].1)
  }

  /** The recorded maxima are the maxima of the samples and the starting
      values: never below any of them, and equal to one of them. */
  lemma {:induction false} RecordAllIsMax(s: Stats, samples: seq<(int, int)>)
    ensures var r := RecordAll(s, samples);
      && r.rssMax >= s.rssMax && r.vmsMax >= s.vmsMax
      && (forall k :: 0 <= k < |samples| ==> r.rssMax >= samples[k].0 && r.vmsMax >= samples[k].1)
      && (r.rssMax == s.rssMax || exists k :: 0 <= k < |samples| && r.rssMax == samples[k].0)
      && (r.vmsMax == s.vmsMax || exists k :: 0 <= k < |samples| && r.vmsMax == samples[k].1)
  {
    if samples != [] {
      var init := samples[..|samples| - 1];
      RecordAllIsMax(s, init);
      assert forall k :: 0 <= k < |init| ==> init[k] == samples[k];
    }
  }

  /** Recording is a fold over the samples, so two batches recorded in
      turn leave the same maxima as the two recorded as one batch. The
      class-level dictionary is threaded through the model as a single
      value; this is what lets the batches of several instances be read
      as one history. */
  lemma {:induction false} RecordAllSplits(s: Stats, a: seq<(int, int)>, b: seq<(int, int)>)
    ensures RecordAll(RecordAll(s, a), b) == RecordAll(s, a + b)
  {
    if b != [] {
      RecordAllSplits(s, a, b[..|b| - 1]);
      assert (a + b)[..|a + b| - 1] == a + b[..|b| - 1];
    } else {
      assert a + b == a;
    }
  }

  // ---------------------------------------------------------------------
  // Processing one frame

  /** A frame to process: its index and the path of the extracted image. */
  type Frame = (int, string)

  /** What processing a frame meets outside the model: the transform of
      the image at a path (`None` when it raises) and whether the image
      writer succeeds for a frame index. */
  datatype Work = Work(transform: string -> Option<Blob>, written: int -> bool)

  /** `process_frames`: transforms the frame and saves it under its
      processed name. Nothing escapes: a failing transform or save leaves
      that frame unsaved, and the call returns normally. */
  function ProcessFrames(st: State, fs: Fs, frame: Frame, work: Work): (r: (State, Fs))
    ensures work.transform(frame.1).None? ==> r == (st, fs)
    ensures var n := FrameProcessedName(st, fs, frame.0);
      work.transform(frame.1).Some? && n.Done? ==>
        (work.written(frame.0) ==>
           n.value in r.1.files && r.1.files[n.value] == work.transform(frame.1).value
           && forall q :: q in n.fs.files && q != n.value ==> q in r.1.files && r.1.files[q] == n.fs.files[q])
        && (!work.written(frame.0) ==> r.1 == n.fs)
  {
    match work.transform(frame.1)
    case None => (st, fs)
    case Some(image) =>
      var o := SaveTempFrame(st, fs, image, frame.0, work.written(frame.0));
      (o.st, o.fs)
  }

  /** The frames processed one after another, in order. */
  function ProcessAll(st: State, fs: Fs, frames: seq<Frame>, work: Work): (State, Fs) {
    if frames == [] then (st, fs)
    else
      var prev := ProcessAll(st, fs, frames[..|frames| - 1], work);
      ProcessFrames(prev.0, prev.1, frames[|frames| - 1], work)
  }

  // ---------------------------------------------------------------------
  // The dispatcher loop

  datatype Step = Submitted(frame: Frame) | Completed(frame: Frame)

  /** The frames submitted in a log, in order. */
  function Submissions(log: seq<Step>): (r: seq<Frame>)
    ensures |r| <= |log|
  {
    if log == [] then []
    else Submissions(log[..|log| - 1]) + (if log[|log| - 1].Submitted? then [log[|log| - 1].frame] else [])
  }

  /** The frames completed in a log, in order. */
  function Completions(log: seq<Step>): (r: seq<Frame>)
    ensures |r| <= |log|
  {
    if log == [] then []
    else Completions(log[..|log| - 1]) + (if log[|log| - 1].Completed? then [log[|log| - 1].frame] else [])
  }

  /** The largest number of frames outstanding at any point of a log. */
  function Peak(log: seq<Step>): int {
    if log == [] then 0
    else
      var here := |Submissions(log)| - |Completions(log)|;
      var before := Peak(log[..|log| - 1]);
      if here > before then here else before
  }

  lemma LogStep(log: seq<Step>, s: Step)
    ensures Submissions(log + [s]) == Submissions(log) + (if s.Submitted? then [s.frame] else [])
    ensures Completions(log + [s]) == Completions(log) + (if s.Completed? then [s.frame] else [])
    ensures var here := |Submissions(log + [s])| - |Completions(log + [s])|;
      Peak(log + [s]) == if here > Peak(log) then here else Peak(log)
  {
    assert (log + [s])[..|log|] == log;
  }

  lemma ProcessAllStep(st: State, fs: Fs, frames: seq<Frame>, f: Frame, work: Work)
    ensures var prev := ProcessAll(st, fs, frames, work);
      ProcessAll(st, fs, frames + [f], work) == ProcessFrames(prev.0, prev.1, f, work)
  {
    assert (frames + [f])[..|frames|] == frames;
  }

  /** A memory reading at or above the ceiling. */
  predicate OverCeiling(vmsAfter: nat -> int, maxMemory: int, i: nat) {
    vmsAfter(i) >= maxMemory
  }

  /** `multi_process_frame`, sequentially: frames are submitted in list
      order; after each submission, when the memory reading `vmsAfter(i)`
      is at or above the ceiling, the oldest outstanding frame is
      completed first; at the end every outstanding frame is completed.
      Completing a frame processes it and advances the progress by one. */
  method MultiProcessFrame(st: State, fs: Fs, frames: seq<Frame>, work: Work,
                           vmsAfter: nat -> int, maxMemory: int, initialProgress: int)
    returns (log: seq<Step>, st': State, fs': Fs, progress: int)
    ensures Submissions(log) == frames
    ensures Completions(log) == frames
    ensures progress == initialProgress + |frames|
    ensures (st', fs') == ProcessAll(st, fs, frames, work)
    ensures (forall i :: 0 <= i < |frames| ==> OverCeiling(vmsAfter, maxMemory, i)) ==> Peak(log) <= 1
    ensures (forall i :: 0 <= i < |frames| ==> !OverCeiling(vmsAfter, maxMemory, i)) ==> Peak(log) == |frames|
  {
    log := [];
    st', fs' := st, fs;
    progress := initialProgress;
    var c := 0;  // frames completed so far; frames[c..i] are outstanding
    ghost var allOver := forall i :: 0 <= i < |frames| ==> OverCeiling(vmsAfter, maxMemory, i);
    ghost var allUnder := forall i :: 0 <= i < |frames| ==> !OverCeiling(vmsAfter, maxMemory, i);
    var i := 0;
    while i < |frames|
      invariant 0 <= c <= i <= |frames|
      invariant Submissions(log) == frames[..i] && Completions(log) == frames[..c]
      invariant progress == initialProgress + c
      invariant (st', fs') == ProcessAll(st, fs, frames[..c], work)
      invariant allOver ==> c == i && Peak(log) <= 1
      invariant allUnder ==> c == 0 && Peak(log) == i
    {
      var waited;
      log, st', fs', waited := SubmitNext(st, fs, frames, i, c, log, work, st', fs', vmsAfter(i) >= maxMemory);
      assert allOver ==> OverCeiling(vmsAfter, maxMemory, i);
      assert allUnder ==> !OverCeiling(vmsAfter, maxMemory, i);
      if waited {
        progress := progress + 1;
        c := c + 1;
      }
      i := i + 1;
    }
    log, st', fs' := WaitAll(st, fs, frames, c, log, work, st', fs');
    progress := progress + (|frames| - c);
  }

  /** One round of the submission loop: frame `i` is submitted and, when
      the memory reading is over the ceiling, the oldest outstanding
      frame is waited for. */
  method SubmitNext(st: State, fs: Fs, frames: seq<Frame>, i: nat, c: nat, log: seq<Step>, work: Work,
                    cur: State, curFs: Fs, over: bool)
    returns (log': seq<Step>, st': State, fs': Fs, waited: bool)
    requires c <= i < |frames|
    requires Submissions(log) == frames[..i] && Completions(log) == frames[..c]
    requires (cur, curFs) == ProcessAll(st, fs, frames[..c], work)
    ensures waited == over
    ensures Submissions(log') == frames[..i + 1]
    ensures Completions(log') == frames[..if over then c + 1 else c]
    ensures (st', fs') == ProcessAll(st, fs, frames[..if over then c + 1 else c], work)
    ensures Peak(log') == if i + 1 - c > Peak(log) then i + 1 - c else Peak(log)
  {
    SubmitStep(frames, i, c, log);
    log' := log + [Submitted(frames[i])];
    st', fs' := cur, curFs;
    waited := over;
    if over {
      log', st', fs' := CompleteOldest(st, fs, frames, i + 1, c, log', work, st', fs');
    }
  }

  /** The final drain of `multi_process_frame`: the futures still
      outstanding are waited for oldest first, and after the drain the
      peak is unchanged (nothing new is submitted). */
  method WaitAll(st: State, fs: Fs, frames: seq<Frame>, c0: nat, log0: seq<Step>, work: Work,
                 cur: State, curFs: Fs)
    returns (log: seq<Step>, st': State, fs': Fs)
    requires c0 <= |frames|
    requires Submissions(log0) == frames && Completions(log0) == frames[..c0]
    requires (cur, curFs) == ProcessAll(st, fs, frames[..c0], work)
    ensures Submissions(log) == frames && Completions(log) == frames
    ensures Peak(log) == Peak(log0)
    ensures (st', fs') == ProcessAll(st, fs, frames, work)
  {
    log, st', fs' := log0, cur, curFs;
    var c := c0;
    assert Peak(log0) >= |frames| - c0 by { PeakAtLeastOutstanding(log0); }
    while c < |frames|
      invariant c0 <= c <= |frames|
      invariant Submissions(log) == frames && Completions(log) == frames[..c]
      invariant Peak(log) == Peak(log0)
      invariant (st', fs') == ProcessAll(st, fs, frames[..c], work)
    {
      assert frames[..|frames|] == frames;
      log, st', fs' := CompleteOldest(st, fs, frames, |frames|, c, log, work, st', fs');
      c := c + 1;
    }
    assert frames[..c] == frames;
  }

  /** The peak is at least the number outstanding at the end of a log. */
  lemma PeakAtLeastOutstanding(log: seq<Step>)
    ensures Peak(log) >= |Submissions(log)| - |Completions(log)|
  {
  }

  /** Waiting for the oldest outstanding future: frame `c` of the `i`
      submitted is processed after the `c` completed before it. */
  method CompleteOldest(st: State, fs: Fs, frames: seq<Frame>, i: nat, c: nat, log: seq<Step>, work: Work,
                        cur: State, curFs: Fs)
    returns (log': seq<Step>, st': State, fs': Fs)
    requires c < i <= |frames|
    requires Submissions(log) == frames[..i] && Completions(log) == frames[..c]
    requires (cur, curFs) == ProcessAll(st, fs, frames[..c], work)
    ensures Submissions(log') == frames[..i] && Completions(log') == frames[..c + 1]
    ensures Peak(log') == if i - c - 1 > Peak(log) then i - c - 1 else Peak(log)
    ensures (st', fs') == ProcessAll(st, fs, frames[..c + 1], work)
  {
    CompleteStep(st, fs, frames, i, c, log, work);
    var next := ProcessFrames(cur, curFs, frames[c], work);
    st', fs' := next.0, next.1;
    log' := log + [Completed(frames[c])];
  }

  /** Submitting the next frame: it joins the submissions, and the number
      outstanding grows by one. */
  lemma SubmitStep(frames: seq<Frame>, i: nat, c: nat, log: seq<Step>)
    requires c <= i < |frames|
    requires Submissions(log) == frames[..i] && Completions(log) == frames[..c]
    ensures Submissions(log + [Submitted(frames[i])]) == frames[..i + 1]
    ensures Completions(log + [Submitted(frames[i])]) == frames[..c]
    ensures Peak(log + [Submitted(frames[i])]) == if i + 1 - c > Peak(log) then i + 1 - c else Peak(log)
  {
    LogStep(log, Submitted(frames[i]));
    assert frames[..i + 1] == frames[..i] + [frames[i]];
  }

  /** Completing the oldest outstanding frame: it joins the completions,
      is processed after the ones before it, and the number outstanding
      shrinks by one. */
  lemma CompleteStep(st: State, fs: Fs, frames: seq<Frame>, i: nat, c: nat, log: seq<Step>, work: Work)
    requires c < i <= |frames|
    requires Submissions(log) == frames[..i] && Completions(log) == frames[..c]
    ensures Submissions(log + [Completed(frames[c])]) == frames[..i]
    ensures Completions(log + [Completed(frames[c])]) == frames[..c + 1]
    ensures Peak(log + [Completed(frames[c])]) == if i - c - 1 > Peak(log) then i - c - 1 else Peak(log)
    ensures var prev := ProcessAll(st, fs, frames[..c], work);
      ProcessAll(st, fs, frames[..c + 1], work) == ProcessFrames(prev.0, prev.1, frames[c], work)
  {
    LogStep(log, Completed(frames[c]));
    assert frames[..c + 1] == frames[..c] + [frames[c]];
    ProcessAllStep(st, fs, frames[..c], frames[c], work);
  }

  // ---------------------------------------------------------------------
  // Set-up and resumption

  /** The set-up of `process`: the state takes the processor's class name,
      the handler resumes after the extracted frames and the progress bar
      starts after the processed ones. Yields (current frame index,
      initial progress). Counting creates the IN and OUT directories when
      missing, touches no file and leaves the frame-name width unfixed. */
  function ProcessSetup(st: State, fs: Fs, className: string): (r: Outcome<(int, int)>)
    ensures var st1 := st.(processorName := className);
      var e := ExtractedFramesCount(st1, fs);
      r.Done? ==> && e.Done?
                  && r.value.0 == e.value + 1
                  && ProcessedFramesCount(e.st, e.fs).Done?
                  && r.value.1 == ProcessedFramesCount(e.st, e.fs).value + 1
                  && r.st.processorName == className
    ensures r.Done? ==> && r.st.outDir.Some? && IsDir(r.fs, r.st.outDir.value)
                        && r.st.outDir == (if st.outDir.Some? then st.outDir
                                           else Some(StatePath(st.(processorName := className), OutDirName)))
                        && r.st.zfillLength == st.zfillLength
                        && r.st.framesCount == st.framesCount
    ensures r.fs.files == fs.files
  {
    var st1 := st.(processorName := className);
    match ExtractedFramesCount(st1, fs)
    case Failed(err, st2, fs2) => Failed(err, st2, fs2)
    case Done(extracted, st2, fs2) =>
      match ProcessedFramesCount(st2, fs2)
      case Failed(err, st3, fs3) => Failed(err, st3, fs3)
      case Done(processed, st3, fs3) => Done((extracted + 1, processed + 1), st3, fs3)
  }

  /** Processing frames once the output directory is known keeps the
      state but for the width, which the first saved frame fixes, and only
      adds files: every frame whose transform and save succeed has its
      file under its processed name. */
  lemma ProcessAllWrites(st: State, fs: Fs, frames: seq<Frame>, work: Work)
    requires st.outDir.Some?
    ensures var (w, st1) := ZfillLength(st);
      var r := ProcessAll(st, fs, frames, work);
      && (r.0 == st || r.0 == st1)
      && (forall k :: 0 <= k < |frames| && work.transform(frames[k].1).Some? ==> r.0 == st1)
      && fs.dirs == r.1.dirs
      && fs.files.Keys <= r.1.files.Keys
      && forall k :: 0 <= k < |frames| && work.transform(frames[k].1).Some? && work.written(frames[k].0) ==>
           Join(st.outDir.value, FrameFileName(frames[k].0, w)) in r.1.files
  {
    ProcessAllState(st, fs, frames, work);
    ProcessAllFiles(st, fs, frames, work);
  }

  /** The state after processing frames: unchanged, or with the width
      fixed once some transform has succeeded. */
  lemma {:induction false} ProcessAllState(st: State, fs: Fs, frames: seq<Frame>, work: Work)
    requires st.outDir.Some?
    ensures var st1 := ZfillLength(st).1;
      var r := ProcessAll(st, fs, frames, work);
      && (r.0 == st || r.0 == st1)
      && (forall k :: 0 <= k < |frames| && work.transform(frames[k].1).Some? ==> r.0 == st1)
  {
    if frames != [] {
      var st1 := ZfillLength(st).1;
      var init := frames[..|frames| - 1];
      var f := frames[|frames| - 1];
      ProcessAllState(st, fs, init, work);
      var prev := ProcessAll(st, fs, init, work);
      assert ZfillLength(prev.0).1 == st1;
      ProcessFrameSettled(prev.0, prev.1, f, work);
      var r := ProcessAll(st, fs, frames, work);
      assert r == ProcessFrames(prev.0, prev.1, f, work);
      forall k | 0 <= k < |frames| && work.transform(frames[k].1).Some?
        ensures r.0 == st1
      {
        if k < |init| {
          assert init[k] == frames[k];
        }
      }
    }
  }

  /** The files after processing frames: none removed, and each frame
      whose transform and save succeed written under its processed name. */
  lemma {:induction false} ProcessAllFiles(st: State, fs: Fs, frames: seq<Frame>, work: Work)
    requires st.outDir.Some?
    ensures var w := ZfillLength(st).0;
      var r := ProcessAll(st, fs, frames, work);
      && fs.dirs == r.1.dirs
      && fs.files.Keys <= r.1.files.Keys
      && forall k :: 0 <= k < |frames| && work.transform(frames[k].1).Some? && work.written(frames[k].0) ==>
           Join(st.outDir.value, FrameFileName(frames[k].0, w)) in r.1.files
  {
    if frames != [] {
      var w := ZfillLength(st).0;
      var init := frames[..|frames| - 1];
      var f := frames[|frames| - 1];
      ProcessAllFiles(st, fs, init, work);
      ProcessAllState(st, fs, init, work);
      var prev := ProcessAll(st, fs, init, work);
      assert ZfillLength(prev.0).0 == w && prev.0.outDir == st.outDir;
      ProcessFrameSettled(prev.0, prev.1, f, work);
      var r := ProcessAll(st, fs, frames, work);
      assert r == ProcessFrames(prev.0, prev.1, f, work);
      forall k | 0 <= k < |frames| && work.transform(frames[k].1).Some? && work.written(frames[k].0)
        ensures Join(st.outDir.value, FrameFileName(frames[k].0, w)) in r.1.files
      {
        if k < |init| {
          assert init[k] == frames[k];
        }
      }
    }
  }

  /** One frame processed once the output directory is known: the state
      only gains the width, and only when the transform succeeds; the
      directories stay, files are only added, and the frame's file is
      written when its transform and save succeed. */
  lemma ProcessFrameSettled(st: State, fs: Fs, f: Frame, work: Work)
    requires st.outDir.Some?
    ensures var (w, st1) := ZfillLength(st);
      var r := ProcessFrames(st, fs, f, work);
      && r.0 == (if work.transform(f.1).Some? then st1 else st)
      && r.1.dirs == fs.dirs && fs.files.Keys <= r.1.files.Keys
      && (work.transform(f.1).Some? && work.written(f.0) ==>
            Join(st.outDir.value, FrameFileName(f.0, w)) in r.1.files)
  {
    FrameNameSettled(st, fs, f.0);
  }

  /** Once the output directory is known, naming a frame fixes the width
      and does not touch the file system. */
  lemma FrameNameSettled(st: State, fs: Fs, index: int)
    requires st.outDir.Some?
    ensures var (w, st1) := ZfillLength(st);
      FrameProcessedName(st, fs, index) == Done(Join(st.outDir.value, FrameFileName(index, w)), st1, fs)
  {
  }

  /** Some frame of the list has index `i`. */
  predicate Covered(frames: seq<Frame>, i: int) {
    exists k :: 0 <= k < |frames| && frames[k].0 == i
  }

  /** Resumption: a run of the dispatcher over frames 1..`frames_count` in
      which every transform and save succeeds leaves the stage finished,
      so a later run skips it. */
  lemma DispatchFinishesStage(st: State, fs: Fs, frames: seq<Frame>, work: Work)
    requires st.outDir.Some? && IsDir(fs, st.outDir.value)
    requires var d := st.outDir.value; d != [] && d[|d| - 1] != '/'
    requires forall i :: 1 <= i <= st.framesCount ==> Covered(frames, i)
    requires forall k :: 0 <= k < |frames| ==> work.transform(frames[k].1).Some? && work.written(frames[k].0)
    ensures var r := ProcessAll(st, fs, frames, work);
      IsFinished(r.0, r.1) == Done(true, r.0, r.1)
  {
    var r := ProcessAll(st, fs, frames, work);
    ProcessAllWrites(st, fs, frames, work);
    if st.framesCount >= 1 {
      EveryFrameWritten(st, fs, frames, work);
      AllFramesWrittenMeansFinished(r.0, r.1);
    } else {
      NothingToProcessIsFinished(r.0, r.1);
    }
  }

  /** The dispatch of the resumption lemma fixes the width and writes the
      file of every frame 1..`frames_count`. */
  lemma EveryFrameWritten(st: State, fs: Fs, frames: seq<Frame>, work: Work)
    requires st.outDir.Some? && st.framesCount >= 1
    requires forall i :: 1 <= i <= st.framesCount ==> Covered(frames, i)
    requires forall k :: 0 <= k < |frames| ==> work.transform(frames[k].1).Some? && work.written(frames[k].0)
    ensures var (w, st1) := ZfillLength(st);
      var r := ProcessAll(st, fs, frames, work);
      && r.0 == st1 && r.1.dirs == fs.dirs
      && forall i :: 1 <= i <= st.framesCount ==> Join(st.outDir.value, FrameFileName(i, w)) in r.1.files
  {
    ProcessAllWrites(st, fs, frames, work);
    var (w, st1) := ZfillLength(st);
    var r := ProcessAll(st, fs, frames, work);
    assert Covered(frames, 1);
    forall i | 1 <= i <= st.framesCount
      ensures Join(st.outDir.value, FrameFileName(i, w)) in r.1.files
    {
      assert Covered(frames, i);
      var k :| 0 <= k < |frames| && frames[k].0 == i;
    }
  }

  /** A stage with no frames to process is finished as soon as its
      output directory can be listed. */
  lemma NothingToProcessIsFinished(st: State, fs: Fs)
    requires st.outDir.Some? && IsDir(fs, st.outDir.value)
    requires st.framesCount <= 0
    ensures IsFinished(st, fs) == Done(true, st, fs)
  {
    assert ProcessedFramesCount(st, fs) == Done(|PngNames(Listing(fs, st.outDir.value))|, st, fs);
  }

  /** The set-up of a fresh state succeeds unless a file blocks the IN
      or OUT path: both directories are created and counted. */
  lemma SetUpSucceeds(st: State, fs: Fs, className: string)
    requires st.inDir.None? && st.outDir.None?
    requires var st1 := st.(processorName := className);
      && Ancestors(StatePath(st1, InDirName)) !! fs.files.Keys
      && Ancestors(StatePath(st1, OutDirName)) !! fs.files.Keys
    ensures ProcessSetup(st, fs, className).Done?
  {
    var st1 := st.(processorName := className);
    InDirCountable(st1, fs);
    var e := ExtractedFramesCount(st1, fs);
    StatePathIgnoresDirs(st1, e.st.inDir, OutDirName);
    OutDirCountable(e.st, e.fs);
  }

  /** On a file system without files the set-up of a new state succeeds. */
  lemma NewStateSetUpSucceeds(processorName: string, targetPath: Option<string>, sourcePath: Option<string>,
                              tempDir: string, framesCount: int, fs: Fs, className: string)
    requires fs.files == map[]
    ensures ProcessSetup(NewState(processorName, targetPath, sourcePath, tempDir, framesCount), fs, className).Done?
  {
    var st := NewState(processorName, targetPath, sourcePath, tempDir, framesCount);
    NothingBlocks(fs, StatePath(st.(processorName := className), InDirName));
    NothingBlocks(fs, StatePath(st.(processorName := className), OutDirName));
    SetUpSucceeds(st, fs, className);
  }

  lemma NothingBlocks(fs: Fs, p: string)
    requires fs.files == map[]
    ensures Ancestors(p) !! fs.files.Keys
  {
  }

  /** `process` end to end: after the set-up, a dispatch over frames
      1..`frames_count` in which every transform and save succeeds leaves
      the stage finished. */
  lemma SetUpStageFinishes(st: State, fs: Fs, className: string, frames: seq<Frame>, work: Work)
    requires ProcessSetup(st, fs, className).Done?
    requires st.outDir.Some? ==> var d := st.outDir.value; d != [] && d[|d| - 1] != '/'
    requires forall i :: 1 <= i <= st.framesCount ==> Covered(frames, i)
    requires forall k :: 0 <= k < |frames| ==> work.transform(frames[k].1).Some? && work.written(frames[k].0)
    ensures var s := ProcessSetup(st, fs, className);
      var r := ProcessAll(s.st, s.fs, frames, work);
      IsFinished(r.0, r.1) == Done(true, r.0, r.1)
  {
    var s := ProcessSetup(st, fs, className);
    if st.outDir.None? {
      DirNamesPlain();
      StatePathShape(st.(processorName := className), OutDirName);
    }
    DispatchFinishesStage(s.st, s.fs, frames, work);
  }
}

=== FILE: filesystem.dfy ===
/** An abstract file system: a set of directory paths and a map from file
    paths to their contents. Paths are compared as strings; the
    operations are the few `os`, `pathlib` and `shutil` calls the core
    makes. */
module FileSystem {
  import opened PosixPath
  import opened Results

  /** Opaque file contents (frame pixels, an encoded video). */
  type Blob = seq<int>

  datatype Fs = Fs(dirs: set<string>, files: map<string, Blob>)

  /** No path is both a directory and a file. */
  predicate WellFormed(fs: Fs) {
    fs.dirs !! fs.files.Keys
  }

  predicate Exists(fs: Fs, p: string) {
    p in fs.dirs || p in fs.files
  }

  predicate IsDir(fs: Fs, p: string) {
    p in fs.dirs
  }

  predicate IsFile(fs: Fs, p: string) {
    p in fs.files
  }

  /** `p` and every directory above it, as `dirname` walks up. */
  function Ancestors(p: string): (r: set<string>)
    ensures p != [] ==> p in r
    ensures forall q :: q in r ==> q != [] && StartsWith(p, q)
    decreases |p|
  {
    if p == [] then {}
    else
      var d := Dirname(p);
      if |d| < |p| then {p} + Ancestors(d) else {p}
  }

  /** `Path(p).mkdir(parents=True, exist_ok=True)`: creates `p` and its
      missing parents; fails when one of them is an existing file. */
  function MakeDirs(fs: Fs, p: string): (r: Result<Fs>)
    ensures r.Ok? <==> Ancestors(p) !! fs.files.Keys
    ensures r.Ok? ==> r.value.files == fs.files && r.value.dirs == fs.dirs + Ancestors(p)
  {
    if Ancestors(p) !! fs.files.Keys then Ok(fs.(dirs := fs.dirs + Ancestors(p)))
    else Err(FileExists(p))
  }

  /** The entry names of directory `d`. */
  function Listing(fs: Fs, d: string): set<string> {
    set q | q in fs.dirs + fs.files.Keys && q != d && Dirname(q) == d :: Basename(q)
  }

  /** `os.listdir`: fails unless `d` is a directory. */
  function ListDir(fs: Fs, d: string): (r: Result<set<string>>)
    ensures r.Ok? <==> IsDir(fs, d)
    ensures r.Ok? ==> r.value == Listing(fs, d)
  {
    if IsDir(fs, d) then Ok(Listing(fs, d)) else Err(NotADirectory(d))
  }

  /** Creates or overwrites the file at `p`. */
  function WriteFile(fs: Fs, p: string, content: Blob): Fs {
    fs.(files := fs.files[p := content])
  }

  /** `p` lies strictly below directory `d`. */
  predicate Below(p: string, d: string) {
    StartsWith(p, d + "/")
  }

  /** `shutil.rmtree(d)`: `d` and everything below it disappear. */
  function RemoveTree(fs: Fs, d: string): (r: Fs)
    ensures forall q :: q in r.dirs <==> q in fs.dirs && q != d && !Below(q, d)
    ensures forall q :: q in r.files <==> q in fs.files && q != d && !Below(q, d)
    ensures forall q :: q in r.files ==> r.files[q] == fs.files[q]
  {
    Fs(set q | q in fs.dirs && q != d && !Below(q, d),
       map q | q in fs.files && q != d && !Below(q, d) :: fs.files[q])
  }

  // ---------------------------------------------------------------------

  /** Creating a directory tree a second time changes nothing. */
  lemma MakeDirsIdempotent(fs: Fs, p: string)
    requires MakeDirs(fs, p).Ok?
    ensures MakeDirs(MakeDirs(fs, p).value, p) == MakeDirs(fs, p)
  {
    var fs' := MakeDirs(fs, p).value;
    assert fs'.dirs + Ancestors(p) == fs'.dirs;
  }

  /** Writing a file named `n` into directory `d` adds exactly `n` to the
      listing of `d`. */
  lemma {:induction false} ListingAfterWrite(fs: Fs, d: string, n: string, content: Blob)
    requires d != [] && d[|d| - 1] != '/'
    requires n != [] && '/' !in n
    ensures Listing(WriteFile(fs, Join(d, n), content), d) == Listing(fs, d) + {n}
  {
    var p := Join(d, n);
    DirnameOfJoin(d, n);
    BasenameOfJoin(d, n);
    assert n[0] != '/';
    assert p == d + "/" + n;
    assert p != d;
    var fs' := WriteFile(fs, p, content);
    assert fs'.dirs + fs'.files.Keys == fs.dirs + fs.files.Keys + {p};
  }
}

=== FILE: handlers.dfy ===
/** Choosing a frame handler for a target (`Core.suggest_handler`). The
    file-system and MIME-type tests are inputs. */
module Handlers {
  import opened Results

  datatype HandlerKind = DirectoryHandler | ImageHandler | VideoHandler

  /** Checks in a fixed order: no target, a directory, an image, a video;
      anything else is not implemented. */
  function SuggestHandler(target: Option<string>, isDir: bool, isImage: bool, isVideo: bool): (r: Result<HandlerKind>)
    ensures target.None? ==> r == Err(TargetNotSet)
    ensures r == Ok(DirectoryHandler) <==> target.Some? && isDir
    ensures r == Ok(ImageHandler) <==> target.Some? && !isDir && isImage
    ensures r == Ok(VideoHandler) <==> target.Some? && !isDir && !isImage && isVideo
    ensures r.Err? <==> target.None? || (!isDir && !isImage && !isVideo)
  {
    if target.None? then Err(TargetNotSet)
    else if isDir then Ok(DirectoryHandler)
    else if isImage then Ok(ImageHandler)
    else if isVideo then Ok(VideoHandler)
    else Err(HandlerNotImplemented)
  }
}

=== FILE: pipeline.dfy ===
/** The pipeline runner of sinner/Core.py: the stage list, the sequential
    stage loop of `run` with its stop flag and temp-resource bookkeeping,
    the output-path suggestion and the preview chain of `get_frame`.
    What the loop learns from the outside world (file types, whether a
    stage's state is finished, the state's path, whether a processor can
    be built) is an input. */
module Pipeline {
  import opened Results
  import opened PosixPath
  import opened Handlers
  import ResultStage
  import Dispatcher
  import CommandLine

  const ResultProcessorName: string := "ResultProcessor"

  /** `__init__`: a non-empty stage list gets 'ResultProcessor' appended
      unless it already holds it. */
  function WithResultProcessor(stages: seq<string>): (r: seq<string>)
    ensures stages != [] ==> ResultProcessorName in r
    ensures |stages| <= |r| && r[..|stages|] == stages
    ensures |r| == |stages| + (if stages != [] && ResultProcessorName !in stages then 1 else 0)
  {
    if stages != [] && ResultProcessorName !in stages then stages + [ResultProcessorName]
    else stages
  }

  /** What `run` learns from outside the loop. */
  datatype World = World(
    isDir: string -> bool,
    isImage: string -> bool,
    isVideo: string -> bool,
    finished: (string, string) -> bool,     // is_finished of the state for (processor, target)
    statePath: (string, string) -> string,  // `path` of the state for (processor, target)
    classes: map<string, Dispatcher.Ctor>,  // the loadable processors and their constructors
    parameters: map<string, CommandLine.Value>, // the namespace the processors are built from
    validates: string -> bool,              // `validate()` of each processor class
    raises: (string, string) -> Raise)      // where the processor's calls for (processor, target) raise

  /** Where an exception escapes a created processor: nowhere, in
      `process`, or in `release_resources`. */
  datatype Raise = Returns | InProcess | InRelease

  /** What `run` does that can be observed. */
  datatype Event =
    | Created(stage: nat, processor: string)
    | Processed(stage: nat, processor: string, target: string)
    | Released(stage: nat, processor: string)
    | TempDeleted(resources: seq<string>)

  datatype RunResult = RunResult(events: seq<Event>, resources: seq<string>, error: Option<Error>)

  /** `stop()` was called before the flag check at boundary `k`. */
  predicate StopCalled(stopCalls: seq<bool>, k: nat) {
    k < |stopCalls| && stopCalls[k]
  }

  /** The first boundary in [k, n) at which a stop call has happened, or n. */
  function FirstStop(stopCalls: seq<bool>, k: nat, n: nat): (r: nat)
    requires k <= n
    ensures k <= r <= n
    ensures forall j :: k <= j < r ==> !StopCalled(stopCalls, j)
    ensures r < n ==> StopCalled(stopCalls, r)
    decreases n - k
  {
    if k == n then n
    else if StopCalled(stopCalls, k) then k
    else FirstStop(stopCalls, k + 1, n)
  }

  /** The target stage `k` works on: the run's target for the first stage,
      then the path of the previous stage's state. */
  function Target(w: World, stages: seq<string>, t0: string, k: nat): string
    requires k <= |stages|
  {
    if k == 0 then t0 else w.statePath(stages[k - 1], Target(w, stages, t0, k - 1))
  }

  /** The exception the two-argument `BaseFrameProcessor.create` ends
      with for a stage, if any: the factory's own error, as
      `Dispatcher.CreateFromParameters` reports it. */
  function FactoryError(w: World, stage: string): (r: Option<Error>)
    ensures r.None? <==> Dispatcher.CreateFromParameters(stage, w.classes, w.parameters, w.validates).Ok?
    ensures r.Some? ==> r.value == Dispatcher.CreateFromParameters(stage, w.classes, w.parameters, w.validates).error
    ensures r.Some? ==> r.value in {InvalidProcessor(stage), ArgumentMismatch(stage), ValidationFailed}
  {
    match Dispatcher.CreateFromParameters(stage, w.classes, w.parameters, w.validates)
    case Ok(_) => None
    case Err(e) => Some(e)
  }

  /** Why a stage that is reached aborts the run, if it does. */
  function StageError(w: World, stage: string, target: string): Option<Error> {
    match SuggestHandler(Some(target), w.isDir(target), w.isImage(target), w.isVideo(target))
    case Err(e) => Some(e)
    case Ok(_) =>
      if w.finished(stage, target) then None
      else if FactoryError(w, stage).Some? then FactoryError(w, stage)
      else if !w.raises(stage, target).Returns? then Some(ProcessorRaised(stage))
      else None
  }

  /** The processor calls a failing stage `k` made before its exception
      escaped: none when the handler or the factory failed, otherwise the
      creation, the processing and, when the release raised, the release. */
  function AbortCalls(w: World, stage: string, k: nat, target: string): (r: seq<Event>)
    ensures r != [] <==> StageError(w, stage, target) == Some(ProcessorRaised(stage))
    ensures r != [] ==> |r| >= 2 && r[0] == Created(k, stage) && r[1] == Processed(k, stage, target)
    ensures |r| == 3 <==> r != [] && w.raises(stage, target).InRelease?
    ensures |r| == 3 ==> r[2] == Released(k, stage)
  {
    if StageError(w, stage, target) == Some(ProcessorRaised(stage)) then
      [Created(k, stage), Processed(k, stage, target)]
        + (if w.raises(stage, target).InRelease? then [Released(k, stage)] else [])
    else []
  }

  /** The first stage in [k, n) that aborts, or n. */
  function FirstFailure(w: World, stages: seq<string>, t0: string, k: nat, n: nat): (r: nat)
    requires k <= n <= |stages|
    ensures k <= r <= n
    ensures forall j :: k <= j < r ==> StageError(w, stages[j], Target(w, stages, t0, j)).None?
    ensures r < n ==> StageError(w, stages[r], Target(w, stages, t0, r)).Some?
    decreases n - k
  {
    if k == n then n
    else if StageError(w, stages[k], Target(w, stages, t0, k)).Some? then k
    else FirstFailure(w, stages, t0, k + 1, n)
  }

  /** The processor calls of stage `k`: none when its state is finished,
      otherwise create, process its target, release. */
  function StageCalls(w: World, stages: seq<string>, t0: string, k: nat): (r: seq<Event>)
    requires k < |stages|
    ensures forall e :: e in r ==> !e.TempDeleted? && e.stage == k
    ensures w.finished(stages[k], Target(w, stages, t0, k)) <==> r == []
  {
    if w.finished(stages[k], Target(w, stages, t0, k)) then []
    else [Created(k, stages[k]), Processed(k, stages[k], Target(w, stages, t0, k)), Released(k, stages[k])]
  }

  /** The processor calls of the first `n` stages, in stage order. */
  function StageEvents(w: World, stages: seq<string>, t0: string, n: nat): seq<Event>
    requires n <= |stages|
  {
    if n == 0 then [] else StageEvents(w, stages, t0, n - 1) + StageCalls(w, stages, t0, n - 1)
  }

  /** The state paths of the first `n` stages, in stage order. */
  function Resources(w: World, stages: seq<string>, t0: string, n: nat): (r: seq<string>)
    requires n <= |stages|
    ensures |r| == n
    ensures forall k :: 0 <= k < n ==> r[k] == Target(w, stages, t0, k + 1)
  {
    seq(n, k requires 0 <= k < n => Target(w, stages, t0, k + 1))
  }

  /** `run`. The stop flag is cleared on entry; from the first boundary at
      which a stop call is seen, every later stage is skipped. A reached
      stage aborts the run when no handler fits its target, its processor
      cannot be built, or its processing or release raises; otherwise it
      invokes its processor unless its state is finished, and its state
      path becomes the next target and a temp resource. Temp resources are
      deleted at the end unless frames are kept, also after a stop, but
      not after an abort. */
  method Run(w: World, stages: seq<string>, targetPath: string, keepFrames: bool,
             stopCalls: seq<bool>, flagBefore: bool) returns (r: RunResult)
    ensures RunOutcome(w, stages, targetPath, keepFrames, FirstStop(stopCalls, 0, |stages|), r)
  {
    var stopFlag := flagBefore;
    stopFlag := false;
    var target := targetPath;
    var resources: seq<string> := [];
    var events: seq<Event> := [];
    ghost var stop := FirstStop(stopCalls, 0, |stages|);
    ghost var done: nat := 0;  // the stages that have run: all before the stop boundary
    var i := 0;
    while i < |stages|
      invariant 0 <= i <= |stages|
      invariant stopFlag <==> stop < i
      invariant done == if stopFlag then stop else i
      invariant done <= |stages|
      invariant !stopFlag ==> target == Target(w, stages, targetPath, i)
      invariant resources == Resources(w, stages, targetPath, done)
      invariant events == StageEvents(w, stages, targetPath, done)
      invariant NoFailureBefore(w, stages, targetPath, done)
    {
      FirstStopStep(stopCalls, i, |stages|);
      stopFlag := stopFlag || StopCalled(stopCalls, i);
      if stopFlag {
        i := i + 1;
        continue;
      }
      var aborted, target', events', resources', outcome :=
        StageOrAbort(w, stages, targetPath, keepFrames, stop, i, target, events, resources);
      if aborted {
        r := outcome;
        return;
      }
      target, events, resources := target', events', resources';
      i := i + 1;
      done := i;
    }
    assert done == stop;
    r := Finish(w, stages, targetPath, keepFrames, stop, events, resources);
  }

  /** The outcome of a run that reaches the stop boundary `stop`: the
      stages before the first failing one run, a failing stage reports its
      error after the calls it made, and a run without failure deletes its
      temp resources unless frames are kept. */
  ghost predicate RunOutcome(w: World, stages: seq<string>, t0: string, keepFrames: bool, stop: nat, r: RunResult)
    requires stop <= |stages|
  {
    var end := FirstFailure(w, stages, t0, 0, stop);
    && r.resources == Resources(w, stages, t0, end)
    && r.error == (if end < stop then StageError(w, stages[end], Target(w, stages, t0, end)) else None)
    && r.events == StageEvents(w, stages, t0, end)
                   + (if end < stop then AbortCalls(w, stages[end], end, Target(w, stages, t0, end)) else [])
                   + (if end == stop && !keepFrames then [TempDeleted(r.resources)] else [])
  }

  /** A run that meets a failing stage `i` before the stop boundary ends
      there, with the bookkeeping of the stages before it. */
  method Aborted(w: World, stages: seq<string>, t0: string, keepFrames: bool, ghost stop: nat, i: nat,
                 events: seq<Event>, resources: seq<string>, abort: Option<Error>) returns (r: RunResult)
    requires i < stop <= |stages|
    requires events == StageEvents(w, stages, t0, i) + AbortCalls(w, stages[i], i, Target(w, stages, t0, i))
    requires resources == Resources(w, stages, t0, i)
    requires NoFailureBefore(w, stages, t0, i)
    requires abort == StageError(w, stages[i], Target(w, stages, t0, i)) && abort.Some?
    ensures RunOutcome(w, stages, t0, keepFrames, stop, r)
  {
    FirstFailureAt(w, stages, t0, i, stop);
    r := RunResult(events, resources, abort);
  }

  /** A run that reaches the stop boundary without a failing stage deletes
      its temp resources unless frames are kept. */
  method Finish(w: World, stages: seq<string>, t0: string, keepFrames: bool, ghost stop: nat,
                events: seq<Event>, resources: seq<string>) returns (r: RunResult)
    requires stop <= |stages|
    requires events == StageEvents(w, stages, t0, stop) && resources == Resources(w, stages, t0, stop)
    requires NoFailureBefore(w, stages, t0, stop)
    ensures RunOutcome(w, stages, t0, keepFrames, stop, r)
  {
    FirstFailureNone(w, stages, t0, stop);
    var evs := events;
    if !keepFrames {
      evs := evs + [TempDeleted(resources)];
    }
    r := RunResult(evs, resources, None);
  }

  /** One reached stage before the stop boundary: either the run ends
      there with its outcome, or the bookkeeping moves past the stage. */
  method StageOrAbort(w: World, stages: seq<string>, t0: string, keepFrames: bool, ghost stop: nat, i: nat,
                      target: string, events: seq<Event>, resources: seq<string>)
    returns (aborted: bool, target': string, events': seq<Event>, resources': seq<string>, r: RunResult)
    requires i < stop <= |stages| && target == Target(w, stages, t0, i)
    requires events == StageEvents(w, stages, t0, i) && resources == Resources(w, stages, t0, i)
    requires NoFailureBefore(w, stages, t0, i)
    ensures aborted ==> RunOutcome(w, stages, t0, keepFrames, stop, r)
    ensures !aborted ==>
      && target' == Target(w, stages, t0, i + 1)
      && events' == StageEvents(w, stages, t0, i + 1)
      && resources' == Resources(w, stages, t0, i + 1)
      && NoFailureBefore(w, stages, t0, i + 1)
  {
    var abort;
    abort, target', events', resources' := RunStage(w, stages, t0, i, target, events, resources);
    aborted := abort.Some?;
    r := RunResult([], [], None);
    if aborted {
      r := Aborted(w, stages, t0, keepFrames, stop, i, events', resources, abort);
    }
  }

  /** One reached stage of `run`: the handler check, the processor calls
      unless the stage's state is finished, and the hand-over of the
      state path as the next target and a temp resource. A failing stage
      reports its error with the calls it made. */
  method RunStage(w: World, stages: seq<string>, t0: string, i: nat,
                  target: string, events: seq<Event>, resources: seq<string>)
    returns (abort: Option<Error>, target': string, events': seq<Event>, resources': seq<string>)
    requires i < |stages| && target == Target(w, stages, t0, i)
    requires events == StageEvents(w, stages, t0, i) && resources == Resources(w, stages, t0, i)
    requires NoFailureBefore(w, stages, t0, i)
    ensures abort == StageError(w, stages[i], target)
    ensures abort.Some? ==> events' == events + AbortCalls(w, stages[i], i, target)
    ensures abort.None? ==>
      && target' == Target(w, stages, t0, i + 1)
      && events' == StageEvents(w, stages, t0, i + 1)
      && resources' == Resources(w, stages, t0, i + 1)
      && NoFailureBefore(w, stages, t0, i + 1)
  {
    target', events', resources' := target, events, resources;
    var stage := stages[i];
    var handler := SuggestHandler(Some(target), w.isDir(target), w.isImage(target), w.isVideo(target));
    if handler.Err? {
      return Some(handler.error), target', events', resources';
    }
    if !w.finished(stage, target) {
      var factory := FactoryError(w, stage);
      if factory.Some? {
        return factory, target', events', resources';
      }
      events' := events' + [Created(i, stage), Processed(i, stage, target)];
      if w.raises(stage, target).InProcess? {
        return Some(ProcessorRaised(stage)), target', events', resources';
      }
      events' := events' + [Released(i, stage)];
      if w.raises(stage, target).InRelease? {
        return Some(ProcessorRaised(stage)), target', events', resources';
      }
    }
    abort := None;
    StageDone(w, stages, t0, i);
    target' := w.statePath(stage, target);
    resources' := resources' + [target'];
  }

  /** At a boundary not yet past the first stop, the flag check decides
      whether the stop boundary is reached there. */
  lemma FirstStopStep(stopCalls: seq<bool>, i: nat, n: nat)
    requires i < n
    ensures var stop := FirstStop(stopCalls, 0, n);
      i <= stop ==> (StopCalled(stopCalls, i) <==> stop == i)
  {
  }

  /** No stage before `m` aborts the run. */
  predicate NoFailureBefore(w: World, stages: seq<string>, t0: string, m: nat)
    requires m <= |stages|
  {
    forall j :: 0 <= j < m ==> StageError(w, stages[j], Target(w, stages, t0, j)).None?
  }

  /** What one stage that does not abort adds to the run's bookkeeping. */
  lemma StageDone(w: World, stages: seq<string>, t0: string, i: nat)
    requires i < |stages|
    requires NoFailureBefore(w, stages, t0, i)
    requires StageError(w, stages[i], Target(w, stages, t0, i)).None?
    ensures NoFailureBefore(w, stages, t0, i + 1)
    ensures var t := Target(w, stages, t0, i);
      StageEvents(w, stages, t0, i + 1) == StageEvents(w, stages, t0, i)
        + (if w.finished(stages[i], t) then []
           else [Created(i, stages[i]), Processed(i, stages[i], t), Released(i, stages[i])])
    ensures Resources(w, stages, t0, i + 1) == Resources(w, stages, t0, i) + [w.statePath(stages[i], Target(w, stages, t0, i))]
  {
    StageEventsStep(w, stages, t0, i);
    ResourcesStep(w, stages, t0, i);
  }

  lemma ResourcesStep(w: World, stages: seq<string>, t0: string, i: nat)
    requires i < |stages|
    ensures Resources(w, stages, t0, i + 1) == Resources(w, stages, t0, i) + [w.statePath(stages[i], Target(w, stages, t0, i))]
  {
    var a, b := Resources(w, stages, t0, i + 1), Resources(w, stages, t0, i);
    assert a[i] == Target(w, stages, t0, i + 1);
    assert forall k :: 0 <= k < i ==> a[k] == b[k];
  }

  lemma StageEventsStep(w: World, stages: seq<string>, t0: string, i: nat)
    requires i < |stages|
    ensures var t := Target(w, stages, t0, i);
      StageEvents(w, stages, t0, i + 1) == StageEvents(w, stages, t0, i)
        + (if w.finished(stages[i], t) then []
           else [Created(i, stages[i]), Processed(i, stages[i], t), Released(i, stages[i])])
  {
  }

  lemma FirstFailureAt(w: World, stages: seq<string>, t0: string, i: nat, n: nat)
    requires i < n <= |stages|
    requires NoFailureBefore(w, stages, t0, i)
    requires StageError(w, stages[i], Target(w, stages, t0, i)).Some?
    ensures FirstFailure(w, stages, t0, 0, n) == i
  {
  }

  lemma FirstFailureNone(w: World, stages: seq<string>, t0: string, n: nat)
    requires n <= |stages|
    requires NoFailureBefore(w, stages, t0, n)
    ensures FirstFailure(w, stages, t0, 0, n) == n
  {
  }

  /** Only stages before `n` appear in the processor calls. */
  lemma {:induction false} StageEventsBelow(w: World, stages: seq<string>, t0: string, n: nat)
    requires n <= |stages|
    ensures forall e :: e in StageEvents(w, stages, t0, n) ==> !e.TempDeleted? && e.stage < n
  {
    if n > 0 {
      StageEventsBelow(w, stages, t0, n - 1);
    }
  }

  /** A stage whose state is finished leaves no trace among the processor
      calls. */
  lemma {:induction false} StageEventsSkipFinished(w: World, stages: seq<string>, t0: string, n: nat, k: nat)
    requires k < n <= |stages|
    requires w.finished(stages[k], Target(w, stages, t0, k))
    ensures forall e :: e in StageEvents(w, stages, t0, n) ==> !e.TempDeleted? && e.stage != k
  {
    var prev := StageEvents(w, stages, t0, n - 1);
    var tail := StageCalls(w, stages, t0, n - 1);
    assert StageEvents(w, stages, t0, n) == prev + tail;
    if k < n - 1 {
      StageEventsSkipFinished(w, stages, t0, n - 1, k);
    } else {
      StageEventsBelow(w, stages, t0, n - 1);
      assert tail == [];
    }
  }

  /** A stage whose state is not finished creates, uses and releases its
      processor exactly once each. */
  lemma StageEventsOnce(w: World, stages: seq<string>, t0: string, n: nat, k: nat)
    requires k < n <= |stages|
    requires !w.finished(stages[k], Target(w, stages, t0, k))
    ensures StageCalls(w, stages, t0, k)
         == [Created(k, stages[k]), Processed(k, stages[k], Target(w, stages, t0, k)), Released(k, stages[k])]
    ensures forall e :: e in StageCalls(w, stages, t0, k) ==> multiset(StageEvents(w, stages, t0, n))[e] == 1
  {
    StageEventsDistinct(w, stages, t0, n);
    forall e | e in StageCalls(w, stages, t0, k)
      ensures multiset(StageEvents(w, stages, t0, n))[e] == 1
    {
      StageEventsContain(w, stages, t0, n, k);
      DistinctOnce(StageEvents(w, stages, t0, n), e);
    }
  }

  /** No processor call repeats. */
  lemma {:induction false} StageEventsDistinct(w: World, stages: seq<string>, t0: string, n: nat)
    requires n <= |stages|
    ensures Distinct(StageEvents(w, stages, t0, n))
  {
    if n > 0 {
      StageEventsDistinct(w, stages, t0, n - 1);
      StageEventsBelow(w, stages, t0, n - 1);
      var prev := StageEvents(w, stages, t0, n - 1);
      var tail := StageCalls(w, stages, t0, n - 1);
      assert StageEvents(w, stages, t0, n) == prev + tail;
      DistinctAppend(prev, tail);
    }
  }

  /** The calls of every earlier stage are among the calls of `n` stages. */
  lemma {:induction false} StageEventsContain(w: World, stages: seq<string>, t0: string, n: nat, k: nat)
    requires k < n <= |stages|
    ensures forall e :: e in StageCalls(w, stages, t0, k) ==> e in StageEvents(w, stages, t0, n)
  {
    var prev := StageEvents(w, stages, t0, n - 1);
    var tail := StageCalls(w, stages, t0, n - 1);
    assert StageEvents(w, stages, t0, n) == prev + tail;
    if k < n - 1 {
      StageEventsContain(w, stages, t0, n - 1, k);
    }
  }

  predicate Distinct<T(==)>(s: seq<T>) {
    forall i, j :: 0 <= i < j < |s| ==> s[i] != s[j]
  }

  lemma DistinctAppend<T>(a: seq<T>, b: seq<T>)
    requires Distinct(a) && Distinct(b)
    requires forall x :: x in a ==> x !in b
    ensures Distinct(a + b)
  {
    forall i, j | 0 <= i < j < |a + b|
      ensures (a + b)[i] != (a + b)[j]
    {
      if j >= |a| && i < |a| {
        assert (a + b)[i] in a && (a + b)[j] in b;
      }
    }
  }

  lemma {:induction false} DistinctOnce<T>(s: seq<T>, e: T)
    requires e in s && Distinct(s)
    ensures multiset(s)[e] == 1
  {
    assert s == [s[0]] + s[1..];
    if s[0] == e {
      assert e !in s[1..];
    } else {
      DistinctOnce(s[1..], e);
    }
  }

  /** Every creation is followed at once by processing the stage's own
      target and then releasing the processor. */
  lemma {:induction false} StageEventsOrder(w: World, stages: seq<string>, t0: string, n: nat)
    requires n <= |stages|
    decreases n, 0
    ensures var evs := StageEvents(w, stages, t0, n);
      forall q :: 0 <= q < |evs| && evs[q].Created? ==>
        && evs[q].stage < n
        && q + 2 < |evs|
        && evs[q + 1] == Processed(evs[q].stage, evs[q].processor, Target(w, stages, t0, evs[q].stage))
        && evs[q + 2] == Released(evs[q].stage, evs[q].processor)
  {
    if n > 0 {
      var prev := StageEvents(w, stages, t0, n - 1);
      var tail := StageCalls(w, stages, t0, n - 1);
      var evs := StageEvents(w, stages, t0, n);
      assert evs == prev + tail;
      forall q | 0 <= q < |evs| && evs[q].Created?
        ensures && evs[q].stage < n
                && q + 2 < |evs|
                && evs[q + 1] == Processed(evs[q].stage, evs[q].processor, Target(w, stages, t0, evs[q].stage))
                && evs[q + 2] == Released(evs[q].stage, evs[q].processor)
      {
        if q < |prev| {
          assert prev[q] == evs[q];
          OrderAt(w, stages, t0, n - 1, q);
          OrderKept(prev, tail, q, n - 1);
        } else {
          var j := q - |prev|;
          assert tail[j] == evs[q];
          NewestOrder(w, stages, t0, n - 1, j);
          assert evs[q + 1] == tail[1] && evs[q + 2] == tail[2];
        }
      }
    }
  }

  /** The order of the calls, at one creation. */
  lemma OrderAt(w: World, stages: seq<string>, t0: string, m: nat, q: nat)
    requires m <= |stages|
    requires q < |StageEvents(w, stages, t0, m)| && StageEvents(w, stages, t0, m)[q].Created?
    ensures var evs := StageEvents(w, stages, t0, m);
      && evs[q].stage < m
      && q + 2 < |evs|
      && evs[q + 1] == Processed(evs[q].stage, evs[q].processor, Target(w, stages, t0, evs[q].stage))
      && evs[q + 2] == Released(evs[q].stage, evs[q].processor)
    decreases m, 1
  {
    StageEventsOrder(w, stages, t0, m);
  }

  /** A creation among the earlier calls keeps its two successors when
      more calls are appended. */
  lemma OrderKept(prev: seq<Event>, tail: seq<Event>, q: nat, n: nat)
    requires q < |prev| && prev[q].Created?
    requires prev[q].stage < n && q + 2 < |prev|
    ensures (prev + tail)[q] == prev[q] && (prev + tail)[q + 1] == prev[q + 1] && (prev + tail)[q + 2] == prev[q + 2]
    ensures (prev + tail)[q].stage < n + 1 && q + 2 < |prev + tail|
  {
  }

  /** In one stage's calls the creation comes first, then processing,
      then release. */
  lemma NewestOrder(w: World, stages: seq<string>, t0: string, k: nat, j: nat)
    requires k < |stages|
    requires j < |StageCalls(w, stages, t0, k)| && StageCalls(w, stages, t0, k)[j].Created?
    ensures var c := StageCalls(w, stages, t0, k);
      && j == 0 && |c| == 3 && c[0].stage == k
      && c[1] == Processed(k, c[0].processor, Target(w, stages, t0, k))
      && c[2] == Released(k, c[0].processor)
  {
  }

  /** Stopping never loses the temp clean-up: a run without abort deletes
      exactly the resources it collected unless frames are kept, and no
      stage from the stop boundary on is processed or collected. */
  lemma RunStopsAtBoundary(w: World, stages: seq<string>, t0: string, stopCalls: seq<bool>, k: nat)
    requires k < |stages| && StopCalled(stopCalls, k)
    ensures var end := FirstFailure(w, stages, t0, 0, FirstStop(stopCalls, 0, |stages|));
      end <= k && |Resources(w, stages, t0, end)| <= k
      && forall e :: e in StageEvents(w, stages, t0, end) ==> !e.TempDeleted? && e.stage < k
  {
    var end := FirstFailure(w, stages, t0, 0, FirstStop(stopCalls, 0, |stages|));
    StageEventsBelow(w, stages, t0, end);
  }

  /** `suggest_output_path` of the runner: the terminal stage's suggestion
      without a source, i.e. with the 'result-' prefix. */
  function SuggestOutputPath(target: string, output: Option<string>, outputIsDir: bool): (r: string)
    ensures r == ResultStage.SuggestOutputPath(target, None, output, outputIsDir)
  {
    var name := "result-" + Stem(target) + Ext(target);
    if output.None? then Join(Dirname(target), name)
    else if outputIsDir then Join(output.value, name)
    else output.value
  }

  /** The position of the first occurrence of `x` in `s`. */
  function FirstIndex(s: seq<string>, x: string): (i: nat)
    requires x in s
    ensures i < |s| && s[i] == x && x !in s[..i]
  {
    if s[0] == x then 0
    else
      assert x in s[1..];
      var j := FirstIndex(s[1..], x);
      assert s[..j + 1] == [s[0]] + s[1..][..j];
      j + 1
  }

  /** `list.remove`: drops the first occurrence, if any. */
  function RemoveFirst(s: seq<string>, x: string): (r: seq<string>)
    ensures x !in s ==> r == s
    ensures x in s ==> exists i :: 0 <= i < |s| && s[i] == x && x !in s[..i] && r == s[..i] + s[i + 1..]
    ensures x in s ==> |r| == |s| - 1 && multiset(r) == multiset(s) - multiset{x}
    ensures forall y :: y in r ==> y in s
  {
    if x !in s then s
    else
      var i := FirstIndex(s, x);
      RemoveAt(s, i);
      s[..i] + s[i + 1..]
  }

  /** Cutting one element out of a list removes exactly that element. */
  lemma RemoveAt(s: seq<string>, i: nat)
    requires i < |s|
    ensures var r := s[..i] + s[i + 1..];
      && |r| == |s| - 1
      && multiset(r) == multiset(s) - multiset{s[i]}
      && forall y :: y in r ==> y in s
  {
    assert s == s[..i] + [s[i]] + s[i + 1..];
  }

  /** The frame a chain's k-th stage starts from: the input frame for the
      first stage, the previous stage's output after that. */
  function Before<F>(frame: F, c: seq<(F, string)>, k: nat): F
    requires k <= |c|
  {
    if k == 0 then frame else c[k - 1].0
  }

  /** The preview chain: each stage transforms the previous frame, and the
      first failing stage ends the chain (the exception is swallowed). */
  function PreviewChain<F>(stages: seq<string>, frame: F, apply: (string, F) -> Option<F>): (r: seq<(F, string)>)
    ensures |r| <= |stages|
    ensures forall k :: 0 <= k < |r| ==> r[k].1 == stages[k]
    ensures |r| < |stages| ==> apply(stages[|r|], Before(frame, r, |r|)).None?
    ensures forall k :: 0 <= k < |r| ==> apply(stages[k], Before(frame, r, k)) == Some(r[k].0)
  {
    if stages == [] then []
    else match apply(stages[0], frame)
      case None => []
      case Some(f) => [(f, stages[0])] + PreviewChain(stages[1..], f, apply)
  }

  /** `get_frame`: nothing when the frame cannot be extracted; otherwise
      the original first and, when `processed`, the chain of all stages
      but 'ResultProcessor', which is removed from the stage list. */
  function GetFrame<F>(extracted: Option<F>, processed: bool, stages: seq<string>,
                       apply: (string, F) -> Option<F>): (r: (seq<(F, string)>, seq<string>))
    ensures extracted.None? ==> r == ([], stages)
    ensures extracted.Some? ==> |r.0| >= 1 && r.0[0] == (extracted.value, "Original")
    ensures !processed ==> r.1 == stages && (extracted.Some? ==> |r.0| == 1)
    ensures processed && extracted.Some? ==>
      r.1 == RemoveFirst(stages, ResultProcessorName)
      && |r.0| <= |r.1| + 1
      && ChainFromOriginal(r.1, apply, r.0)
  {
    match extracted
    case None => ([], stages)
    case Some(f) =>
      if !processed then ([(f, "Original")], stages)
      else
        var remaining := RemoveFirst(stages, ResultProcessorName);
        OriginalThenChain(remaining, f, apply);
        ([(f, "Original")] + PreviewChain(remaining, f, apply), remaining)
  }

  /** The preview as `get_frame` returns it: each entry after the first
      is named after its stage and is that stage applied to the entry
      before it, and the list stops at the last stage or at the first
      stage that fails. */
  ghost predicate ChainFromOriginal<F>(stages: seq<string>, apply: (string, F) -> Option<F>, c: seq<(F, string)>) {
    && 1 <= |c| <= |stages| + 1
    && (forall k :: 0 <= k < |c| - 1 ==> c[k + 1].1 == stages[k])
    && (forall k :: 0 <= k < |c| - 1 ==> apply(stages[k], c[k].0) == Some(c[k + 1].0))
    && (|c| <= |stages| ==> apply(stages[|c| - 1], c[|c| - 1].0).None?)
  }

  lemma OriginalThenChain<F>(stages: seq<string>, f: F, apply: (string, F) -> Option<F>)
    ensures ChainFromOriginal(stages, apply, [(f, "Original")] + PreviewChain(stages, f, apply))
  {
    var chain := PreviewChain(stages, f, apply);
    var c := [(f, "Original")] + chain;
    forall k | 0 <= k < |c| - 1
      ensures c[k + 1].1 == stages[k] && apply(stages[k], c[k].0) == Some(c[k + 1].0)
    {
      assert c[k + 1] == chain[k];
      assert c[k].0 == Before(f, chain, k);
    }
    assert |c| <= |stages| ==> c[|c| - 1].0 == Before(f, chain, |chain|);
  }

  /** A reference reading of the preview chain: any list of frames in
      which each stage transformed the previous frame, ending either with
      the last stage or with the first stage that fails, is the chain. */
  lemma {:induction false} ChainDeterminedBySteps<F>(stages: seq<string>, frame: F,
                                                     apply: (string, F) -> Option<F>, c: seq<(F, string)>)
    requires |c| <= |stages|
    requires forall k :: 0 <= k < |c| ==> c[k].1 == stages[k]
    requires forall k :: 0 <= k < |c| ==> apply(stages[k], Before(frame, c, k)) == Some(c[k].0)
    requires |c| < |stages| ==> apply(stages[|c|], Before(frame, c, |c|)).None?
    ensures c == PreviewChain(stages, frame, apply)
  {
    if stages == [] {
    } else if c == [] {
    } else {
      assert apply(stages[0], Before(frame, c, 0)) == Some(c[0].0);
      var tail := c[1..];
      forall k | 0 <= k < |tail|
        ensures apply(stages[1..][k], Before(c[0].0, tail, k)) == Some(tail[k].0)
      {
        assert tail[k] == c[k + 1];
        assert Before(c[0].0, tail, k) == Before(frame, c, k + 1);
      }
      assert |tail| < |stages[1..]| ==> Before(c[0].0, tail, |tail|) == Before(frame, c, |c|);
      ChainDeterminedBySteps(stages[1..], c[0].0, apply, tail);
      assert c == [(c[0].0, stages[0])] + tail;
    }
  }
}

=== FILE: posix_path.dfy ===
/** The POSIX flavour of Python's `os.path` as used by the pipeline:
    `basename`, `dirname`, `join`, `splitext`, plus the few `str` methods
    the core relies on (`startswith`, `endswith`, `lower`, `lstrip`). */
module PosixPath {

  predicate StartsWith(s: string, prefix: string) {
    |prefix| <= |s| && s[..|prefix|] == prefix
  }

  predicate EndsWith(s: string, suffix: string) {
    |suffix| <= |s| && s[|s| - |suffix|..] == suffix
  }

  /** `str.rfind` for a single character: the last index of `c`, or -1. */
  function RFind(s: string, c: char): (i: int)
    ensures -1 <= i < |s|
    ensures 0 <= i ==> s[i] == c
    ensures forall k :: i < k < |s| ==> s[k] != c
  {
    if |s| == 0 then -1
    else if s[|s| - 1] == c then |s| - 1
    else RFind(s[..|s| - 1], c)
  }

  /** `os.path.basename`: everything after the last '/'. */
  function Basename(p: string): (r: string)
    ensures '/' !in r
    ensures EndsWith(p, r)
    ensures r == p || p[|p| - |r| - 1] == '/'
  {
    p[RFind(p, '/') + 1..]
  }

  predicate AllSlashes(s: string) {
    forall k :: 0 <= k < |s| ==> s[k] == '/'
  }

  /** `str.rstrip('/')`. */
  function RStripSlashes(s: string): (r: string)
    ensures StartsWith(s, r)
    ensures r == [] || r[|r| - 1] != '/'
    ensures AllSlashes(s[|r|..])
  {
    if |s| == 0 || s[|s| - 1] != '/' then s
    else RStripSlashes(s[..|s| - 1])
  }

  /** `os.path.dirname`: the head up to the last '/', trailing slashes
      removed unless the head is made of slashes only. */
  function Dirname(p: string): (r: string)
    ensures StartsWith(p, r)
  {
    var head := p[..RFind(p, '/') + 1];
    if head != [] && !AllSlashes(head) then RStripSlashes(head) else head
  }

  /** Two-argument `os.path.join`; the n-ary form is a left fold of this. */
  function Join(a: string, b: string): string {
    if StartsWith(b, "/") then b
    else if a == [] || EndsWith(a, "/") then a + b
    else a + "/" + b
  }

  predicate HasNonDot(s: string) {
    exists k :: 0 <= k < |s| && s[k] != '.'
  }

  /** `os.path.splitext`: the extension starts at the last '.', provided it
      lies in the last path component and is not one of its leading dots. */
  function Splitext(p: string): (r: (string, string))
    ensures r.0 + r.1 == p
    ensures r.1 == [] || (r.1[0] == '.' && '.' !in r.1[1..] && '/' !in r.1)
  {
    var sep := RFind(p, '/');
    var dot := RFind(p, '.');
    if dot > sep && HasNonDot(p[sep + 1..dot]) then
      LastDotTail(p, sep, dot);
      (p[..dot], p[dot..])
    else
      WholeNameSplit(p);
      (p, "")
  }

  /** Without an extension the split is the whole path and nothing. */
  lemma WholeNameSplit(p: string)
    ensures var r: (string, string) := (p, ""); r.0 + r.1 == p && r.1 == []
  {
    assert p + "" == p;
  }

  /** The tail from the last '.', when that lies after the last '/', is
      an extension: a '.' with no other '.' and no '/' after it. */
  lemma LastDotTail(p: string, sep: int, dot: int)
    requires -1 <= sep < dot < |p| && p[dot] == '.'
    requires forall k :: dot < k < |p| ==> p[k] != '.'
    requires forall k :: sep < k < |p| ==> p[k] != '/'
    ensures p[..dot] + p[dot..] == p
    ensures var e := p[dot..]; e[0] == '.' && '.' !in e[1..] && '/' !in e
  {
    var e := p[dot..];
    assert forall k :: 0 <= k < |e| ==> e[k] == p[dot + k];
  }

  /** The file name without its extension, as `splitext(basename(p))[0]`. */
  function Stem(p: string): string {
    Splitext(Basename(p)).0
  }

  /** The extension of the file name, as `splitext(basename(p))[1]`. */
  function Ext(p: string): string {
    Splitext(Basename(p)).1
  }

  /** `str.lstrip('-')`. */
  function LStripDashes(s: string): (r: string)
    ensures EndsWith(s, r)
    ensures r == [] || r[0] != '-'
    ensures forall k :: 0 <= k < |s| - |r| ==> s[k] == '-'
  {
    if |s| > 0 && s[0] == '-' then LStripDashes(s[1..]) else s
  }

  /** `str.lower` on the ASCII range (other characters are left alone). */
  function LowerChar(c: char): char {
    if 'A' <= c <= 'Z' then (c as int + 32) as char else c
  }

  function Lower(s: string): (r: string)
    ensures |r| == |s|
    ensures forall k :: 0 <= k < |s| ==> r[k] == LowerChar(s[k])
  {
    if s == [] then [] else [LowerChar(s[0])] + Lower(s[1..])
  }

  /** `os.path.isabs`. */
  predicate IsAbsolute(p: string) {
    StartsWith(p, "/")
  }

  // ---------------------------------------------------------------------
  // Facts about the path functions that the rest of the model builds on.
  // ---------------------------------------------------------------------

  /** Splitting off the extension and gluing it back gives the base name. */
  lemma StemExt(p: string)
    ensures Stem(p) + Ext(p) == Basename(p)
  {
  }

  lemma RFindAbsent(s: string, c: char)
    requires c !in s
    ensures RFind(s, c) == -1
  {
  }

  lemma {:induction false} RFindAppended(a: string, c: char, b: string)
    requires c !in b
    ensures RFind(a + [c] + b, c) == |a|
  {
    var s := a + [c] + b;
    if b == [] {
      assert s[|s| - 1] == c;
    } else {
      var b' := b[..|b| - 1];
      assert s[..|s| - 1] == a + [c] + b';
      assert s[|s| - 1] == b[|b| - 1];
      RFindAppended(a, c, b');
    }
  }

  /** The last component of a joined path is the joined name. */
  lemma {:induction false} BasenameOfJoin(a: string, b: string)
    requires '/' !in b
    ensures Basename(Join(a, b)) == b
  {
    if a == [] || EndsWith(a, "/") {
      if a == [] {
        assert a + b == b;
        RFindAbsent(b, '/');
      } else {
        var a' := a[..|a| - 1];
        assert a == a' + "/";
        assert a + b == a' + ['/'] + b;
        RFindAppended(a', '/', b);
      }
    } else {
      assert a + "/" + b == a + ['/'] + b;
      RFindAppended(a, '/', b);
    }
  }

  /** The head of a joined path is the directory it was joined to, as long
      as that directory does not end with a slash. */
  lemma {:induction false} DirnameOfJoin(a: string, b: string)
    requires '/' !in b
    requires a == [] || a[|a| - 1] != '/'
    ensures Dirname(Join(a, b)) == a
  {
    if a == [] {
      RFindAbsent(b, '/');
      assert Join(a, b) == b;
    } else {
      assert !EndsWith(a, "/");
      var p := a + ['/'] + b;
      assert Join(a, b) == p;
      RFindAppended(a, '/', b);
      var head := p[..|a| + 1];
      assert head == a + "/";
      assert head[|a| - 1] != '/';
      assert !AllSlashes(head);
      assert RStripSlashes(head) == RStripSlashes(a);
    }
  }

  /** `join` with a plain name (no '/'): the name is appended after a
      separator unless the path is empty or already ends in '/'. */
  lemma JoinNameNotAbsolute(a: string, b: string)
    requires '/' !in b && b != []
    ensures Join(a, b) == (if a == [] || EndsWith(a, "/") then a + b else a + "/" + b)
  {
    assert b[0] != '/';
  }

  /** The extension split of a slash-free name whose last '.' starts `e`
      and whose part before it has a character other than '.'. */
  lemma SplitextAt(p: string, s: string, e: string)
    requires p == s + e && '/' !in p
    requires e != [] && e[0] == '.' && '.' !in e[1..]
    requires HasNonDot(s)
    ensures Splitext(p) == (s, e)
  {
    assert p == s + ['.'] + e[1..] by {
      assert e == ['.'] + e[1..];
    }
    RFindAppended(s, '.', e[1..]);
    RFindAbsent(p, '/');
    assert p[0..|s|] == s;
  }

  /** Splitting the extension off a name that carries one keeps it, even
      with a prefix glued in front of the name. */
  lemma {:induction false} ExtKeptUnderPrefix(prefix: string, p: string)
    requires '/' !in prefix && '/' !in p
    requires Splitext(p).1 != []
    ensures Splitext(prefix + p).1 == Splitext(p).1
    ensures Splitext(prefix + p).0 == prefix + Splitext(p).0
  {
    var s := Splitext(p).0;
    var e := Splitext(p).1;
    RFindAbsent(p, '/');
    assert HasNonDot(s) by {
      var dot := RFind(p, '.');
      assert s == p[..dot] && HasNonDot(p[0..dot]);
    }
    var k :| 0 <= k < |s| && s[k] != '.';
    assert (prefix + s)[|prefix| + k] != '.';
    assert prefix + p == (prefix + s) + e;
    SplitextAt(prefix + p, prefix + s, e);
  }

  /** Joining a non-empty slash-free name onto a path that does not end in
      a slash inserts exactly one separator. */
  lemma JoinPlain(a: string, b: string)
    requires a != [] && a[|a| - 1] != '/'
    requires b != [] && '/' !in b
    ensures Join(a, b) == a + "/" + b
    ensures var j := Join(a, b); j != [] && j[|j| - 1] != '/'
  {
    assert b[0] != '/';
    assert !EndsWith(a, "/");
    assert (a + "/" + b)[|a + "/" + b| - 1] == b[|b| - 1];
  }

  /** Joining a name that does not start with '/' keeps the path in
      front and the name at the end. */
  lemma JoinKeepsParts(a: string, b: string)
    requires b == [] || b[0] != '/'
    ensures StartsWith(Join(a, b), a) && EndsWith(Join(a, b), b)
  {
    if b != [] {
      assert !StartsWith(b, "/");
    }
    var j := Join(a, b);
    assert j[..|a|] == a;
  }

  /** Joining a non-empty slash-free name gives a path that ends in the
      name, hence is not empty and has no trailing slash. */
  lemma JoinEndsInName(a: string, b: string)
    requires b != [] && '/' !in b
    ensures var j := Join(a, b);
      j != [] && j[|j| - 1] == b[|b| - 1] && j[|j| - 1] != '/' && EndsWith(j, b)
  {
    assert b[0] != '/';
    assert b[|b| - 1] != '/';
    JoinKeepsParts(a, b);
  }

  /** `dirname` shortens every path that has a character other than '/'. */
  lemma DirnameShorter(p: string)
    requires !AllSlashes(p)
    ensures |Dirname(p)| < |p|
  {
    var k := RFind(p, '/');
    var head := p[..k + 1];
    if k + 1 == |p| {
      assert head == p;
      assert p[|p| - 1] == '/';
    }
  }

  /** A file stem never holds a '/'. */
  lemma StemHasNoSlash(p: string)
    ensures '/' !in Stem(p)
  {
    var b := Basename(p);
    assert Stem(p) + Ext(p) == b;
    assert forall k :: 0 <= k < |Stem(p)| ==> Stem(p)[k] == b[k];
  }

  /** A name without a '.' has no extension. */
  lemma NoDotNoExt(p: string)
    requires '.' !in p
    ensures Splitext(p) == (p, "")
  {
    RFindAbsent(p, '.');
  }

  /** `dirname` keeps a leading '/': the directory of a path is absolute
      exactly when the path is. */
  lemma DirnameAbsolute(p: string)
    ensures IsAbsolute(Dirname(p)) <==> IsAbsolute(p)
  {
    var r := Dirname(p);
    if IsAbsolute(p) {
      var i := RFind(p, '/');
      assert p[0] == '/';
      var head := p[..i + 1];
      assert head[0] == '/';
      if head != [] && !AllSlashes(head) {
        var k :| 0 <= k < |head| && head[k] != '/';
        var stripped := RStripSlashes(head);
        assert |stripped| > k;
        assert stripped[0] == head[0];
      }
    }
    if IsAbsolute(r) {
      assert StartsWith(p, r);
      assert p[0] == r[0];
    }
  }

  /** Joining a plain name under a directory gives an absolute path
      exactly when the directory is absolute. */
  lemma JoinNameAbsolute(a: string, b: string)
    requires '/' !in b && b != []
    ensures IsAbsolute(Join(a, b)) <==> IsAbsolute(a)
  {
    JoinNameNotAbsolute(a, b);
    var j := Join(a, b);
    if a == [] {
      assert j == b && b[0] != '/';
    } else {
      assert j[0] == a[0];
    }
  }
}


=== FILE: result_stage.dfy ===
/** The terminal stage, sinner/processors/frame/ResultProcessor.py: it does
    not transform pixels but asks the handler to assemble the processed
    frames into the output file, whose default name it derives. */
module ResultStage {
  import opened Results
  import opened PosixPath
  import opened Handlers

  /** 'result-' without a source, otherwise the source's stem and '-'. */
  function OutputPrefix(source: Option<string>): (r: string)
    ensures '/' !in r && r != []
    ensures source.None? ==> r == "result-"
    ensures source.Some? ==> r == Stem(source.value) + "-"
  {
    match source
    case None => "result-"
    case Some(s) =>
      StemHasNoSlash(s);
      Stem(s) + "-"
  }

  /** `suggest_output_path`: beside the target when no output is given,
      inside the output when it is a directory, otherwise the output
      itself. `outputIsDir` is `os.path.isdir(output)`. */
  function SuggestOutputPath(target: string, source: Option<string>, output: Option<string>,
                             outputIsDir: bool): string {
    var name := OutputPrefix(source) + Stem(target) + Ext(target);
    if output.None? then Join(Dirname(target), name)
    else if outputIsDir then Join(output.value, name)
    else output.value
  }

  /** The file name both derived cases use: the prefix, then the target's
      own base name. */
  lemma SuggestedName(target: string, source: Option<string>)
    ensures OutputPrefix(source) + Stem(target) + Ext(target) == OutputPrefix(source) + Basename(target)
  {
    var p, s, e := OutputPrefix(source), Stem(target), Ext(target);
    StemExt(target);
    SeqAssoc(p, s, e);
  }

  lemma SeqAssoc(a: string, b: string, c: string)
    ensures a + b + c == a + (b + c)
  {
  }

  /** The suggested file is named after the target with the prefix in
      front: stem and extension are the target's own, and it sits beside
      the target or inside the output directory; an output that is not a
      directory is taken as it is. */
  lemma {:induction false} SuggestedOutputNaming(target: string, source: Option<string>,
                                                 output: Option<string>, outputIsDir: bool)
    ensures var r := SuggestOutputPath(target, source, output, outputIsDir);
      var name := OutputPrefix(source) + Basename(target);
      && (output.None? ==> r == Join(Dirname(target), name))
      && (output.Some? && outputIsDir ==> r == Join(output.value, name))
      && (output.Some? && !outputIsDir ==> r == output.value)
      && (output.None? || outputIsDir ==> Basename(r) == name)
  {
    SuggestedName(target, source);
    NoSlashConcat(OutputPrefix(source), Basename(target));
    var name := OutputPrefix(source) + Basename(target);
    if output.None? {
      BasenameOfJoin(Dirname(target), name);
    } else if outputIsDir {
      BasenameOfJoin(output.value, name);
    }
  }

  lemma NoSlashConcat(a: string, b: string)
    requires '/' !in a && '/' !in b
    ensures '/' !in a + b
  {
    assert forall k :: 0 <= k < |a + b| ==> (a + b)[k] == if k < |a| then a[k] else b[k - |a|];
  }

  /** In both derived cases the suggested file keeps the target's
      extension, when the target has one. */
  lemma {:induction false} SuggestedOutputKeepsExtension(target: string, source: Option<string>,
                                                         output: Option<string>, outputIsDir: bool)
    requires output.None? || outputIsDir
    requires Ext(target) != []
    ensures Ext(SuggestOutputPath(target, source, output, outputIsDir)) == Ext(target)
  {
    SuggestedOutputNaming(target, source, output, outputIsDir);
    var prefix := OutputPrefix(source);
    ExtKeptUnderPrefix(prefix, Basename(target));
  }

  /** The `output_path` rule: only an absolute path is valid. */
  predicate OutputPathValid(output: string) {
    IsAbsolute(output)
  }

  /** The default output passes the `output_path` rule exactly when the
      path it is built on is absolute: the target's path when no output
      is given, the given output otherwise. */
  lemma SuggestionValidity(target: string, source: Option<string>, output: Option<string>, outputIsDir: bool)
    ensures OutputPathValid(SuggestOutputPath(target, source, output, outputIsDir))
            <==> IsAbsolute(if output.None? then target else output.value)
  {
    var name := OutputPrefix(source) + Stem(target) + Ext(target);
    SuggestedName(target, source);
    NoSlashConcat(OutputPrefix(source), Basename(target));
    if output.None? {
      JoinNameAbsolute(Dirname(target), name);
      DirnameAbsolute(target);
    } else if outputIsDir {
      JoinNameAbsolute(output.value, name);
    }
  }

  /** The single call `process` makes on the handler. */
  datatype ResultCall = ResultCall(fromDir: string, filename: string, audioTarget: string)

  /** `process`: picks the handler for the target (which may raise), then
      assembles from the state's target path when it is set and otherwise
      produces nothing. */
  function Process(target: string, targetIsDir: bool, targetIsImage: bool, targetIsVideo: bool,
                   stateTarget: Option<string>, output: string): (r: Result<seq<ResultCall>>)
    ensures SuggestHandler(Some(target), targetIsDir, targetIsImage, targetIsVideo).Err? <==> r.Err?
    ensures r.Ok? && stateTarget.Some? ==> r.value == [ResultCall(stateTarget.value, output, target)]
    ensures r.Ok? && stateTarget.None? ==> r.value == []
  {
    var _ :- SuggestHandler(Some(target), targetIsDir, targetIsImage, targetIsVideo);
    match stateTarget
    case Some(from) => Ok([ResultCall(from, output, target)])
    case None => Ok([])
  }

  /** `process_frame`: this stage leaves pixels alone. */
  function ProcessFrame<F>(frame: F): (r: F)
    ensures r == frame
  {
    frame
  }
}

=== FILE: results.dfy ===
/** Failure-carrying wrappers shared by every module of the model.
    Python exceptions become `Err` values; `None` becomes `Option.None`. */
module Results {

  datatype Option<+T> = None | Some(value: T) {
    function GetOr(default: T): T {
      match this
      case Some(v) => v
      case None => default
    }
  }

  /** The kinds of exception the modelled code raises or lets escape. */
  datatype Error =
    | TargetNotSet                 // Exception("The target path is not set")
    | HandlerNotImplemented        // NotImplementedError for an unknown target type
    | InvalidProcessor(name: string) // ValueError from the processor factory
    | ValidationFailed             // quit() after a failed validate()
    | ArgumentMismatch(name: string) // TypeError from calling a processor's constructor
    | ProcessorRaised(name: string)  // an exception escaping a processor's process or release
    | UnpackError                  // ValueError: wrong number of values to unpack
    | FileExists(path: string)     // FileExistsError from mkdir
    | NotADirectory(path: string)  // NotADirectoryError / FileNotFoundError from listdir
    | SaveFailed(path: string)     // Exception("Error saving frame: ...")
    | MoveTargetExists(path: string) // shutil.Error: destination path already exists
    | NotFound(path: string)       // FileNotFoundError: a missing parent directory

  datatype Result<+T> = Ok(value: T) | Err(error: Error) {
    predicate IsFailure() { Err? }

    function PropagateFailure<U>(): Result<U>
      requires Err?
    {
      Err(error)
    }

    function Extract(): T
      requires Ok?
    {
      value
    }
  }
}

=== FILE: run_state.dfy ===
/** The per-stage run state of sinner/State.py: the temp-directory layout,
    the lazily created IN/OUT directories, the zero-padded frame names and
    the progress counts derived from directory listings. Every derived
    count is recomputed from the file system, which is what lets an
    interrupted run resume. */
module RunState {
  import opened Results
  import opened PosixPath
  import opened Decimal
  import opened FileSystem

  const OutDirName: string := "OUT"
  const InDirName: string := "IN"
  const FrameSuffix: string := ".png"

  datatype State = State(
    processorName: string,
    targetPath: Option<string>,
    sourcePath: Option<string>,
    tempDir: string,
    framesCount: int,
    zfillLength: Option<int>,  // computed on first use, then kept
    inDir: Option<string>,     // created on first access
    outDir: Option<string>)

  /** An operation's value together with the state and file system it
      leaves behind; a failure keeps the side effects made before it. */
  datatype Outcome<+T> =
    | Done(value: T, st: State, fs: Fs)
    | Failed(error: Error, st: State, fs: Fs)

  /** A freshly constructed state: no width, no directories yet. */
  function NewState(processorName: string, targetPath: Option<string>, sourcePath: Option<string>,
                    tempDir: string, framesCount: int): (st: State)
    ensures st.zfillLength.None? && st.inDir.None? && st.outDir.None?
  {
    State(processorName, targetPath, sourcePath, tempDir, framesCount, None, None, None)
  }

  /** Python's `s or ''` on an optional string. */
  function OrEmpty(s: Option<string>): string {
    s.GetOr("")
  }

  /** `<temp>/<processor>/<target base>/<source base>/<dirType>`. */
  function StatePath(st: State, dirType: string): string {
    var parts := Join(Join(Join(st.tempDir, st.processorName), Basename(OrEmpty(st.targetPath))),
                      Basename(OrEmpty(st.sourcePath)));
    Join(parts, dirType)
  }

  /** A state path ends in its directory type: it is never empty and has
      no trailing slash. */
  lemma StatePathShape(st: State, dirType: string)
    requires dirType != [] && '/' !in dirType
    ensures var p := StatePath(st, dirType);
      p != [] && p[|p| - 1] != '/' && EndsWith(p, dirType)
  {
    var parts := Join(Join(Join(st.tempDir, st.processorName), Basename(OrEmpty(st.targetPath))),
                      Basename(OrEmpty(st.sourcePath)));
    JoinEndsInName(parts, dirType);
  }

  /** Nothing exists at `p`, and a file sits where one of the directories
      on the way to `p` would go, so creating `p` raises. */
  predicate Blocked(fs: Fs, p: string) {
    !Exists(fs, p) && !(Ancestors(p) !! fs.files.Keys)
  }

  /** `make_path`: creates the directory unless something already exists
      at that path. */
  function MakePath(fs: Fs, p: string): (r: Result<Fs>)
    ensures r.Err? <==> Blocked(fs, p)
    ensures Exists(fs, p) ==> r == Ok(fs)
    ensures r.Ok? && p != [] ==> Exists(r.value, p)
    ensures r.Ok? && p != [] && !Exists(fs, p) ==> IsDir(r.value, p)
    ensures r.Ok? ==> r.value.files == fs.files && fs.dirs <= r.value.dirs
  {
    if Exists(fs, p) then Ok(fs) else MakeDirs(fs, p)
  }

  /** The `out_dir` property: created and remembered on first access. */
  function OutDir(st: State, fs: Fs): (r: Outcome<string>)
    ensures st.outDir.Some? ==> r == Done(st.outDir.value, st, fs)
    ensures st.outDir.None? ==> (r.Failed? <==> Blocked(fs, StatePath(st, OutDirName)))
    ensures st.outDir.None? && r.Done? ==>
      r.value == StatePath(st, OutDirName) && r.st == st.(outDir := Some(r.value))
      && (Exists(fs, r.value) ==> r.fs == fs)
      && Exists(r.fs, r.value) && (!Exists(fs, r.value) ==> IsDir(r.fs, r.value))
    ensures r.Failed? ==> r.st == st && r.fs == fs
    ensures r.fs.files == fs.files
  {
    if st.outDir.Some? then Done(st.outDir.value, st, fs)
    else
      var p := StatePath(st, OutDirName);
      DirNamesPlain();
      StatePathShape(st, OutDirName);
      match MakePath(fs, p)
      case Ok(fs') => Done(p, st.(outDir := Some(p)), fs')
      case Err(e) => Failed(e, st, fs)
  }

  /** The `in_dir` property, symmetric to `OutDir`. */
  function InDir(st: State, fs: Fs): (r: Outcome<string>)
    ensures st.inDir.Some? ==> r == Done(st.inDir.value, st, fs)
    ensures st.inDir.None? ==> (r.Failed? <==> Blocked(fs, StatePath(st, InDirName)))
    ensures st.inDir.None? && r.Done? ==>
      r.value == StatePath(st, InDirName) && r.st == st.(inDir := Some(r.value))
      && (Exists(fs, r.value) ==> r.fs == fs)
      && Exists(r.fs, r.value) && (!Exists(fs, r.value) ==> IsDir(r.fs, r.value))
    ensures r.Failed? ==> r.st == st && r.fs == fs
    ensures r.fs.files == fs.files
  {
    if st.inDir.Some? then Done(st.inDir.value, st, fs)
    else
      var p := StatePath(st, InDirName);
      DirNamesPlain();
      StatePathShape(st, InDirName);
      match MakePath(fs, p)
      case Ok(fs') => Done(p, st.(inDir := Some(p)), fs')
      case Err(e) => Failed(e, st, fs)
  }

  /** The `out_dir` setter. */
  function SetOutDir(st: State, value: string): State {
    st.(outDir := Some(value))
  }

  /** The `in_dir` setter. */
  function SetInDir(st: State, value: string): State {
    st.(inDir := Some(value))
  }

  /** The `get_zfill_length` property: `len(str(frames_count))`, computed
      on first use and never recomputed. */
  function ZfillLength(st: State): (r: (int, State))
    ensures r.1 == st.(zfillLength := Some(r.0))
    ensures st.zfillLength.Some? ==> r.0 == st.zfillLength.value
    ensures st.zfillLength.None? ==> r.0 == |IntStr(st.framesCount)|
  {
    match st.zfillLength
    case Some(w) => (w, st)
    case None =>
      var w := |IntStr(st.framesCount)|;
      (w, st.(zfillLength := Some(w)))
  }

  /** The file name (without directory) that frame `index` gets. */
  function FrameFileName(index: int, width: int): string {
    Padded(index, width) + FrameSuffix
  }

  /** `get_frame_processed_name`: `<out_dir>/<zero-padded index>.png`. */
  function FrameProcessedName(st: State, fs: Fs, index: int): (r: Outcome<string>)
    ensures r.st.zfillLength == Some(ZfillLength(st).0)
    ensures r.Done? ==>
      r.st.outDir.Some? && r.value == Join(r.st.outDir.value, FrameFileName(index, ZfillLength(st).0))
    ensures st.outDir.Some? ==>
      r == Done(Join(st.outDir.value, FrameFileName(index, ZfillLength(st).0)), ZfillLength(st).1, fs)
    ensures st.outDir.None? ==>
      (r.Failed? <==> Blocked(fs, StatePath(st, OutDirName)))
      && (r.Done? ==> r.st.outDir == Some(StatePath(st, OutDirName)))
    ensures r.fs.files == fs.files
  {
    var (w, st1) := ZfillLength(st);
    match OutDir(st1, fs)
    case Done(d, st2, fs2) => Done(Join(d, FrameFileName(index, w)), st2, fs2)
    case Failed(e, st2, fs2) => Failed(e, st2, fs2)
  }

  /** `save_temp_frame`: writes the frame to its processed name; `written`
      is what the image writer reports. Raises exactly when it reports
      failure (or when the output directory cannot be created). */
  function SaveTempFrame(st: State, fs: Fs, frame: Blob, index: int, written: bool): (r: Outcome<()>)
    ensures FrameProcessedName(st, fs, index).Done? ==>
      var n := FrameProcessedName(st, fs, index);
      (r.Failed? <==> !written)
      && r.st == n.st
      && (written ==> r.fs == WriteFile(n.fs, n.value, frame))
      && (!written ==> r == Failed(SaveFailed(n.value), n.st, n.fs))
    ensures FrameProcessedName(st, fs, index).Failed? ==> r.Failed?
  {
    match FrameProcessedName(st, fs, index)
    case Failed(e, st1, fs1) => Failed(e, st1, fs1)
    case Done(path, st1, fs1) =>
      if written then Done((), st1, WriteFile(fs1, path, frame))
      else Failed(SaveFailed(path), st1, fs1)
  }

  /** The entries of a listing that count as frames. */
  function PngNames(listing: set<string>): (r: set<string>)
    ensures r <= listing
    ensures forall n :: n in listing && EndsWith(n, FrameSuffix) ==> n in r
    ensures forall n :: n in r ==> EndsWith(n, FrameSuffix)
  {
    set n | n in listing && EndsWith(n, FrameSuffix)
  }

  /** Counts the '.png' entries of the directory a state accessor yields. */
  function CountFrames(dir: Outcome<string>): (r: Outcome<int>)
    ensures dir.Failed? ==> r.Failed? && r.st == dir.st && r.fs == dir.fs
    ensures dir.Done? ==>
      && r.st == dir.st && r.fs == dir.fs
      && (r.Done? <==> IsDir(dir.fs, dir.value))
      && (r.Done? ==> r.value == |PngNames(Listing(dir.fs, dir.value))|)
  {
    match dir
    case Failed(e, st1, fs1) => Failed(e, st1, fs1)
    case Done(d, st1, fs1) =>
      match ListDir(fs1, d)
      case Ok(listing) => Done(|PngNames(listing)|, st1, fs1)
      case Err(e) => Failed(e, st1, fs1)
  }

  /** `processed_frames_count`: '.png' files in the output directory. */
  function ProcessedFramesCount(st: State, fs: Fs): Outcome<int> {
    CountFrames(OutDir(st, fs))
  }

  /** `extracted_frames_count`: '.png' files in the input directory. */
  function ExtractedFramesCount(st: State, fs: Fs): Outcome<int> {
    CountFrames(InDir(st, fs))
  }

  /** `unprocessed_frames_count`: `frames_count` minus the processed count,
      not clamped at zero. */
  function UnprocessedFramesCount(st: State, fs: Fs): (r: Outcome<int>)
    ensures var p := ProcessedFramesCount(st, fs);
      && (r.Done? <==> p.Done?)
      && (r.Done? ==> r.value == st.framesCount - p.value && r.st == p.st && r.fs == p.fs)
  {
    match ProcessedFramesCount(st, fs)
    case Done(n, st1, fs1) => Done(st.framesCount - n, st1, fs1)
    case Failed(e, st1, fs1) => Failed(e, st1, fs1)
  }

  /** `is_started`: some, but not all, frames are processed. */
  function IsStarted(st: State, fs: Fs): Outcome<bool> {
    match ProcessedFramesCount(st, fs)
    case Done(n, st1, fs1) => Done(st.framesCount > n > 0, st1, fs1)
    case Failed(e, st1, fs1) => Failed(e, st1, fs1)
  }

  /** `is_finished`: at least `frames_count` frames are processed. */
  function IsFinished(st: State, fs: Fs): Outcome<bool> {
    match ProcessedFramesCount(st, fs)
    case Done(n, st1, fs1) => Done(st.framesCount <= n, st1, fs1)
    case Failed(e, st1, fs1) => Failed(e, st1, fs1)
  }

  // ---------------------------------------------------------------------
  // Layout of the temp directory
  // ---------------------------------------------------------------------

  /** With plain, non-empty components the state path is the documented
      `<temp>/<processor>/<target base>/<source base>/<dirType>`; a missing
      source leaves its component out. */
  lemma StatePathLayout(st: State, dirType: string)
    requires st.tempDir != [] && st.tempDir[|st.tempDir| - 1] != '/'
    requires st.processorName != [] && '/' !in st.processorName
    requires Basename(OrEmpty(st.targetPath)) != []
    requires dirType != [] && '/' !in dirType
    ensures var tb := Basename(OrEmpty(st.targetPath));
      var sb := Basename(OrEmpty(st.sourcePath));
      StatePath(st, dirType) ==
        st.tempDir + "/" + st.processorName + "/" + tb + "/" + (if sb == [] then "" else sb + "/") + dirType
  {
    JoinsLayout(st.tempDir, st.processorName, Basename(OrEmpty(st.targetPath)),
                Basename(OrEmpty(st.sourcePath)), dirType);
  }

  lemma {:induction false} JoinsLayout(t: string, p: string, tb: string, sb: string, dt: string)
    requires t != [] && t[|t| - 1] != '/'
    requires p != [] && '/' !in p
    requires tb != [] && '/' !in tb && '/' !in sb
    requires dt != [] && '/' !in dt
    ensures Join(Join(Join(Join(t, p), tb), sb), dt) ==
      t + "/" + p + "/" + tb + "/" + (if sb == [] then "" else sb + "/") + dt
  {
    JoinPlain(t, p);
    var a := t + "/" + p;
    JoinPlain(a, tb);
    var b := a + "/" + tb;
    if sb == [] {
      assert Join(b, sb) == b + "/";
      assert dt[0] != '/';
      assert EndsWith(b + "/", "/");
      assert Join(b + "/", dt) == b + "/" + dt;
    } else {
      JoinPlain(b, sb);
      JoinPlain(b + "/" + sb, dt);
    }
  }

  /** The input and output directories of a state never coincide. */
  lemma InOutDistinct(st: State)
    ensures Basename(StatePath(st, InDirName)) == InDirName
    ensures Basename(StatePath(st, OutDirName)) == OutDirName
    ensures StatePath(st, InDirName) != StatePath(st, OutDirName)
  {
    var parts := Join(Join(Join(st.tempDir, st.processorName), Basename(OrEmpty(st.targetPath))),
                      Basename(OrEmpty(st.sourcePath)));
    DirNamesPlain();
    DistinctNamesDistinctJoins(parts, InDirName, OutDirName);
  }

  /** On first access the IN directory can be counted whenever no file
      blocks its path: the count succeeds, remembers the path and changes
      no file. */
  lemma InDirCountable(st: State, fs: Fs)
    requires st.inDir.None?
    requires Ancestors(StatePath(st, InDirName)) !! fs.files.Keys
    ensures var e := ExtractedFramesCount(st, fs);
      && e.Done? && e.st == st.(inDir := Some(StatePath(st, InDirName)))
      && e.fs.files == fs.files
  {
    DirNamesPlain();
    StatePathShape(st, InDirName);
    var p := StatePath(st, InDirName);
    assert p in Ancestors(p);
    assert !Blocked(fs, p);
    assert IsDir(InDir(st, fs).fs, p);
  }

  /** The same for the OUT directory and the processed count. */
  lemma OutDirCountable(st: State, fs: Fs)
    requires st.outDir.None?
    requires Ancestors(StatePath(st, OutDirName)) !! fs.files.Keys
    ensures var e := ProcessedFramesCount(st, fs);
      && e.Done? && e.st == st.(outDir := Some(StatePath(st, OutDirName)))
      && e.fs.files == fs.files
  {
    DirNamesPlain();
    StatePathShape(st, OutDirName);
    var p := StatePath(st, OutDirName);
    assert p in Ancestors(p);
    assert !Blocked(fs, p);
    assert IsDir(OutDir(st, fs).fs, p);
  }

  /** The state path depends on the processor, the target, the source and
      the temp directory only. */
  lemma StatePathIgnoresDirs(st: State, inDir: Option<string>, dirType: string)
    ensures StatePath(st.(inDir := inDir), dirType) == StatePath(st, dirType)
  {
  }

  /** The two directory names are different and hold no '/'. */
  lemma DirNamesPlain()
    ensures '/' !in InDirName && '/' !in OutDirName && InDirName != OutDirName
  {
    assert InDirName == ['I', 'N'] && OutDirName == ['O', 'U', 'T'];
  }

  /** Two different slash-free names joined onto one path give two
      different paths, each ending in its name. */
  lemma DistinctNamesDistinctJoins(parts: string, a: string, b: string)
    requires '/' !in a && '/' !in b && a != b
    ensures Basename(Join(parts, a)) == a && Basename(Join(parts, b)) == b
    ensures Join(parts, a) != Join(parts, b)
  {
    BasenameOfJoin(parts, a);
    BasenameOfJoin(parts, b);
  }

  /** Once created, the output directory is returned unchanged and nothing
      is created again; the setter's value wins over the computed one. */
  lemma OutDirStable(st: State, fs: Fs, value: string)
    ensures var r := OutDir(st, fs);
      r.Done? ==> OutDir(r.st, r.fs) == r
    ensures OutDir(SetOutDir(st, value), fs) == Done(value, SetOutDir(st, value), fs)
  {
  }

  /** The padding width is fixed on first use: changing `frames_count`
      afterwards does not change it. */
  lemma WidthFixedOnce(st: State, newCount: int)
    ensures var (w, st1) := ZfillLength(st);
      ZfillLength(st1.(framesCount := newCount)).0 == w
  {
  }

  // ---------------------------------------------------------------------
  // Progress predicates
  // ---------------------------------------------------------------------

  /** Started and finished are read off one processed count: started means
      strictly between 0 and `frames_count`, finished means at least
      `frames_count`, so never both; the unprocessed count is positive
      exactly when the stage is not finished. */
  lemma ProgressPredicates(st: State, fs: Fs)
    requires ProcessedFramesCount(st, fs).Done?
    ensures var n := ProcessedFramesCount(st, fs).value;
      && IsStarted(st, fs).Done? && IsFinished(st, fs).Done?
      && (IsStarted(st, fs).value <==> 0 < n < st.framesCount)
      && (IsFinished(st, fs).value <==> n >= st.framesCount)
      && !(IsStarted(st, fs).value && IsFinished(st, fs).value)
      && (UnprocessedFramesCount(st, fs).value > 0 <==> !IsFinished(st, fs).value)
  {
  }

  /** Asking again after a successful count sees the same directory and the
      same count: the accessor's side effects do not change the answer. */
  lemma CountStable(st: State, fs: Fs)
    requires ProcessedFramesCount(st, fs).Done?
    ensures var r := ProcessedFramesCount(st, fs);
      ProcessedFramesCount(r.st, r.fs) == r
  {
  }

  /** Only '.png' entries count: adding any other entry leaves the count as
      it was, adding a new '.png' entry raises it by one. */
  lemma {:induction false} OnlyPngCounts(listing: set<string>, n: string)
    ensures !EndsWith(n, FrameSuffix) ==> |PngNames(listing + {n})| == |PngNames(listing)|
    ensures EndsWith(n, FrameSuffix) && n !in listing ==>
      |PngNames(listing + {n})| == |PngNames(listing)| + 1
  {
    if EndsWith(n, FrameSuffix) {
      assert PngNames(listing + {n}) == PngNames(listing) + {n};
    } else {
      assert PngNames(listing + {n}) == PngNames(listing);
    }
  }

  // ---------------------------------------------------------------------
  // Frame names
  // ---------------------------------------------------------------------

  lemma FrameFileNameShape(index: int, width: int)
    ensures '/' !in FrameFileName(index, width)
    ensures FrameFileName(index, width) != []
    ensures EndsWith(FrameFileName(index, width), FrameSuffix)
  {
    PaddedHasNoSlash(index, width);
    assert '/' !in FrameSuffix;
    AppendPlain(Padded(index, width), FrameSuffix);
  }

  lemma PaddedHasNoSlash(index: int, width: int)
    ensures '/' !in Padded(index, width)
  {
    var p := Padded(index, width);
    if index >= 0 {
      PaddedNatValue(index, width);
      DigitsHaveNoSlash(p);
    } else {
      PaddedNegative(index, width);
      DigitsHaveNoSlash(p[1..]);
      assert p == [p[0]] + p[1..];
    }
  }

  lemma DigitsHaveNoSlash(s: string)
    requires AllDigits(s)
    ensures '/' !in s
  {
  }

  /** Two plain names glued together form a plain name ending in the
      second. */
  lemma AppendPlain(p: string, q: string)
    requires '/' !in p && '/' !in q && q != []
    ensures '/' !in p + q && p + q != [] && EndsWith(p + q, q)
  {
    var f := p + q;
    assert f[|f| - |q|..] == q;
  }

  /** Distinct indices give distinct file names, for any width. */
  lemma FrameFileNameInjective(i: int, j: int, width: int)
    requires FrameFileName(i, width) == FrameFileName(j, width)
    ensures i == j
  {
    var a, b := Padded(i, width), Padded(j, width);
    assert a == (a + FrameSuffix)[..|a|];
    assert |a| == |b|;
    assert b == (b + FrameSuffix)[..|b|];
    PaddedInjective(i, j, width);
  }

  /** Distinct indices give distinct processed paths: frames never
      overwrite one another. */
  lemma FrameProcessedNameInjective(st: State, fs: Fs, i: int, j: int)
    requires FrameProcessedName(st, fs, i).Done? && FrameProcessedName(st, fs, j).Done?
    requires FrameProcessedName(st, fs, i).value == FrameProcessedName(st, fs, j).value
    ensures i == j
  {
    var w := ZfillLength(st).0;
    var d := FrameProcessedName(st, fs, i).st.outDir.value;
    assert d == FrameProcessedName(st, fs, j).st.outDir.value;
    FrameFileNameShape(i, w);
    FrameFileNameShape(j, w);
    BasenameOfJoin(d, FrameFileName(i, w));
    BasenameOfJoin(d, FrameFileName(j, w));
    FrameFileNameInjective(i, j, w);
  }

  /** Frame 7 of 125 is "007.png"; of 9999 it is "0007.png". */
  lemma NamingExamples()
    ensures FrameFileName(7, |IntStr(125)|) == "007.png"
    ensures FrameFileName(7, |IntStr(9999)|) == "0007.png"
    ensures FrameFileName(1, |IntStr(62)|) == "01.png"
    ensures FrameFileName(62, |IntStr(62)|) == "62.png"
  {
    NamingWidths();
    NamingPadded();
  }

  lemma NamingWidths()
    ensures |IntStr(125)| == 3 && |IntStr(9999)| == 4 && |IntStr(62)| == 2
  {
    assert NatStr(125) == "125" && NatStr(9999) == "9999" && NatStr(62) == "62";
  }

  lemma NamingPadded()
    ensures Padded(7, 3) == "007" && Padded(7, 4) == "0007"
    ensures Padded(1, 2) == "01" && Padded(62, 2) == "62"
  {
    assert NatStr(7) == "7" && NatStr(1) == "1" && NatStr(62) == "62";
    assert Zeros(2) == "00" && Zeros(3) == "000" && Zeros(1) == "0";
  }

  lemma LexLessIrreflexive(a: string)
    ensures !LexLess(a, a)
  {
  }

  /** All frames of one run have names of one length, so the file names
      sort in frame order: reading the directory back sorted by name gives
      the frames in sequence, whatever order they were written in. */
  lemma {:induction false} FrameNamesSortNumerically(framesCount: int, dir: string, i: int, j: int)
    requires 1 <= i <= framesCount && 1 <= j <= framesCount
    ensures var w := |IntStr(framesCount)|;
      && |FrameFileName(i, w)| == |FrameFileName(j, w)|
      && (LexLess(Join(dir, FrameFileName(i, w)), Join(dir, FrameFileName(j, w))) <==> i < j)
  {
    var w := |IntStr(framesCount)|;
    PaddedToWidth(i, framesCount);
    PaddedToWidth(j, framesCount);
    var fa, fb := FrameFileName(i, w), FrameFileName(j, w);
    FrameFileNameShape(i, w);
    FrameFileNameShape(j, w);
    JoinComparesNames(dir, fa, fb);
    FrameNamesCompare(i, j, w);
  }

  /** Indices up to the frame count are padded to the count's width. */
  lemma PaddedToWidth(i: nat, n: nat)
    requires i <= n
    ensures |Padded(i, |IntStr(n)|)| == |IntStr(n)|
  {
    NatStrLengthMonotone(i, n);
    ZFillLength(IntStr(i), |IntStr(n)|);
  }

  /** File names of one directory compare as the names do. */
  lemma JoinComparesNames(dir: string, a: string, b: string)
    requires a != [] && b != [] && '/' !in a && '/' !in b
    ensures LexLess(Join(dir, a), Join(dir, b)) <==> LexLess(a, b)
  {
    assert a[0] != '/' && b[0] != '/';
    var pre := if dir == [] || EndsWith(dir, "/") then dir else dir + "/";
    assert Join(dir, a) == pre + a && Join(dir, b) == pre + b;
    LexLessCommonPrefix(pre, a, b);
  }

  /** Frame names padded to one length compare as their indices do. */
  lemma FrameNamesCompare(i: nat, j: nat, w: int)
    requires |Padded(i, w)| == |Padded(j, w)|
    ensures |FrameFileName(i, w)| == |FrameFileName(j, w)|
    ensures LexLess(FrameFileName(i, w), FrameFileName(j, w)) <==> i < j
  {
    var a, b := Padded(i, w), Padded(j, w);
    PaddedNatValue(i, w);
    PaddedNatValue(j, w);
    if i == j {
      LexLessIrreflexive(FrameFileName(i, w));
    } else {
      PaddedInjectiveContra(i, j, w);
      LexLessEqualHeads(a, b, FrameSuffix);
      LexLessIsNumeric(a, b);
    }
  }

  lemma PaddedInjectiveContra(i: int, j: int, width: int)
    requires i != j
    ensures Padded(i, width) != Padded(j, width)
  {
    if Padded(i, width) == Padded(j, width) {
      PaddedInjective(i, j, width);
    }
  }

  // ---------------------------------------------------------------------
  // Resumability
  // ---------------------------------------------------------------------

  /** The names of frames 1..k at one width. */
  function NamesUpTo(k: int, width: int): set<string> {
    set i | 1 <= i <= k :: FrameFileName(i, width)
  }

  lemma {:induction false} NamesUpToSize(k: nat, width: int)
    ensures |NamesUpTo(k, width)| == k
  {
    if k > 0 {
      NamesUpToSize(k - 1, width);
      assert NamesUpTo(k, width) == NamesUpTo(k - 1, width) + {FrameFileName(k, width)};
      if FrameFileName(k, width) in NamesUpTo(k - 1, width) {
        var i :| 1 <= i <= k - 1 && FrameFileName(i, width) == FrameFileName(k, width);
        FrameFileNameInjective(i, k, width);
      }
    } else {
      assert NamesUpTo(k, width) == {};
    }
  }

  /** Resume correctness: once every frame 1..`frames_count` has its file
      in the existing output directory, the stage reads as finished (and
      not started), whatever else the directory holds. */
  lemma {:induction false} AllFramesWrittenMeansFinished(st: State, fs: Fs)
    requires st.outDir.Some? && IsDir(fs, st.outDir.value)
    requires var d := st.outDir.value; d != [] && d[|d| - 1] != '/'
    requires st.zfillLength.Some?
    requires forall i :: 1 <= i <= st.framesCount ==>
      Join(st.outDir.value, FrameFileName(i, st.zfillLength.value)) in fs.files
    ensures IsFinished(st, fs) == Done(true, st, fs)
    ensures IsStarted(st, fs) == Done(false, st, fs)
  {
    var d := st.outDir.value;
    if st.framesCount > 0 {
      FramesListed(fs, d, st.zfillLength.value, st.framesCount);
    }
    assert ProcessedFramesCount(st, fs) == Done(|PngNames(Listing(fs, d))|, st, fs);
  }

  /** Frame files 1..k present in a directory make at least k PNG names
      in its listing. */
  lemma FramesListed(fs: Fs, d: string, w: int, k: nat)
    requires d != [] && d[|d| - 1] != '/'
    requires forall i :: 1 <= i <= k ==> Join(d, FrameFileName(i, w)) in fs.files
    ensures |PngNames(Listing(fs, d))| >= k
  {
    var names := NamesUpTo(k, w);
    var png := PngNames(Listing(fs, d));
    forall n | n in names
      ensures n in png
    {
      var i :| 1 <= i <= k && n == FrameFileName(i, w);
      FrameFileNameShape(i, w);
      DirnameOfJoin(d, n);
      BasenameOfJoin(d, n);
      JoinPlain(d, n);
      var p := Join(d, n);
      assert p in fs.dirs + fs.files.Keys && p != d && Dirname(p) == d;
      assert Basename(p) in Listing(fs, d);
    }
    NamesUpToSize(k, w);
    SubsetSize(names, png);
  }

  lemma SubsetSize(a: set<string>, b: set<string>)
    requires a <= b
    ensures |a| <= |b|
  {
    assert b == a + (b - a);
  }
}

=== FILE: utilities.dfy ===
/** The path and temp-file helpers of roop/utilities.py over the abstract
    file system, and the byte arithmetic of its memory limit. */
module Utilities {
  import opened Results
  import opened PosixPath
  import opened FileSystem
  import ResultStage

  const TempFile: string := "temp.mp4"
  const TempDirectory: string := "temp"

  /** `get_temp_directory_path`: `<dirname(t)>/temp/<stem(t)>`. */
  function TempDirectoryPath(targetPath: string): string {
    Join(Join(Dirname(targetPath), TempDirectory), Stem(targetPath))
  }

  /** `get_temp_output_path`: the temp video inside the temp directory. */
  function TempOutputPath(targetPath: string): string {
    Join(TempDirectoryPath(targetPath), TempFile)
  }

  /** The temp directory is named after the target's stem and sits in a
      'temp' directory beside the target. */
  lemma TempDirectoryLayout(targetPath: string)
    ensures Basename(TempDirectoryPath(targetPath)) == Stem(targetPath)
    ensures Dirname(TempDirectoryPath(targetPath)) == Join(Dirname(targetPath), TempDirectory)
  {
    var x := Join(Dirname(targetPath), TempDirectory);
    StemHasNoSlash(targetPath);
    BasenameOfJoin(x, Stem(targetPath));
    JoinKeepsParts(Dirname(targetPath), TempDirectory);
    assert x[|x| - 1] == 'p';
    DirnameOfJoin(x, Stem(targetPath));
  }

  /** The temp video is 'temp.mp4' directly inside the temp directory
      (when the target has a stem to name that directory after). */
  lemma TempOutputLayout(targetPath: string)
    requires Stem(targetPath) != []
    ensures Basename(TempOutputPath(targetPath)) == TempFile
    ensures Dirname(TempOutputPath(targetPath)) == TempDirectoryPath(targetPath)
  {
    var d := TempDirectoryPath(targetPath);
    var s := Stem(targetPath);
    var x := Join(Dirname(targetPath), TempDirectory);
    StemHasNoSlash(targetPath);
    JoinKeepsParts(Dirname(targetPath), TempDirectory);
    assert x[|x| - 1] == 'p';
    JoinPlain(x, s);
    BasenameOfJoin(d, TempFile);
    DirnameOfJoin(d, TempFile);
  }

  /** The temp directory always has a character other than '/', so its
      parent lies strictly above it. */
  lemma TempParentAbove(targetPath: string)
    ensures var temp := TempDirectoryPath(targetPath);
      var parent := Dirname(temp);
      |parent| < |temp| && parent != temp && !Below(parent, temp)
  {
    var x := Join(Dirname(targetPath), TempDirectory);
    var s := Stem(targetPath);
    var temp := TempDirectoryPath(targetPath);
    StemHasNoSlash(targetPath);
    if s != [] {
      assert s[0] in s;
    }
    JoinKeepsParts(x, s);
    JoinKeepsParts(Dirname(targetPath), TempDirectory);
    assert temp[|x| - 1] == x[|x| - 1] == 'p';
    assert !AllSlashes(temp);
    DirnameShorter(temp);
  }

  /** `normalize_output_path`: with a source and a target and an output
      directory, the output becomes `<output>/<source stem>-<target name>`;
      otherwise the output is kept. */
  function NormalizeOutputPath(sourcePath: string, targetPath: string, outputPath: string,
                               outputIsDir: bool): (r: string)
    ensures !(sourcePath != [] && targetPath != [] && outputIsDir) ==> r == outputPath
  {
    if sourcePath != [] && targetPath != [] then
      var sourceName := Stem(sourcePath);
      var targetName := Stem(targetPath);
      var targetExtension := Ext(targetPath);
      if outputIsDir then Join(outputPath, sourceName + "-" + targetName + targetExtension)
      else outputPath
    else outputPath
  }

  /** It names the file as the terminal stage's suggestion with a source
      does, so the two agree whenever the output is a directory. */
  lemma NormalizeAgreesWithSuggestion(sourcePath: string, targetPath: string, outputPath: string)
    requires sourcePath != [] && targetPath != []
    ensures NormalizeOutputPath(sourcePath, targetPath, outputPath, true)
         == ResultStage.SuggestOutputPath(targetPath, Some(sourcePath), Some(outputPath), true)
  {
  }

  /** The normalised file sits in the output directory and is named after
      the source stem and the target's base name. */
  lemma NormalizedNaming(sourcePath: string, targetPath: string, outputPath: string)
    requires sourcePath != [] && targetPath != []
    ensures var r := NormalizeOutputPath(sourcePath, targetPath, outputPath, true);
      Basename(r) == Stem(sourcePath) + "-" + Basename(targetPath)
  {
    NormalizeAgreesWithSuggestion(sourcePath, targetPath, outputPath);
    ResultStage.SuggestedOutputNaming(targetPath, Some(sourcePath), Some(outputPath), true);
  }

  // ---------------------------------------------------------------------
  // Temp files on the file system

  /** `create_temp`: makes the temp directory with its parents and returns
      it; fails when a file stands in the way. */
  function CreateTemp(fs: Fs, targetPath: string): (r: Result<(string, Fs)>)
    ensures r.Ok? ==> r.value.0 == TempDirectoryPath(targetPath)
    ensures r.Ok? ==> IsDir(r.value.1, r.value.0) && r.value.1.files == fs.files && fs.dirs <= r.value.1.dirs
    ensures r.Err? <==> exists q :: q in Ancestors(TempDirectoryPath(targetPath)) && q in fs.files
  {
    var temp := TempDirectoryPath(targetPath);
    AncestorsOfTemp(targetPath);
    var fs' :- MakeDirs(fs, temp);
    Ok((temp, fs'))
  }

  lemma AncestorsOfTemp(targetPath: string)
    ensures TempDirectoryPath(targetPath) in Ancestors(TempDirectoryPath(targetPath))
  {
    TempParentAbove(targetPath);
  }

  /** Creating the temp directory again changes nothing. */
  lemma CreateTempIdempotent(fs: Fs, targetPath: string)
    requires CreateTemp(fs, targetPath).Ok?
    ensures var (d, fs') := CreateTemp(fs, targetPath).value;
      CreateTemp(fs', targetPath) == Ok((d, fs'))
  {
    MakeDirsIdempotent(fs, TempDirectoryPath(targetPath));
  }

  /** Where `shutil.move` puts a file: inside `dst` under the file's own
      name when `dst` is a directory, otherwise at `dst`. */
  function MoveDestination(fs: Fs, src: string, dst: string): string {
    if IsDir(fs, dst) then Join(dst, Basename(src)) else dst
  }

  /** `shutil.move` of a file: fails when the file is missing, when moving
      into a directory that already holds the name, or when the
      destination's directory is missing; otherwise the file changes its
      path. */
  function Move(fs: Fs, src: string, dst: string): (r: Result<Fs>)
    ensures r.Err? <==> MoveRefused(fs, src, dst)
    ensures var dest := MoveDestination(fs, src, dst);
      r.Ok? ==> && IsFile(fs, src) && r.value.dirs == fs.dirs
                && dest in r.value.files && r.value.files[dest] == fs.files[src]
                && (src != dest ==> src !in r.value.files)
                && forall q :: q != src && q != dest ==>
                     (q in r.value.files <==> q in fs.files)
                     && (q in fs.files ==> r.value.files[q] == fs.files[q])
  {
    var dest := MoveDestination(fs, src, dst);
    if !IsFile(fs, src) then Err(NotFound(src))
    else if IsDir(fs, dst) && Exists(fs, dest) then Err(MoveTargetExists(dest))
    else if Dirname(dest) != [] && !IsDir(fs, Dirname(dest)) then Err(NotFound(dest))
    else Ok(Fs(fs.dirs, (fs.files - {src})[dest := fs.files[src]]))
  }

  /** The three refusals of `shutil.move`: no such file, the name already
      taken inside a destination directory, or no directory to put the
      file in. */
  predicate MoveRefused(fs: Fs, src: string, dst: string) {
    var dest := MoveDestination(fs, src, dst);
    || !IsFile(fs, src)
    || (IsDir(fs, dst) && Exists(fs, dest))
    || (Dirname(dest) != [] && !IsDir(fs, Dirname(dest)))
  }

  function RemoveFile(fs: Fs, p: string): (r: Fs)
    ensures r.dirs == fs.dirs && r.files.Keys == fs.files.Keys - {p}
    ensures forall q :: q in r.files ==> r.files[q] == fs.files[q]
  {
    fs.(files := fs.files - {p})
  }

  /** `move_temp`: when the temp video exists, an existing output file is
      removed and the temp video moved to the output; otherwise nothing
      happens. */
  function MoveTemp(fs: Fs, targetPath: string, outputPath: string): (r: Result<Fs>)
    ensures !IsFile(fs, TempOutputPath(targetPath)) ==> r == Ok(fs)
    ensures var temp := TempOutputPath(targetPath);
      IsFile(fs, temp) ==> (r.Err? <==> temp == outputPath || MoveRefused(fs, temp, outputPath))
  {
    var temp := TempOutputPath(targetPath);
    if IsFile(fs, temp) then ReplaceBy(fs, temp, outputPath) else Ok(fs)
  }

  /** After a successful move the output holds the temp video: at the
      output path itself, or as 'temp.mp4' inside it when the output is a
      directory; the temp video is gone and no other file changes. */
  lemma MoveTempEffect(fs: Fs, targetPath: string, outputPath: string)
    requires Stem(targetPath) != []
    requires IsFile(fs, TempOutputPath(targetPath))
    requires MoveTemp(fs, targetPath, outputPath).Ok?
    ensures var temp := TempOutputPath(targetPath);
      var dst := if IsDir(fs, outputPath) then Join(outputPath, TempFile) else outputPath;
      var fs' := MoveTemp(fs, targetPath, outputPath).value;
      && fs'.dirs == fs.dirs
      && dst in fs'.files && fs'.files[dst] == fs.files[temp]
      && (temp != dst ==> temp !in fs'.files)
      && forall q :: q != temp && q != dst && q != outputPath ==>
           (q in fs'.files <==> q in fs.files) && (q in fs.files ==> fs'.files[q] == fs.files[q])
  {
    TempOutputLayout(targetPath);
    var temp := TempOutputPath(targetPath);
    assert MoveTemp(fs, targetPath, outputPath) == ReplaceBy(fs, temp, outputPath);
    ReplaceByEffect(fs, temp, outputPath);
  }

  /** Removing an existing file at `dst`, then moving `src` there. */
  function ReplaceBy(fs: Fs, src: string, dst: string): (r: Result<Fs>)
    ensures r.Ok? ==> IsFile(fs, src) && src != dst
    ensures r.Err? <==> src == dst || MoveRefused(fs, src, dst)
  {
    var fs1 := if IsFile(fs, dst) then RemoveFile(fs, dst) else fs;
    RemovingOutputKeepsRefusals(fs, src, dst);
    Move(fs1, src, dst)
  }

  /** Deleting an existing output file first changes whether the move is
      refused only when the file being moved is that output. */
  lemma RemovingOutputKeepsRefusals(fs: Fs, src: string, dst: string)
    ensures var fs1 := if IsFile(fs, dst) then RemoveFile(fs, dst) else fs;
      MoveRefused(fs1, src, dst) <==> (IsFile(fs, dst) && src == dst) || MoveRefused(fs, src, dst)
  {
    var fs1 := if IsFile(fs, dst) then RemoveFile(fs, dst) else fs;
    assert MoveDestination(fs1, src, dst) == MoveDestination(fs, src, dst);
    var dest := MoveDestination(fs, src, dst);
    if IsDir(fs, dst) {
      assert Exists(fs1, dest) <==> Exists(fs, dest) by {
        if dest == dst {
          assert IsDir(fs1, dst);
        }
      }
    }
  }

  /** `move_temp` succeeds for an output file path whose directory exists
      and that is not the temp video itself. */
  lemma MoveTempSucceeds(fs: Fs, targetPath: string, outputPath: string)
    requires IsFile(fs, TempOutputPath(targetPath))
    requires !IsDir(fs, outputPath) && outputPath != TempOutputPath(targetPath)
    requires Dirname(outputPath) == [] || IsDir(fs, Dirname(outputPath))
    ensures MoveTemp(fs, targetPath, outputPath).Ok?
  {
  }

  lemma ReplaceByEffect(fs: Fs, src: string, dst: string)
    requires ReplaceBy(fs, src, dst).Ok?
    ensures var d := if IsDir(fs, dst) then Join(dst, Basename(src)) else dst;
      var fs' := ReplaceBy(fs, src, dst).value;
      && fs'.dirs == fs.dirs
      && d in fs'.files && fs'.files[d] == fs.files[src]
      && (src != d ==> src !in fs'.files)
      && forall q :: q != src && q != d && q != dst ==>
           (q in fs'.files <==> q in fs.files) && (q in fs.files ==> fs'.files[q] == fs.files[q])
  {
    var fs1 := if IsFile(fs, dst) then RemoveFile(fs, dst) else fs;
    assert IsDir(fs1, dst) == IsDir(fs, dst);
    assert fs1.files[src] == fs.files[src];
    var fs' := Move(fs1, src, dst).value;
    var d := MoveDestination(fs1, src, dst);
    forall q | q != src && q != d && q != dst
      ensures (q in fs'.files <==> q in fs.files) && (q in fs.files ==> fs'.files[q] == fs.files[q])
    {
      assert q in fs1.files <==> q in fs.files;
    }
  }

  /** Moving again after a successful move changes nothing: the temp video
      is no longer there. */
  lemma MoveTempOnce(fs: Fs, targetPath: string, outputPath: string)
    requires Stem(targetPath) != []
    requires IsFile(fs, TempOutputPath(targetPath))
    requires MoveTemp(fs, targetPath, outputPath).Ok?
    requires TempOutputPath(targetPath) != outputPath
    requires TempOutputPath(targetPath) != Join(outputPath, TempFile)
    ensures var fs' := MoveTemp(fs, targetPath, outputPath).value;
      MoveTemp(fs', targetPath, outputPath) == Ok(fs')
  {
    MoveTempEffect(fs, targetPath, outputPath);
  }

  /** The temp directory after the optional `rmtree`: everything outside
      the temp directory stays, and with frames not kept nothing at or
      below it is left. */
  function SweepTemp(fs: Fs, targetPath: string, keepFrames: bool): (r: Fs)
    ensures keepFrames ==> r == fs
    ensures r.files.Keys <= fs.files.Keys && r.dirs <= fs.dirs
    ensures var temp := TempDirectoryPath(targetPath);
      forall q :: q in fs.files && q != temp && !Below(q, temp) ==> q in r.files && r.files[q] == fs.files[q]
    ensures var temp := TempDirectoryPath(targetPath);
      forall q :: q in fs.dirs && q != temp && !Below(q, temp) ==> q in r.dirs
    ensures var temp := TempDirectoryPath(targetPath);
      !keepFrames && IsDir(fs, temp) ==> forall q :: q in r.dirs || q in r.files ==> q != temp && !Below(q, temp)
  {
    var temp := TempDirectoryPath(targetPath);
    if !keepFrames && IsDir(fs, temp) then RemoveTree(fs, temp) else fs
  }

  /** The tail of `clean_temp`: an existing parent is listed (which fails
      for a file) and removed when the listing is empty. */
  function RemoveIfEmpty(fs: Fs, parent: string): (r: Result<Fs>)
    ensures r.Err? <==> IsFile(fs, parent) && !IsDir(fs, parent)
    ensures r.Ok? ==> r.value.files == fs.files && r.value.dirs <= fs.dirs
    ensures r.Ok? ==> fs.dirs - {parent} <= r.value.dirs
    ensures r.Ok? ==> Listing(r.value, parent) == Listing(fs, parent)
    ensures r.Ok? && IsDir(fs, parent) ==> (parent !in r.value.dirs <==> Listing(r.value, parent) == {})
  {
    if Exists(fs, parent) then
      var entries :- ListDir(fs, parent);
      if entries == {} then
        var r := fs.(dirs := fs.dirs - {parent});
        assert Listing(r, parent) == Listing(fs, parent);
        Ok(r)
      else Ok(fs)
    else Ok(fs)
  }

  /** `clean_temp`: removes the temp directory unless frames are kept, then
      removes its parent when that exists and is empty. Listing a parent
      that is a file fails; with frames kept no file is touched. */
  function CleanTemp(fs: Fs, targetPath: string, keepFrames: bool): (r: Result<Fs>)
    ensures var parent := Dirname(TempDirectoryPath(targetPath));
      r.Err? <==> IsFile(fs, parent) && !IsDir(fs, parent)
    ensures var temp := TempDirectoryPath(targetPath);
      r.Ok? && keepFrames ==> r.value.files == fs.files && fs.dirs - {Dirname(temp)} <= r.value.dirs
  {
    var temp := TempDirectoryPath(targetPath);
    var parent := Dirname(temp);
    TempParentAbove(targetPath);
    var fs1 := SweepTemp(fs, targetPath, keepFrames);
    assert IsDir(fs1, parent) <==> IsDir(fs, parent);
    assert IsFile(fs1, parent) <==> IsFile(fs, parent);
    RemoveIfEmpty(fs1, parent)
  }

  /** Cleaning only removes: whatever lies outside the temp directory stays
      (bar the parent), and the parent goes exactly when it ends up empty. */
  lemma CleanTempPreserves(fs: Fs, targetPath: string, keepFrames: bool)
    requires CleanTemp(fs, targetPath, keepFrames).Ok?
    ensures var temp := TempDirectoryPath(targetPath);
      var parent := Dirname(temp);
      var fs' := CleanTemp(fs, targetPath, keepFrames).value;
      && fs'.files.Keys <= fs.files.Keys
      && fs'.dirs <= fs.dirs
      && (forall q :: q in fs.files && q != temp && !Below(q, temp) ==> q in fs'.files && fs'.files[q] == fs.files[q])
      && (forall q :: q in fs.dirs && q != temp && !Below(q, temp) && q != parent ==> q in fs'.dirs)
      && (IsDir(fs, parent) ==> (parent !in fs'.dirs <==> Listing(fs', parent) == {}))
  {
    var temp := TempDirectoryPath(targetPath);
    var parent := Dirname(temp);
    TempParentAbove(targetPath);
    var fs1 := SweepTemp(fs, targetPath, keepFrames);
    assert IsDir(fs1, parent) <==> IsDir(fs, parent);
    var fs' := CleanTemp(fs, targetPath, keepFrames).value;
    assert fs' == RemoveIfEmpty(fs1, parent).value;
    assert fs'.files == fs1.files;
    forall q | q in fs.dirs && q != temp && !Below(q, temp) && q != parent
      ensures q in fs'.dirs
    {
      assert q in fs1.dirs;
    }
  }

  /** Without keeping frames, nothing at or below an existing temp
      directory survives the clean-up. */
  lemma CleanTempRemovesTemp(fs: Fs, targetPath: string)
    requires CleanTemp(fs, targetPath, false).Ok?
    requires IsDir(fs, TempDirectoryPath(targetPath))
    ensures var temp := TempDirectoryPath(targetPath);
      var fs' := CleanTemp(fs, targetPath, false).value;
      forall q :: q in fs'.dirs || q in fs'.files ==> q != temp && !Below(q, temp)
  {
    var temp := TempDirectoryPath(targetPath);
    var parent := Dirname(temp);
    var fs1 := SweepTemp(fs, targetPath, false);
    assert CleanTemp(fs, targetPath, false) == RemoveIfEmpty(fs1, parent);
  }

  /** A parent that still holds anything is never removed. */
  lemma CleanTempKeepsNonEmptyParent(fs: Fs, targetPath: string, keepFrames: bool)
    requires CleanTemp(fs, targetPath, keepFrames).Ok?
    requires var parent := Dirname(TempDirectoryPath(targetPath));
      IsDir(fs, parent) && Listing(SweepTemp(fs, targetPath, keepFrames), parent) != {}
    ensures Dirname(TempDirectoryPath(targetPath)) in CleanTemp(fs, targetPath, keepFrames).value.dirs
  {
    var parent := Dirname(TempDirectoryPath(targetPath));
    var fs1 := SweepTemp(fs, targetPath, keepFrames);
    TempParentAbove(targetPath);
    assert IsDir(fs1, parent);
    assert CleanTemp(fs, targetPath, keepFrames) == RemoveIfEmpty(fs1, parent);
  }

  // ---------------------------------------------------------------------
  // Image names and the memory limit

  const ImageExtensions: seq<string> := ["png", "jpg", "jpeg"]

  /** `has_image_extension`: a case-insensitive suffix test; no dot is
      required. */
  predicate HasImageExtension(imagePath: string) {
    exists e :: e in ImageExtensions && EndsWith(Lower(imagePath), e)
  }

  lemma {:induction false} LowerConcat(a: string, b: string)
    ensures Lower(a + b) == Lower(a) + Lower(b)
  {
    if a == [] {
      assert a + b == b;
    } else {
      assert (a + b)[0] == a[0] && (a + b)[1..] == a[1..] + b;
      LowerConcat(a[1..], b);
    }
  }

  lemma LowerIdempotent(s: string)
    ensures Lower(Lower(s)) == Lower(s)
  {
    assert forall k :: 0 <= k < |s| ==> LowerChar(LowerChar(s[k])) == LowerChar(s[k]);
  }

  /** Any path ending in one of the extensions, in any letter case, is an
      image path. */
  lemma ImageExtensionAppended(p: string, e: string)
    requires Lower(e) in ImageExtensions
    ensures HasImageExtension(p + e)
  {
    LowerConcat(p, e);
    var l := Lower(p + e);
    assert l[|l| - |Lower(e)|..] == Lower(e);
  }

  /** The test ignores letter case. */
  lemma ImageExtensionCaseInsensitive(p: string)
    ensures HasImageExtension(p) <==> HasImageExtension(Lower(p))
  {
    LowerIdempotent(p);
  }

  /** A path that ends in none of the three letter groups is not an
      image path. */
  lemma NotImageWithoutExtension(p: string)
    requires !EndsWith(Lower(p), "png") && !EndsWith(Lower(p), "jpg") && !EndsWith(Lower(p), "jpeg")
    ensures !HasImageExtension(p)
  {
  }

  const GiB: int := 1024 * 1024 * 1024
  const SizeTModulus: int := 0x1_0000_0000_0000_0000

  /** How the limit is applied: the process working set on Windows (as a
      64-bit `size_t`), the data segment limit elsewhere. */
  datatype MemoryLimit = WorkingSetSize(bytes: int) | DataLimit(bytes: int)

  /** The memory limit of `limit_resources`: none for 0, otherwise
      `max_memory` GiB, scaled by a further 1024³ on macOS. */
  function LimitResources(maxMemory: int, system: string): (r: Option<MemoryLimit>)
    ensures r.None? <==> maxMemory == 0
    ensures r.Some? ==> (r.value.WorkingSetSize? <==> Lower(system) == "windows")
    ensures r.Some? && r.value.WorkingSetSize? ==> 0 <= r.value.bytes < SizeTModulus
  {
    if maxMemory != 0 then
      var memory := if Lower(system) == "darwin" then maxMemory * GiB * GiB else maxMemory * GiB;
      if Lower(system) == "windows" then Some(WorkingSetSize(memory % SizeTModulus))
      else Some(DataLimit(memory))
    else None
  }

  /** Off macOS the limit converts back to the requested number of GiB
      (on Windows as long as it fits a 64-bit size). */
  lemma LimitInGiB(maxMemory: int, system: string)
    requires maxMemory != 0 && Lower(system) != "darwin"
    requires Lower(system) == "windows" ==> 0 < maxMemory < SizeTModulus / GiB
    ensures var b := LimitResources(maxMemory, system).value.bytes;
      b % GiB == 0 && b / GiB == maxMemory
  {
    assert maxMemory * GiB / GiB == maxMemory;
  }

  /** On macOS the data limit is 1024³ times the limit used on Linux. */
  lemma DarwinScale(maxMemory: int)
    requires maxMemory != 0
    ensures LimitResources(maxMemory, "darwin").value.bytes == GiB * LimitResources(maxMemory, "linux").value.bytes
  {
    assert Lower("darwin") == "darwin";
    assert Lower("linux") != "darwin" && Lower("linux") != "windows";
    assert Lower("darwin") != "windows";
  }
}
